=== FILE: README.md ===
# gradle-locc reports, modelled in Dafny

The gradle-locc plugin counts the code, comment and blank lines of a
project's files, per file and per language. It then writes the result as
reports. This project models the part that turns the counts into reports:

- `CountsCache` holds the per-file, per-language counts map. It computes
  each derived view the first time a report asks for it and keeps it in a
  field that starts out null. The views are the languages, the total, the
  per-language counts, the per-file counts and the unrecognized files. The
  model adds a sixth view, the files of each language, which the console
  report and the cache's tests use.
- The console, CSV, text, YAML, HTML and JSON reports.

Strings are Java strings: sequences of UTF-16 code units (`JString`).
Code points are read from them as `Character.codePointAt` does. Each report
is written as a sequence of lines (the HTML report as its summary and its two
tables of cells; the JSON report as the calls it makes on its `JsonWriter`).
A report is specified twice:

- by a function that states its whole content;
- by a method that builds it with the loops of the source, proved equal to
  that function.

Each format also has a partner that reads the text back:

- a record reader for CSV that follows section 2 of RFC 4180;
- a YAML 1.2 scalar reader for the quoting and escaping of the YAML report, which takes a cautious part of the plain scalars YAML allows and none that YAML rejects;
- a character-reference decoder for the HTML escaping, in which every reference names its own code point;
- a decimal reader for the `caption: number` lines of the text and YAML reports;
- a parser from `JsonWriter` calls back to a tree of objects.

Round-trip lemmas prove that what the report writes reads back as what it
was given.

Modules:

| file | module | what |
|---|---|---|
| `wrappers.dfy` | `Wrappers` | `Option` |
| `jstring.dfy` | `JavaStrings` | UTF-16 strings, code points, decimal and hex numerals, string order |
| `counts.dfy` | `LineCounts` | `Counts`, `Language`, `Path`, sums of counts over maps |
| `sorting.dfy` | `Sorting` | sorting a set by a string key (`List.sort` with a comparator) |
| `count_utils.dfy` | `CountUtils` | the aggregations the cache asks of `CountUtils` |
| `cache.dfy` | `Cache` | `CountsCache` |
| `console.dfy` | `Console` | `ConsoleReport` |
| `csv.dfy` | `Csv` | `CsvReport` |
| `text.dfy` | `Text` | `TextReport` |
| `yaml.dfy` | `Yaml` | `YamlReport` |
| `html.dfy` | `Html` | `HtmlReport` |
| `json_events.dfy` | `JsonEvents` | the `JsonWriter` calls and the tree they stand for |
| `json.dfy` | `JsonReport` | `JsonReport` |

## Model

| member | source | states |
|---|---|---|
| Cache.CountsCache.constructor | src/main/java/org/cthing/gradle/plugins/locc/CountsCache.java:48-50 | keeps the map; every cached view starts out absent |
| Cache.CountsCache.GetPathCounts | src/main/java/org/cthing/gradle/plugins/locc/CountsCache.java:57-59 | returns the map given to the constructor |
| Cache.CountsCache.GetLanguages | src/main/java/org/cthing/gradle/plugins/locc/CountsCache.java:66-71 | returns the languages found in any file, stores them, and returns the stored set unchanged on later calls; only its own field changes |
| Cache.CountsCache.GetTotalCounts | src/main/java/org/cthing/gradle/plugins/locc/CountsCache.java:78-83 | returns the sum over all files and languages; computed once, then the stored value is returned |
| Cache.CountsCache.GetLanguageCounts | src/main/java/org/cthing/gradle/plugins/locc/CountsCache.java:90-95 | returns each language's counts summed over the files that have it; computed once |
| Cache.CountsCache.GetFileCounts | src/main/java/org/cthing/gradle/plugins/locc/CountsCache.java:102-107 | returns each recognized file's counts summed over its languages; computed once |
| Cache.CountsCache.GetUnrecognized | src/main/java/org/cthing/gradle/plugins/locc/CountsCache.java:115-120 | returns the files with an empty language map; computed once |
| Cache.CountsCache.GetLanguagePathCounts | src/main/java/org/cthing/gradle/plugins/locc/reports/ConsoleReport.java:52 | returns, for each language, the set of files it was found in; computed once |
| CountUtils.Languages | src/main/java/org/cthing/gradle/plugins/locc/CountsCache.java:68 | a language is in the result exactly when some file has counts for it |
| CountUtils.Unrecognized | src/main/java/org/cthing/gradle/plugins/locc/CountsCache.java:117 | a file is in the result exactly when it is counted and its language map is empty |
| CountUtils.LanguagePaths | src/test/java/org/cthing/gradle/plugins/locc/CountsCacheTest.java:101-107 | keyed by exactly the found languages; a file is in a language's set exactly when it was counted and that language was found in it |
| CountUtils.FileCounts | src/main/java/org/cthing/gradle/plugins/locc/CountsCache.java:104 | keyed by exactly the counted files that are not unrecognized |
| CountUtils.AllRecognizedFileCounts | src/main/java/org/cthing/gradle/plugins/locc/reports/TextReport.java:122 | every file has a per-file entry exactly when no file is unrecognized |
| CountUtils.TotalsAgree | src/main/java/org/cthing/gradle/plugins/locc/CountsCache.java:78-107 | the total equals the sum of the per-language counts and the sum of the per-file counts |
| CountUtils.LanguageCountsOfColumn | src/main/java/org/cthing/gradle/plugins/locc/CountsCache.java:90-95 | a language's counts are the sum of that language's counts in each file that has it |
| CountUtils.ComputeTotal | src/main/java/org/cthing/gradle/plugins/locc/CountsCache.java:80 | the loop over the files yields the total |
| CountUtils.FileSumsOf | src/main/java/org/cthing/gradle/plugins/locc/CountsCache.java:80 | the loop over the files yields each file's sum over its languages, the step `CountUtils.total` adds up |
| CountUtils.ComputeFileCounts | src/main/java/org/cthing/gradle/plugins/locc/CountsCache.java:104 | the loop over the files yields the per-file counts |
| CountUtils.ComputeLanguageCounts | src/main/java/org/cthing/gradle/plugins/locc/CountsCache.java:92 | the loop over the languages, summing each language's column over the files, yields the per-language counts |
| CountUtils.SumValues | src/main/java/org/cthing/gradle/plugins/locc/CountsCache.java:80 | adding up a map's counts one entry at a time yields their sum, whatever the order |
| CountUtils.FixtureSets | src/test/java/org/cthing/gradle/plugins/locc/CountsCacheTest.java:79-82 | on the unit-test fixture: languages are C++ and Java, the unrecognized file is the third, each language has its one file |
| CountUtils.FixtureFileCounts | src/test/java/org/cthing/gradle/plugins/locc/CountsCacheTest.java:109-115 | on the fixture: two per-file entries, each equal to that file's one language's counts |
| CountUtils.FixtureLanguageCounts | src/test/java/org/cthing/gradle/plugins/locc/CountsCacheTest.java:93-99 | on the fixture: two per-language entries, each equal to the one file's counts |
| CountUtils.FixtureTotal | src/test/java/org/cthing/gradle/plugins/locc/CountsCacheTest.java:84-91 | on the fixture: 12 code, 5 comment, 3 blank, 20 lines in all |
| LineCounts.SumMerge | src/main/java/org/cthing/gradle/plugins/locc/CountsCache.java:92 | merging per-language maps adds their sums |
| Sorting.Sort | src/main/java/org/cthing/gradle/plugins/locc/reports/ConsoleReport.java:50-51 | returns every element of the set once, in ascending order of the key; with distinct keys it is the one such order |
| Sorting.SortedEnumerationUnique | src/main/java/org/cthing/gradle/plugins/locc/reports/TextReport.java:110-111 | two ascending, duplicate-free listings of a set under a key with no ties are equal |
| Sorting.SortedOrderSize | src/main/java/org/cthing/gradle/plugins/locc/reports/ConsoleReport.java:50 | the sorted list has as many elements as the set |
| JavaStrings.CodePointsUtf16 | src/main/java/org/cthing/gradle/plugins/locc/reports/YamlReport.java:194-231 | walking a string by code points and re-encoding them gives back the string |
| JavaStrings.ParseNumeralRoundTrip | src/main/java/org/cthing/gradle/plugins/locc/reports/TextReport.java:143-147 | the digits `Integer.toString` writes read back as the number |
| JavaStrings.LessEqTotal | src/main/java/org/cthing/gradle/plugins/locc/reports/ConsoleReport.java:51 | `String.compareTo` order is total (also reflexive, transitive and antisymmetric: LessEqReflexive, LessEqTransitive, LessEqAntisymmetric) |
| Console.MaxWidthOfText | src/main/java/org/cthing/gradle/plugins/locc/reports/ConsoleReport.java:118-120 | the result is the larger of the width so far and the string's length |
| Console.MaxWidthOfNumber | src/main/java/org/cthing/gradle/plugins/locc/reports/ConsoleReport.java:122-124 | the result is the larger of the width so far and the number's digit count |
| Console.LeftAlignContents | src/main/java/org/cthing/gradle/plugins/locc/reports/ConsoleReport.java:126-129 | `%-Ns`: the string, then spaces up to the width |
| Console.RightAlignContents | src/main/java/org/cthing/gradle/plugins/locc/reports/ConsoleReport.java:131-134 | `%Nd`: spaces, then the digits, ending at the width |
| Console.RowWidthsFit | src/main/java/org/cthing/gradle/plugins/locc/reports/ConsoleReport.java:56-72 | each column is at least its heading's width and at least every language row's entry |
| Console.RowWidthsTight | src/main/java/org/cthing/gradle/plugins/locc/reports/ConsoleReport.java:56-72 | each column is its heading's width or the width of some row's entry, so no wider than needed |
| Console.TableWidthsFit | src/main/java/org/cthing/gradle/plugins/locc/reports/ConsoleReport.java:74-77 | the widths also fit "Total" and the total counts; the files column is left as the rows made it |
| Console.ComputeWidths | src/main/java/org/cthing/gradle/plugins/locc/reports/ConsoleReport.java:54-77 | the width loop yields the table widths |
| Console.LanguageLineLength | src/main/java/org/cthing/gradle/plugins/locc/reports/ConsoleReport.java:98-103 | a language line is exactly as long as the divider |
| Console.HeadingLineShape | src/main/java/org/cthing/gradle/plugins/locc/reports/ConsoleReport.java:85-91 | the heading ends with an unpadded "Code", so it is shorter than the divider by the code column's padding |
| Console.TotalLineLength | src/main/java/org/cthing/gradle/plugins/locc/reports/ConsoleReport.java:106-113 | the total line, with a blank files column, is exactly as long as the divider |
| Console.TableShape | src/main/java/org/cthing/gradle/plugins/locc/reports/ConsoleReport.java:79-113 | six framing lines plus one per language; dividers at the four fixed places; divider length is the widths plus four 4-space gaps; every line but the heading is that long; each row starts with its language's name |
| Console.BuildTable | src/main/java/org/cthing/gradle/plugins/locc/reports/ConsoleReport.java:83-113 | the builder yields the table lines |
| Console.WriteLanguageLines | src/main/java/org/cthing/gradle/plugins/locc/reports/ConsoleReport.java:93-104 | the row loop yields one line per language, in order |
| Console.GenerateReport | src/main/java/org/cthing/gradle/plugins/locc/reports/ConsoleReport.java:48-116 | the report is the table of the cache's languages sorted by display name; the cache stays consistent |
| Csv.Escape | src/main/java/org/cthing/gradle/plugins/locc/reports/CsvReport.java:86-89 | null becomes empty; a field needing no quotes is unchanged; otherwise it is wrapped in double quotes |
| Csv.EscapeRoundTrip | src/main/java/org/cthing/gradle/plugins/locc/reports/CsvReport.java:79-89 | a reader following RFC 4180 reads an escaped field back as the one-field record holding the original, when the field is quoted or holds no line break |
| Csv.LineBreakUnquoted | src/main/java/org/cthing/gradle/plugins/locc/reports/CsvReport.java:79-89 | a line break in a field with no comma or quote is written unquoted, and "a", LF, "b" then does not read back |
| Csv.ReadEscapedRecord | src/main/java/org/cthing/gradle/plugins/locc/reports/CsvReport.java:63-66 | comma-joined escaped fields read back as exactly those fields, when none is an unquoted field holding a line break |
| Csv.TotalRowIsRecord | src/main/java/org/cthing/gradle/plugins/locc/reports/CsvReport.java:54-56 | the `ALL` row written with `String.format` is the escaped record of its fields |
| Csv.LanguageRowIsRecord | src/main/java/org/cthing/gradle/plugins/locc/reports/CsvReport.java:63-66 | each language row is the escaped record of name, display name, description and the four counts |
| Csv.TotalRowReadsBack | src/main/java/org/cthing/gradle/plugins/locc/reports/CsvReport.java:54-56 | the `ALL` row reads back as `ALL`, `All`, `All languages` and the four totals |
| Csv.LanguageRowReadsBack | src/main/java/org/cthing/gradle/plugins/locc/reports/CsvReport.java:61-67 | a language row is the escaped record of its fields and reads back as them when its texts are recoverable |
| Csv.ReportLinesContents | src/main/java/org/cthing/gradle/plugins/locc/reports/CsvReport.java:46-76 | header line, then the `ALL` row, then one row per language; every line ends in CRLF; the `ALL` row reads back as its fields; each language row is the escaped record of its fields and reads back as them unless an unquoted text holds a line break |
| Csv.ReportSize | src/main/java/org/cthing/gradle/plugins/locc/reports/CsvReport.java:53-67 | the report has two lines plus one per language |
| Csv.WriteLanguageRows | src/main/java/org/cthing/gradle/plugins/locc/reports/CsvReport.java:61-67 | the row loop yields the language lines in order |
| Csv.GenerateReport | src/main/java/org/cthing/gradle/plugins/locc/reports/CsvReport.java:46-71 | the report is the specified lines for the cache's counts; the cache stays consistent |
| Text.CountsLineRoundTrip | src/main/java/org/cthing/gradle/plugins/locc/reports/TextReport.java:131-135 | the `Lines:` line reads back as the counts, and its total is the sum of the other three |
| Text.NumberLineRoundTrip | src/main/java/org/cthing/gradle/plugins/locc/reports/TextReport.java:143-147 | a caption-and-number line reads back as the number |
| Text.SummaryRoundTrip | src/main/java/org/cthing/gradle/plugins/locc/reports/TextReport.java:66-74 | nine summary lines: the date and the version after their captions, then seven numbers that each read back |
| Text.LanguageHeadingParts | src/main/java/org/cthing/gradle/plugins/locc/reports/TextReport.java:92-97 | the heading starts with the display name; it is the name alone exactly when there is no description; otherwise ": " and the description follow |
| Text.LanguageBlocksShape | src/main/java/org/cthing/gradle/plugins/locc/reports/TextReport.java:91-101 | three lines per language: heading, counts line, empty line |
| Text.WriteLanguageBlocks | src/main/java/org/cthing/gradle/plugins/locc/reports/TextReport.java:91-101 | the language loop yields those blocks |
| Text.SeparatedShape | src/main/java/org/cthing/gradle/plugins/locc/reports/TextReport.java:112-117 | file blocks are separated by one empty line, with none before the first or after the last |
| Text.WriteFileBlocks | src/main/java/org/cthing/gradle/plugins/locc/reports/TextReport.java:110-128 | the file loop, with its `first` flag, yields the separated blocks in path order |
| Text.WriteFileBlock | src/main/java/org/cthing/gradle/plugins/locc/reports/TextReport.java:119-127 | a file block: relative path, counts line, and the display names sorted and joined with ", " |
| Text.ReportLayout | src/main/java/org/cthing/gradle/plugins/locc/reports/TextReport.java:55-129 | title, 80 dashes, the summary, the languages section, the files section, with the line count of each part |
| Text.GenerateReport | src/main/java/org/cthing/gradle/plugins/locc/reports/TextReport.java:55-81 | the report is the specified lines for the cache's counts; the cache stays consistent |
| Text.WriteLanguages | src/main/java/org/cthing/gradle/plugins/locc/reports/TextReport.java:83-102 | the languages section, sorted by display name |
| Text.WriteFiles | src/main/java/org/cthing/gradle/plugins/locc/reports/TextReport.java:104-129 | the files section, sorted by path |
| Yaml.IndicatorsListed | src/main/java/org/cthing/gradle/plugins/locc/reports/YamlReport.java:255 | the indicator characters are exactly those listed |
| Yaml.Classify | src/main/java/org/cthing/gradle/plugins/locc/reports/YamlReport.java:244-265 | corrected classification: double quotes exactly when some character needs an escape; no quotes only for a non-empty string with no indicator, no backquote, no edge space and no `---`/`...` edge |
| Yaml.RequiresQuotes | src/main/java/org/cthing/gradle/plugins/locc/reports/YamlReport.java:244-265 | corrected classification: the scanning loop yields it |
| Yaml.CorrectionOnlyBackquote | src/main/java/org/cthing/gradle/plugins/locc/reports/YamlReport.java:255 | for a value without a backquote, the classification as written and the corrected one agree, and so do the written scalars |
| Yaml.BackquoteAsWritten | src/main/java/org/cthing/gradle/plugins/locc/reports/YamlReport.java:255 | as written, "`a" goes unquoted and does not read back as a plain scalar; corrected, it is single-quoted and reads back |
| Yaml.EscapeNext | src/main/java/org/cthing/gradle/plugins/locc/reports/YamlReport.java:195-230 | one pass of the escape loop advances past one code point and emits its escape |
| Yaml.EscapeLoop | src/main/java/org/cthing/gradle/plugins/locc/reports/YamlReport.java:194-231 | the loop yields the escape of every code point, in order |
| Yaml.WriteEscaped | src/main/java/org/cthing/gradle/plugins/locc/reports/YamlReport.java:179-234 | the value written as a plain, single-quoted or double-quoted scalar, as its corrected classification says |
| Yaml.ScalarRoundTrip | src/main/java/org/cthing/gradle/plugins/locc/reports/YamlReport.java:179-234 | with the corrected classification, a YAML 1.2 reader reads the written scalar back as the string's code points, which re-encode to the string |
| Yaml.PlainRoundTrip | src/main/java/org/cthing/gradle/plugins/locc/reports/YamlReport.java:181-184 | a value the corrected classification leaves unquoted reads back unchanged as a plain scalar, which cannot start with a backquote |
| Yaml.SingleRoundTrip | src/main/java/org/cthing/gradle/plugins/locc/reports/YamlReport.java:185-190 | a single-quoted scalar reads back unchanged |
| Yaml.DoubleRoundTrip | src/main/java/org/cthing/gradle/plugins/locc/reports/YamlReport.java:192-233 | a double-quoted, escaped scalar reads back as the code points |
| Yaml.ReadEscapedCodePoint | src/main/java/org/cthing/gradle/plugins/locc/reports/YamlReport.java:197-227 | each escape (named, `\x`, `\u`, `\U`) or kept character reads back as its code point |
| Yaml.WrittenPrintable | src/main/java/org/cthing/gradle/plugins/locc/reports/YamlReport.java:179-234 | every written character is printable ASCII |
| Yaml.ValueLinesRoundTrip | src/main/java/org/cthing/gradle/plugins/locc/reports/YamlReport.java:148-155 | a null value writes no line; otherwise one line that reads back as the value |
| Yaml.CountsLinesRoundTrip | src/main/java/org/cthing/gradle/plugins/locc/reports/YamlReport.java:135-141 | four indented lines whose numbers read back, the first being the sum of the others |
| Yaml.HeaderNumbersRoundTrip | src/main/java/org/cthing/gradle/plugins/locc/reports/YamlReport.java:77-83 | seven header lines; format version 1 and the three counts read back |
| Yaml.LanguageHeadShape | src/main/java/org/cthing/gradle/plugins/locc/reports/YamlReport.java:101-104 | name and display name lines always; description and website lines only when present |
| Yaml.WriteLanguageBlock | src/main/java/org/cthing/gradle/plugins/locc/reports/YamlReport.java:101-105 | one language's `writeln` calls yield its block: name, display name, description and website lines (none for a null), then its counts |
| Yaml.WriteLanguageBlocks | src/main/java/org/cthing/gradle/plugins/locc/reports/YamlReport.java:100-106 | the language loop yields one block per language, in order |
| Yaml.WriteLanguages | src/main/java/org/cthing/gradle/plugins/locc/reports/YamlReport.java:93-107 | the languages section, sorted by display name |
| Yaml.Writeln | src/main/java/org/cthing/gradle/plugins/locc/reports/YamlReport.java:148-155 | a caption and escaped value line, skipped for null |
| Yaml.FileLanguageLinesShape | src/main/java/org/cthing/gradle/plugins/locc/reports/YamlReport.java:126-131 | five lines per language of a file: its name, which reads back, and its indented counts |
| Yaml.FileBlockShape | src/main/java/org/cthing/gradle/plugins/locc/reports/YamlReport.java:118-131 | a file block: pathname, number of languages (reads back), counts, `languages:` and the language lines |
| Yaml.WriteFileLanguageLines | src/main/java/org/cthing/gradle/plugins/locc/reports/YamlReport.java:126-131 | the inner loop yields, per language in the order given, its name line and its counts indented by eight |
| Yaml.WriteFileBlock | src/main/java/org/cthing/gradle/plugins/locc/reports/YamlReport.java:118-131 | one file's block: relative pathname, number of languages, the file's counts, `languages:`, then its languages sorted by display name |
| Yaml.WriteFileBlocks | src/main/java/org/cthing/gradle/plugins/locc/reports/YamlReport.java:115-132 | the file loop yields one block per file, in order |
| Yaml.WriteFiles | src/main/java/org/cthing/gradle/plugins/locc/reports/YamlReport.java:109-133 | the files section, sorted by path |
| Yaml.DocumentLayout | src/main/java/org/cthing/gradle/plugins/locc/reports/YamlReport.java:76-87 | `---`, header, totals, languages, files, `...` at the stated positions |
| Yaml.ReportLayout | src/main/java/org/cthing/gradle/plugins/locc/reports/YamlReport.java:76-87 | where `languages:` and `files:` fall in the document |
| Yaml.GenerateReport | src/main/java/org/cthing/gradle/plugins/locc/reports/YamlReport.java:68-91 | the report is the specified document for the counts map |
| Html.EscapeText | src/main/java/org/cthing/gradle/plugins/locc/reports/HtmlReport.java:338-366 | corrected escape: a blank string is returned as is; otherwise every code point is escaped |
| Html.EscapeNext | src/main/java/org/cthing/gradle/plugins/locc/reports/HtmlReport.java:346-362 | corrected escape: one pass of the loop advances past one code point and emits its escape |
| Html.EscapeLoop | src/main/java/org/cthing/gradle/plugins/locc/reports/HtmlReport.java:343-363 | corrected escape: the loop yields the escape of every code point, in order |
| Html.UnescapeEscape | src/main/java/org/cthing/gradle/plugins/locc/reports/HtmlReport.java:338-366 | decoding the escaped text gives the code points, less the ones the escape drops; blank text, returned as it is, decodes to all its code points |
| Html.UnescapeCodePoint | src/main/java/org/cthing/gradle/plugins/locc/reports/HtmlReport.java:347-361 | each kept code point decodes back to itself and each dropped one to nothing |
| Html.EscapePlainText | src/main/java/org/cthing/gradle/plugins/locc/reports/HtmlReport.java:338-366 | corrected escape: printable ASCII without `&`, `<`, `>`, and tab, LF and CR, is unchanged |
| Html.EscapeNoAngles | src/main/java/org/cthing/gradle/plugins/locc/reports/HtmlReport.java:338-366 | escaped text contains no `<` and no `>` |
| Html.EscapeAsWrittenLineFeed | src/main/java/org/cthing/gradle/plugins/locc/reports/HtmlReport.java:351 | as written, "a\nb" escapes to "a10b" |
| Html.UnescapeAsWrittenLineFeed | src/main/java/org/cthing/gradle/plugins/locc/reports/HtmlReport.java:351 | as written, the escape of "a\nb" does not decode back to "a\nb" |
| Html.EscapeLineFeed | src/main/java/org/cthing/gradle/plugins/locc/reports/HtmlReport.java:351 | corrected, "a\nb" escapes to itself |
| Html.DescriptionCellParts | src/main/java/org/cthing/gradle/plugins/locc/reports/HtmlReport.java:224-233 | no description gives an empty cell; a description is escaped; with a website it is wrapped in a link |
| Html.LanguageRowsShape | src/main/java/org/cthing/gradle/plugins/locc/reports/HtmlReport.java:222-260 | one row per language with the escaped display name first, then the total row |
| Html.FileRowsShape | src/main/java/org/cthing/gradle/plugins/locc/reports/HtmlReport.java:289-321 | one row per file with the escaped pathname first and escaped languages last, then the total row |
| Html.ReportTables | src/main/java/org/cthing/gradle/plugins/locc/reports/HtmlReport.java:59-72 | the page's tables list the languages by display name and the files by path, each followed by a total |
| Html.WriteLanguageRow | src/main/java/org/cthing/gradle/plugins/locc/reports/HtmlReport.java:223-246 | one language's row |
| Html.WriteLanguageRows | src/main/java/org/cthing/gradle/plugins/locc/reports/HtmlReport.java:222-260 | the language loop yields the rows, then the total row |
| Html.WriteFileRow | src/main/java/org/cthing/gradle/plugins/locc/reports/HtmlReport.java:290-307 | one file's row, its languages sorted and joined with ", " |
| Html.WriteFileRows | src/main/java/org/cthing/gradle/plugins/locc/reports/HtmlReport.java:289-321 | the file loop yields the rows, then the total row |
| Html.WriteSummary | src/main/java/org/cthing/gradle/plugins/locc/reports/HtmlReport.java:142-199 | the summary rows, with the project name, version and date escaped |
| Html.WriteLanguages | src/main/java/org/cthing/gradle/plugins/locc/reports/HtmlReport.java:201-266 | the language table, sorted by display name |
| Html.WriteFiles | src/main/java/org/cthing/gradle/plugins/locc/reports/HtmlReport.java:268-327 | the file table, sorted by path |
| Html.GenerateReport | src/main/java/org/cthing/gradle/plugins/locc/reports/HtmlReport.java:57-72 | the page is the specified page for the cache's counts; the cache stays consistent |
| JsonEvents.DocumentRoundTrip | src/main/java/org/cthing/gradle/plugins/locc/reports/JsonReport.java:68-81 | the calls that write an object are well nested and parse back as that object |
| JsonReport.CountsRoundTrip | src/main/java/org/cthing/gradle/plugins/locc/reports/JsonReport.java:151-156 | the four count members read back as the counts, the total being the sum |
| JsonReport.ReportMemberNames | src/main/java/org/cthing/gradle/plugins/locc/reports/JsonReport.java:68-81 | the top-level member names in order |
| JsonReport.ReportMembers | src/main/java/org/cthing/gradle/plugins/locc/reports/JsonReport.java:68-81 | header members with format version 1 and the three counts, the total counts, the languages array, the files array |
| JsonReport.LanguageHeadValues | src/main/java/org/cthing/gradle/plugins/locc/reports/JsonReport.java:96-99 | name and display name are strings; description and website are `null` exactly when absent, and otherwise their text |
| JsonReport.LanguageElements | src/main/java/org/cthing/gradle/plugins/locc/reports/JsonReport.java:87-106 | one object per language, sorted by display name: name and display name as strings, description and website `null` exactly when absent and otherwise their text, then counts that read back |
| JsonReport.FileElement | src/main/java/org/cthing/gradle/plugins/locc/reports/JsonReport.java:115-146 | a file object has `unrecognized` exactly when the file is unrecognized and `languages` exactly when not; counts default to zero |
| JsonReport.FileLanguageElements | src/main/java/org/cthing/gradle/plugins/locc/reports/JsonReport.java:128-143 | one object per language of the file, sorted, with name and counts |
| JsonReport.FileCountsDefault | src/main/java/org/cthing/gradle/plugins/locc/reports/JsonReport.java:126 | `getOrDefault(path, ZERO)` is the file's sum, zero for an unrecognized file |
| JsonReport.WriteCounts | src/main/java/org/cthing/gradle/plugins/locc/reports/JsonReport.java:151-156 | the four count members, total first, whose values read back as the counts (`CountsRoundTrip`) |
| JsonReport.WriteLanguage | src/main/java/org/cthing/gradle/plugins/locc/reports/JsonReport.java:94-102 | one language's calls are the events of its object: name, display name, description, website, counts |
| JsonReport.WriteLanguageArray | src/main/java/org/cthing/gradle/plugins/locc/reports/JsonReport.java:88-105 | the language loop writes the languages array |
| JsonReport.WriteFileLanguage | src/main/java/org/cthing/gradle/plugins/locc/reports/JsonReport.java:134-139 | one language of a file: the events of an object with its name and its counts in the file |
| JsonReport.WriteFileLanguageArray | src/main/java/org/cthing/gradle/plugins/locc/reports/JsonReport.java:129-142 | the inner loop writes the `languages` array of the file's languages in the order given |
| JsonReport.WriteFile | src/main/java/org/cthing/gradle/plugins/locc/reports/JsonReport.java:116-145 | one file's calls are the events of its object: `unrecognized` only for an unrecognized file, counts defaulting to zero, `languages` only for a recognized file |
| JsonReport.WriteFileObject | src/main/java/org/cthing/gradle/plugins/locc/reports/JsonReport.java:118-145 | the calls for one file object |
| JsonReport.WriteFileElements | src/main/java/org/cthing/gradle/plugins/locc/reports/JsonReport.java:115-146 | the file loop writes one object per file, in order |
| JsonReport.WriteLanguages | src/main/java/org/cthing/gradle/plugins/locc/reports/JsonReport.java:87-106 | the languages array for the cache's counts |
| JsonReport.WriteFiles | src/main/java/org/cthing/gradle/plugins/locc/reports/JsonReport.java:108-149 | the files array for the cache's counts |
| JsonReport.GenerateReport | src/main/java/org/cthing/gradle/plugins/locc/reports/JsonReport.java:58-85 | the calls write the specified report object and parse back as it; the cache stays consistent |

## Left out

- File output, the writers and the platform line separator: each report is the sequence of its lines (CSV lines carry their CRLF). The console report's logger call is left out too.
- The project name, version, timestamp and the path relativization (`relativize`, `preparePathname`) are parameters. Gradle task wiring, report configuration and the plugin classes are not part of this model.
- `XmlReport` and the `LoccReport` container are not part of this model.
- The HTML report's fixed template text (document start and end, head, styles, page heading markup) is left out. Only the page title (the project name, written unescaped, as `Page.title`), the escaped values and the table cells are modelled.
- `JsonWriter` is modelled by its calls. Its text output, pretty printing and string escaping are external and not part of this model.
- `CountUtils` and `CsvEscaper` come from external libraries. `CountUtils` is modelled by what its results mean. Csv.Escape follows the doc comment of `escape` (CsvReport.java:79-81): it quotes a field holding a comma or a double quote and doubles the inner quotes. The library's exact code is not part of this model, so whether it also quotes a field holding CR or LF is not modelled.
- Csv.EscapeRoundTrip: promised only for a field that is quoted or holds no line break (`Recoverable`). A field with CR or LF but no comma or quote is written unquoted and ends the record at the break (`Csv.LineBreakUnquoted`).
- Csv.ReadEscapedRecord: promised only when every field is `Recoverable`, for the same reason. Csv.ReportLinesContents likewise promises the read-back of a language row only for a `RecoverableLanguage`; the `ALL` row always reads back.
- Html.EscapeText models the corrected escape, which keeps LF, TAB and CR; the code as written appends their decimal values (see Findings, and `Html.EscapeAsWritten`).
- Html.EscapeNext models one pass of the corrected loop, for the same reason (see Findings).
- Html.EscapeLoop models the corrected loop, for the same reason (see Findings). The page members built on `Html.Escape` use the corrected escape too.
- Html.EscapePlainText is stated of the corrected escape; as written, TAB, LF and CR become digits (see Findings).
- Cache.CountsCache.GetLanguagePathCounts has no field or method in `CountsCache` (CountsCache.java:36-46 declares the counts map and five memo fields). It is rebuilt from its uses in the console report (ConsoleReport.java:52, 64, 95) and from the cache's tests (CountsCacheTest.java:101-107).
- Counts are unbounded naturals. Java `int` overflow of line counts and of sums is not modelled.
- Sorting by display name: when two distinct languages share a display name, the source's stable sort keeps an order that depends on the map. The report methods therefore require display names to be distinct among the languages (`InjectiveOn`). Without that requirement, `Sorting.Sort` still gives a sorted, duplicate-free listing.
- Path ordering uses the order of the path strings. `Path.compareTo` on the platform may differ.
- Text, HTML and YAML file rows look up a file's counts without a default. The source throws on an unrecognized file there. The model requires every file to be recognized (`AllRecognized`) instead of modelling that exception.
- Yaml.GenerateReport takes the raw counts map, not the cache, because `YamlReport.generateReport` does.
- Yaml.ScalarRoundTrip: the reader accepts only the hex digits the writer emits (upper case). A plain scalar is read as a string; YAML type resolution (numbers, booleans, null) is not modelled. Lone surrogates round-trip as their own code points.
- Yaml.Classify models the corrected classification, in which a backquote asks for single quotes; the list as written leaves it out (see Findings, and `Yaml.ClassifyAsWritten`).
- Yaml.RequiresQuotes models the corrected loop, for the same reason (see Findings). `Yaml.WriteEscaped`, `Yaml.Written` and the report members built on them use the corrected classification too.
- Yaml.ScalarRoundTrip is proved for the corrected classification. As written, a value such as "`a" is written unquoted and does not read back (`Yaml.BackquoteAsWritten`).
- Html.UnescapeEscape: the decoder takes `&#x80;` to `&#x9F;` as the C1 control code points they name. HTML parsers instead map 27 of them to windows-1252 characters (`&#x80;` reads as U+20AC), so for U+0080 to U+009F the round trip is not what a browser displays.
- Yaml.EscapeNext and Html.EscapeNext state the emitted piece through the escape of the rest of the string, not as the escape of one code point directly.

## Findings

| source | as written | input that shows it | evidently intended | confidence | as-written member | corrected member |
|---|---|---|---|---|---|---|
| src/main/java/org/cthing/gradle/plugins/locc/reports/HtmlReport.java:351 | `buffer.append(ch)` with `int ch` calls `StringBuilder.append(int)`, which writes the decimal digits of the code point | "a\nb" escapes to "a10b" (likewise tab to "9", CR to "13") | keep the line feed, tab or carriage return character itself | not executed | Html.UnescapeAsWrittenLineFeed | Html.UnescapeEscape |
| src/main/java/org/cthing/gradle/plugins/locc/reports/YamlReport.java:255 | the list of indicator characters has no backquote, which YAML 1.2 reserves as an indicator (rules [21] and [22]) and does not allow as the first character of a plain scalar (rule [126]) | "`a" is classified as needing no quotes and written unquoted, which a YAML 1.2 parser rejects | a backquote asks for single quotes like the other indicators | not executed | Yaml.BackquoteAsWritten | Yaml.ScalarRoundTrip |

=== FILE: cache.dfy ===
/**
 * `CountsCache`: holds the per-file, per-language counts and computes each
 * derived view the first time a report asks for it, keeping the result in a
 * field that starts out null (here `None`).
 */
module Cache {
  import opened Wrappers
  import opened JavaStrings
  import opened LineCounts
  import opened CountUtils

  class CountsCache {
    const pathCounts: PathCounts
    var languages: Option<set<Language>>
    var totalCounts: Option<Counts>
    var languageCounts: Option<map<Language, Counts>>
    var fileCounts: Option<map<Path, Counts>>
    var unrecognized: Option<set<Path>>
    var languagePathCounts: Option<map<Language, set<Path>>>

    /** Every view computed so far is the view of `pathCounts`. */
    ghost predicate Valid()
      reads this
    {
      && (languages.Some? ==> languages.value == Languages(pathCounts))
      && (totalCounts.Some? ==> totalCounts.value == TotalCounts(pathCounts))
      && (languageCounts.Some? ==> languageCounts.value == LanguageCounts(pathCounts))
      && (fileCounts.Some? ==> fileCounts.value == FileCounts(pathCounts))
      && (unrecognized.Some? ==> unrecognized.value == Unrecognized(pathCounts))
      && (languagePathCounts.Some? ==> languagePathCounts.value == LanguagePaths(pathCounts))
    }

    /** Stores the map; no view is computed yet. */
    constructor (pathCounts: PathCounts)
      ensures Valid()
      ensures this.pathCounts == pathCounts
      ensures languages == None && totalCounts == None && languageCounts == None
      ensures fileCounts == None && unrecognized == None && languagePathCounts == None
    {
      this.pathCounts := pathCounts;
      languages := None;
      totalCounts := None;
      languageCounts := None;
      fileCounts := None;
      unrecognized := None;
      languagePathCounts := None;
    }

    /** `getPathCounts`: the map given to the constructor, unchanged. */
    method GetPathCounts() returns (r: PathCounts)
      ensures r == pathCounts
    {
      r := pathCounts;
    }

    /** `getLanguages`: the languages found in any file, computed on first use. */
    method GetLanguages() returns (r: set<Language>)
      requires Valid()
      modifies this`languages
      ensures Valid()
      ensures r == Languages(pathCounts) && languages == Some(r)
      ensures old(languages).Some? ==> r == old(languages).value
    {
      if languages.None? {
        languages := Some(Languages(pathCounts));
      }
      r := languages.value;
    }

    /** `getTotalCounts`: everything counted, computed on first use. */
    method GetTotalCounts() returns (r: Counts)
      requires Valid()
      modifies this`totalCounts
      ensures Valid()
      ensures r == TotalCounts(pathCounts) && totalCounts == Some(r)
      ensures old(totalCounts).Some? ==> r == old(totalCounts).value
    {
      if totalCounts.None? {
        var c := ComputeTotal(pathCounts);
        totalCounts := Some(c);
      }
      r := totalCounts.value;
    }

    /** `getLanguageCounts`: each language's counts over all files, computed on first use. */
    method GetLanguageCounts() returns (r: map<Language, Counts>)
      requires Valid()
      modifies this`languageCounts
      ensures Valid()
      ensures r == LanguageCounts(pathCounts) && languageCounts == Some(r)
      ensures old(languageCounts).Some? ==> r == old(languageCounts).value
    {
      if languageCounts.None? {
        var m := ComputeLanguageCounts(pathCounts);
        languageCounts := Some(m);
      }
      r := languageCounts.value;
    }

    /** `getFileCounts`: each recognized file's counts over its languages, computed on first use. */
    method GetFileCounts() returns (r: map<Path, Counts>)
      requires Valid()
      modifies this`fileCounts
      ensures Valid()
      ensures r == FileCounts(pathCounts) && fileCounts == Some(r)
      ensures old(fileCounts).Some? ==> r == old(fileCounts).value
    {
      if fileCounts.None? {
        var m := ComputeFileCounts(pathCounts);
        fileCounts := Some(m);
      }
      r := fileCounts.value;
    }

    /** `getUnrecognized`: the files with no recognized language, computed on first use. */
    method GetUnrecognized() returns (r: set<Path>)
      requires Valid()
      modifies this`unrecognized
      ensures Valid()
      ensures r == Unrecognized(pathCounts) && unrecognized == Some(r)
      ensures old(unrecognized).Some? ==> r == old(unrecognized).value
    {
      if unrecognized.None? {
        unrecognized := Some(Unrecognized(pathCounts));
      }
      r := unrecognized.value;
    }

    /** `getLanguagePathCounts`: for each language, the files containing it, computed on first use. */
    method GetLanguagePathCounts() returns (r: map<Language, set<Path>>)
      requires Valid()
      modifies this`languagePathCounts
      ensures Valid()
      ensures r == LanguagePaths(pathCounts) && languagePathCounts == Some(r)
      ensures old(languagePathCounts).Some? ==> r == old(languagePathCounts).value
    {
      if languagePathCounts.None? {
        languagePathCounts := Some(LanguagePaths(pathCounts));
      }
      r := languagePathCounts.value;
    }
  }
}

=== FILE: console.dfy ===
/**
 * `ConsoleReport`: a table of languages (display name, number of files,
 * blank, comment and code lines) between dashed dividers, with a total row.
 * Every column is as wide as its widest cell or its heading, and columns are
 * separated by four spaces.
 */
module Console {
  import opened JavaStrings
  import opened LineCounts
  import opened CountUtils
  import opened Sorting
  import opened Cache

  const SPACE: CodeUnit := 0x20
  const DASH: CodeUnit := 0x2D

  /** `COL_SEPARATOR`: the spaces between two columns. */
  const ColSeparator: nat := 4
  const ColPadding: JString := Repeat(SPACE, ColSeparator)

  /** The five column widths. */
  datatype Widths = Widths(language: nat, files: nat, blank: nat, comment: nat, code: nat) {
    function Sum(): nat {
      language + files + blank + comment + code
    }
  }

  /** `maxWidth(int, String)`: the width widened to fit a text. */
  function MaxWidthOfText(existing: nat, value: JString): (r: nat)
    ensures r >= existing && r >= |value|
    ensures r == existing || r == |value|
  {
    if existing >= |value| then existing else |value|
  }

  /** `maxWidth(int, int)`: the width widened to fit a number written in decimal. */
  function MaxWidthOfNumber(existing: nat, value: nat): (r: nat)
    ensures r >= existing && r >= |Decimal(value)|
    ensures r == existing || r == |Decimal(value)|
  {
    MaxWidthOfText(existing, Decimal(value))
  }

  /** `leftAlign` (`%-<width>s`): the text padded on the right to `width`; a longer text is kept whole. */
  function LeftAlign(s: JString, width: nat): (r: JString)
    ensures |r| == if |s| < width then width else |s|
  {
    if |s| < width then s + Repeat(SPACE, width - |s|) else s
  }

  /** `rightAlign` (`%<width>d`): the number padded on the left to `width`; a longer number is kept whole. */
  function RightAlign(value: nat, width: nat): (r: JString)
    ensures |r| == if |Decimal(value)| < width then width else |Decimal(value)|
  {
    var d := Decimal(value);
    if |d| < width then Repeat(SPACE, width - |d|) + d else d
  }

  /** `leftAlign` keeps the text at the start and fills the rest with spaces. */
  lemma LeftAlignContents(s: JString, width: nat)
    ensures var r := LeftAlign(s, width);
      && r[..|s|] == s
      && forall k :: |s| <= k < |r| ==> r[k] == SPACE
  {
  }

  /** `rightAlign` keeps the number at the end and fills the start with spaces. */
  lemma RightAlignContents(value: nat, width: nat)
    ensures var r, d := RightAlign(value, width), Decimal(value);
      && r[|r| - |d|..] == d
      && forall k :: 0 <= k < |r| - |d| ==> r[k] == SPACE
  {
  }

  // ---------------------------------------------------------------------------
  // Column widths

  /** The widths of the headings `Language`, `Files`, `Blank`, `Comment`, `Code`. */
  const HeadingWidths: Widths := Widths(8, 5, 5, 7, 4)

  /** One language's row considered: each width widened to fit its cell. */
  function Widen(w: Widths, name: JString, files: nat, c: Counts): Widths {
    Widths(MaxWidthOfText(w.language, name), MaxWidthOfNumber(w.files, files),
           MaxWidthOfNumber(w.blank, c.blank), MaxWidthOfNumber(w.comment, c.comment),
           MaxWidthOfNumber(w.code, c.code))
  }

  /** The languages' rows and the data a row is made from. */
  predicate HasRows(languages: seq<Language>, languageCounts: map<Language, Counts>, languagePaths: map<Language, set<Path>>) {
    forall l :: l in languages ==> l in languageCounts && l in languagePaths
  }

  /** The widths after the headings and the given rows, in order. */
  function RowWidths(languages: seq<Language>, languageCounts: map<Language, Counts>, languagePaths: map<Language, set<Path>>): Widths
    requires HasRows(languages, languageCounts, languagePaths)
    decreases |languages|
  {
    if languages == [] then HeadingWidths
    else
      var l := languages[|languages| - 1];
      Widen(RowWidths(languages[..|languages| - 1], languageCounts, languagePaths),
            l.displayName, |languagePaths[l]|, languageCounts[l])
  }

  /** The final widths: the total row widens every column but the files column. */
  function TableWidths(languages: seq<Language>, languageCounts: map<Language, Counts>, languagePaths: map<Language, set<Path>>, total: Counts): Widths
    requires HasRows(languages, languageCounts, languagePaths)
  {
    var w := RowWidths(languages, languageCounts, languagePaths);
    w.(language := MaxWidthOfText(w.language, Lit("Total")),
       blank := MaxWidthOfNumber(w.blank, total.blank),
       comment := MaxWidthOfNumber(w.comment, total.comment),
       code := MaxWidthOfNumber(w.code, total.code))
  }

  /** Every column is at least as wide as its heading and as every cell of its rows. */
  lemma {:induction false} RowWidthsFit(languages: seq<Language>, languageCounts: map<Language, Counts>, languagePaths: map<Language, set<Path>>)
    requires HasRows(languages, languageCounts, languagePaths)
    ensures var w := RowWidths(languages, languageCounts, languagePaths);
      && w.language >= 8 && w.files >= 5 && w.blank >= 5 && w.comment >= 7 && w.code >= 4
      && forall i :: 0 <= i < |languages| ==>
           var l := languages[i];
           && w.language >= |l.displayName|
           && w.files >= |Decimal(|languagePaths[l]|)|
           && w.blank >= |Decimal(languageCounts[l].blank)|
           && w.comment >= |Decimal(languageCounts[l].comment)|
           && w.code >= |Decimal(languageCounts[l].code)|
    decreases |languages|
  {
    if languages != [] {
      var init := languages[..|languages| - 1];
      RowWidthsFit(init, languageCounts, languagePaths);
      forall i | 0 <= i < |languages| - 1 ensures languages[i] == init[i] { }
    }
  }

  /** No column is wider than it needs to be: each width is its heading's or one of its cells'. */
  lemma {:induction false} RowWidthsTight(languages: seq<Language>, languageCounts: map<Language, Counts>, languagePaths: map<Language, set<Path>>)
    requires HasRows(languages, languageCounts, languagePaths)
    ensures var w := RowWidths(languages, languageCounts, languagePaths);
      && (w.language == 8 || exists i :: 0 <= i < |languages| && w.language == |languages[i].displayName|)
      && (w.files == 5 || exists i :: 0 <= i < |languages| && w.files == |Decimal(|languagePaths[languages[i]]|)|)
      && (w.blank == 5 || exists i :: 0 <= i < |languages| && w.blank == |Decimal(languageCounts[languages[i]].blank)|)
      && (w.comment == 7 || exists i :: 0 <= i < |languages| && w.comment == |Decimal(languageCounts[languages[i]].comment)|)
      && (w.code == 4 || exists i :: 0 <= i < |languages| && w.code == |Decimal(languageCounts[languages[i]].code)|)
    decreases |languages|
  {
    if languages != [] {
      var n := |languages| - 1;
      var init := languages[..n];
      RowWidthsTight(init, languageCounts, languagePaths);
      forall i | 0 <= i < n ensures languages[i] == init[i] { }
    }
  }

  /**
   * The final widths fit the headings, every language row and the total row;
   * the language column also fits `Total`; the files column is not widened by
   * the total row, which has no file count.
   */
  lemma TableWidthsFit(languages: seq<Language>, languageCounts: map<Language, Counts>, languagePaths: map<Language, set<Path>>, total: Counts)
    requires HasRows(languages, languageCounts, languagePaths)
    ensures var w := TableWidths(languages, languageCounts, languagePaths, total);
      && w.language >= 8 && w.files >= 5 && w.blank >= 5 && w.comment >= 7 && w.code >= 4
      && w.language >= 5
      && w.blank >= |Decimal(total.blank)| && w.comment >= |Decimal(total.comment)| && w.code >= |Decimal(total.code)|
      && w.files == RowWidths(languages, languageCounts, languagePaths).files
      && forall i :: 0 <= i < |languages| ==>
           var l := languages[i];
           && w.language >= |l.displayName|
           && w.files >= |Decimal(|languagePaths[l]|)|
           && w.blank >= |Decimal(languageCounts[l].blank)|
           && w.comment >= |Decimal(languageCounts[l].comment)|
           && w.code >= |Decimal(languageCounts[l].code)|
  {
    RowWidthsFit(languages, languageCounts, languagePaths);
  }

  /** The width loop of `generateReport`: the headings, each language in turn, then the total row. */
  method ComputeWidths(languages: seq<Language>, languageCounts: map<Language, Counts>, languagePaths: map<Language, set<Path>>, total: Counts)
    returns (w: Widths)
    requires HasRows(languages, languageCounts, languagePaths)
    ensures w == TableWidths(languages, languageCounts, languagePaths, total)
  {
    w := HeadingWidths;
    for i := 0 to |languages|
      invariant w == RowWidths(languages[..i], languageCounts, languagePaths)
    {
      var l := languages[i];
      var paths := languagePaths[l];
      var counts := languageCounts[l];
      assert languages[..i + 1][..i] == languages[..i];
      w := w.(language := MaxWidthOfText(w.language, l.displayName));
      w := w.(blank := MaxWidthOfNumber(w.blank, counts.blank));
      w := w.(comment := MaxWidthOfNumber(w.comment, counts.comment));
      w := w.(code := MaxWidthOfNumber(w.code, counts.code));
      w := w.(files := MaxWidthOfNumber(w.files, |paths|));
    }
    assert languages[..|languages|] == languages;
    w := w.(language := MaxWidthOfText(w.language, Lit("Total")));
    w := w.(blank := MaxWidthOfNumber(w.blank, total.blank));
    w := w.(comment := MaxWidthOfNumber(w.comment, total.comment));
    w := w.(code := MaxWidthOfNumber(w.code, total.code));
  }

  // ---------------------------------------------------------------------------
  // The table

  /** The divider: a dash under every column and every separator. */
  function Divider(w: Widths): JString {
    Repeat(DASH, w.Sum() + 4 * ColSeparator)
  }

  /** The heading row; the last heading, `Code`, is not padded. */
  function HeadingLine(w: Widths): JString {
    LeftAlign(Lit("Language"), w.language) + ColPadding + LeftAlign(Lit("Files"), w.files) + ColPadding
      + LeftAlign(Lit("Blank"), w.blank) + ColPadding + LeftAlign(Lit("Comment"), w.comment) + ColPadding
      + Lit("Code")
  }

  /** A language's row: its name on the left, its numbers on the right of their columns. */
  function LanguageLine(w: Widths, name: JString, files: nat, c: Counts): JString {
    LeftAlign(name, w.language) + ColPadding + RightAlign(files, w.files) + ColPadding
      + RightAlign(c.blank, w.blank) + ColPadding + RightAlign(c.comment, w.comment) + ColPadding
      + RightAlign(c.code, w.code)
  }

  /** The total row; its files cell is blank. */
  function TotalLine(w: Widths, total: Counts): JString {
    LeftAlign(Lit("Total"), w.language) + ColPadding + Repeat(SPACE, w.files) + ColPadding
      + RightAlign(total.blank, w.blank) + ColPadding + RightAlign(total.comment, w.comment) + ColPadding
      + RightAlign(total.code, w.code)
  }

  /** The language rows, in the order given. */
  function LanguageLines(w: Widths, languages: seq<Language>, languageCounts: map<Language, Counts>, languagePaths: map<Language, set<Path>>): seq<JString>
    requires HasRows(languages, languageCounts, languagePaths)
  {
    seq(|languages|, i requires 0 <= i < |languages| =>
      LanguageLine(w, languages[i].displayName, |languagePaths[languages[i]]|, languageCounts[languages[i]]))
  }

  /** The whole table, one line per element (the report ends each with a newline). */
  function TableLines(languages: seq<Language>, languageCounts: map<Language, Counts>, languagePaths: map<Language, set<Path>>, total: Counts): seq<JString>
    requires HasRows(languages, languageCounts, languagePaths)
  {
    var w := TableWidths(languages, languageCounts, languagePaths, total);
    var d := Divider(w);
    [d, HeadingLine(w), d] + LanguageLines(w, languages, languageCounts, languagePaths) + [d, TotalLine(w, total), d]
  }

  /** A language row is exactly as long as the divider when every cell fits its column. */
  lemma LanguageLineLength(w: Widths, name: JString, files: nat, c: Counts)
    requires w.language >= |name| && w.files >= |Decimal(files)|
    requires w.blank >= |Decimal(c.blank)| && w.comment >= |Decimal(c.comment)| && w.code >= |Decimal(c.code)|
    ensures |LanguageLine(w, name, files, c)| == |Divider(w)|
  {
  }

  /** A language row starts with the language's name. */
  lemma LanguageLineName(w: Widths, name: JString, files: nat, c: Counts)
    requires w.language >= |name|
    ensures |name| <= |LanguageLine(w, name, files, c)|
    ensures LanguageLine(w, name, files, c)[..|name|] == name
  {
    var line := LanguageLine(w, name, files, c);
    var cell := LeftAlign(name, w.language);
    LeftAlignContents(name, w.language);
    assert line[..|cell|] == cell;
  }

  /** The heading row falls short of the divider by the padding `Code` does not get, and ends with `Code`. */
  lemma HeadingLineShape(w: Widths)
    requires w.language >= 8 && w.files >= 5 && w.blank >= 5 && w.comment >= 7 && w.code >= 4
    ensures |HeadingLine(w)| == |Divider(w)| - (w.code - 4)
    ensures HeadingLine(w)[|HeadingLine(w)| - 4..] == Lit("Code")
  {
  }

  /** The total row is as long as the divider when its cells fit. */
  lemma TotalLineLength(w: Widths, total: Counts)
    requires w.language >= 5
    requires w.blank >= |Decimal(total.blank)| && w.comment >= |Decimal(total.comment)| && w.code >= |Decimal(total.code)|
    ensures |TotalLine(w, total)| == |Divider(w)|
  {
  }

  /** Every language row of the table is as long as the divider and starts with its language's name. */
  lemma LanguageLinesShape(languages: seq<Language>, languageCounts: map<Language, Counts>, languagePaths: map<Language, set<Path>>, total: Counts)
    requires HasRows(languages, languageCounts, languagePaths)
    ensures var w := TableWidths(languages, languageCounts, languagePaths, total);
      var rows := LanguageLines(w, languages, languageCounts, languagePaths);
      forall i :: 0 <= i < |rows| ==>
        && |rows[i]| == |Divider(w)|
        && |languages[i].displayName| <= |rows[i]|
        && rows[i][..|languages[i].displayName|] == languages[i].displayName
  {
    var w := TableWidths(languages, languageCounts, languagePaths, total);
    var rows := LanguageLines(w, languages, languageCounts, languagePaths);
    TableWidthsFit(languages, languageCounts, languagePaths, total);
    forall i | 0 <= i < |rows|
      ensures |rows[i]| == |Divider(w)|
      ensures |languages[i].displayName| <= |rows[i]|
      ensures rows[i][..|languages[i].displayName|] == languages[i].displayName
    {
      var l := languages[i];
      LanguageLineLength(w, l.displayName, |languagePaths[l]|, languageCounts[l]);
      LanguageLineName(w, l.displayName, |languagePaths[l]|, languageCounts[l]);
    }
  }

  /**
   * The table's shape: six lines besides one per language; the dividers and
   * every language and total row have the same length; the heading row is
   * shorter by the padding `Code` does not get; the language rows come in the
   * order given, each starting with the language's name.
   */
  lemma TableShape(languages: seq<Language>, languageCounts: map<Language, Counts>, languagePaths: map<Language, set<Path>>, total: Counts)
    requires HasRows(languages, languageCounts, languagePaths)
    ensures var t := TableLines(languages, languageCounts, languagePaths, total);
      var w := TableWidths(languages, languageCounts, languagePaths, total);
      var n := |Divider(w)|;
      && |t| == 6 + |languages|
      && t[0] == t[2] == t[|t| - 3] == t[|t| - 1] == Divider(w)
      && n == w.Sum() + 16
      && (forall k :: 0 <= k < |t| && k != 1 ==> |t[k]| == n)
      && |t[1]| == n - (w.code - 4)
      && t[1][|t[1]| - 4..] == Lit("Code")
      && forall i :: 0 <= i < |languages| ==> t[i + 3][..|languages[i].displayName|] == languages[i].displayName
  {
    var w := TableWidths(languages, languageCounts, languagePaths, total);
    var rows := LanguageLines(w, languages, languageCounts, languagePaths);
    var t := TableLines(languages, languageCounts, languagePaths, total);
    TableWidthsFit(languages, languageCounts, languagePaths, total);
    LanguageLinesShape(languages, languageCounts, languagePaths, total);
    HeadingLineShape(w);
    TotalLineLength(w, total);
    TableLayout(Divider(w), HeadingLine(w), rows, TotalLine(w, total));
  }

  /** Where each part of the table sits among its lines; with rows as long as the divider, every line but the heading is. */
  lemma TableLayout(d: JString, heading: JString, rows: seq<JString>, totalLine: JString)
    requires forall i :: 0 <= i < |rows| ==> |rows[i]| == |d|
    requires |totalLine| == |d|
    ensures var t := [d, heading, d] + rows + [d, totalLine, d];
      && |t| == 6 + |rows|
      && t[0] == t[2] == t[|t| - 3] == t[|t| - 1] == d
      && t[1] == heading && t[|t| - 2] == totalLine
      && (forall i :: 0 <= i < |rows| ==> t[i + 3] == rows[i])
      && forall k :: 0 <= k < |t| && k != 1 ==> |t[k]| == |d|
  {
    var t := [d, heading, d] + rows + [d, totalLine, d];
    forall k | 3 <= k < |t| - 3 ensures |t[k]| == |d| {
      assert t[k] == rows[k - 3];
    }
  }

  /** The table of a counts map: languages in display-name order, with their file counts and line counts. */
  ghost function Report(pc: PathCounts): seq<JString> {
    ReportDefined(pc);
    TableLines(SortedOrder(Languages(pc), DisplayName), LanguageCounts(pc), LanguagePaths(pc), TotalCounts(pc))
  }

  /** Every language found has counts and files, so the report of any counts map is defined. */
  lemma ReportDefined(pc: PathCounts)
    ensures HasRows(SortedOrder(Languages(pc), DisplayName), LanguageCounts(pc), LanguagePaths(pc))
  {
  }

  /** The row loop of `generateReport`. */
  method WriteLanguageLines(w: Widths, languages: seq<Language>, languageCounts: map<Language, Counts>, languagePaths: map<Language, set<Path>>)
    returns (lines: seq<JString>)
    requires HasRows(languages, languageCounts, languagePaths)
    ensures lines == LanguageLines(w, languages, languageCounts, languagePaths)
  {
    lines := [];
    for i := 0 to |languages|
      invariant |lines| == i
      invariant forall j :: 0 <= j < i ==>
        lines[j] == LanguageLine(w, languages[j].displayName, |languagePaths[languages[j]]|, languageCounts[languages[j]])
    {
      var l := languages[i];
      lines := lines + [LanguageLine(w, l.displayName, |languagePaths[l]|, languageCounts[l])];
    }
  }

  /** The table assembly of `generateReport`: widths, then the lines in the order appended. */
  method BuildTable(languages: seq<Language>, languageCounts: map<Language, Counts>, languagePaths: map<Language, set<Path>>, total: Counts)
    returns (lines: seq<JString>)
    requires HasRows(languages, languageCounts, languagePaths)
    ensures lines == TableLines(languages, languageCounts, languagePaths, total)
  {
    var w := ComputeWidths(languages, languageCounts, languagePaths, total);
    var d := Divider(w);
    var rows := WriteLanguageLines(w, languages, languageCounts, languagePaths);
    lines := [d, HeadingLine(w), d] + rows + [d, TotalLine(w, total), d];
  }

  /**
   * `ConsoleReport.generateReport`: the table, line by line. The display names
   * of the languages found are distinct, as they are in the language registry,
   * so the row order is determined.
   */
  method GenerateReport(cache: CountsCache) returns (lines: seq<JString>)
    requires cache.Valid()
    requires InjectiveOn(Languages(cache.pathCounts), DisplayName)
    modifies cache
    ensures cache.Valid()
    ensures lines == Report(cache.pathCounts)
  {
    var languageCounts := cache.GetLanguageCounts();
    var languages := Sort(languageCounts.Keys, DisplayName);
    var languagePaths := cache.GetLanguagePathCounts();
    var total := cache.GetTotalCounts();
    lines := BuildTable(languages, languageCounts, languagePaths, total);
  }
}

=== FILE: count_utils.dfy ===
/**
 * The aggregations `CountsCache` asks of `CountUtils` over the per-file,
 * per-language counts map. `CountUtils` belongs to an external library whose
 * code is not part of this model; each aggregation is specified here by what
 * it means (a sum over the files, over the languages, over one file's
 * languages) and computed by a loop proved to meet that meaning.
 */
module CountUtils {
  import opened JavaStrings
  import opened LineCounts
  import opened Sorting

  /** `CountUtils.languages`: every language found in at least one file. */
  function Languages(pc: PathCounts): (r: set<Language>)
    ensures forall l :: l in r <==> exists p :: p in pc && l in pc[p]
  {
    set p, l | p in pc && l in pc[p] :: l
  }

  /** `CountUtils.unrecognized`: the files in which no language was recognized. */
  function Unrecognized(pc: PathCounts): (r: set<Path>)
    ensures r <= pc.Keys
    ensures forall p :: p in r <==> p in pc && pc[p] == map[]
  {
    set p | p in pc && |pc[p]| == 0
  }

  /** For each language, the files it was found in (`getLanguagePathCounts` keyed by language). */
  function LanguagePaths(pc: PathCounts): (r: map<Language, set<Path>>)
    ensures r.Keys == Languages(pc)
    ensures forall l :: l in r ==> r[l] <= pc.Keys
    ensures forall l, p :: l in r ==> (p in r[l] <==> p in pc && l in pc[p])
  {
    map l | l in Languages(pc) :: set p | p in pc && l in pc[p]
  }

  /** The counts of one language in every file that has it. */
  function Column(pc: PathCounts, l: Language): map<Path, Counts> {
    map p | p in pc && l in pc[p] :: pc[p][l]
  }

  /** The total of each file over all its languages (`ZERO` for an unrecognized file). */
  ghost function FileSums(pc: PathCounts): map<Path, Counts> {
    map p | p in pc :: Sum(pc[p])
  }

  /** `CountUtils.total`: everything counted, over all files and languages. */
  ghost function TotalCounts(pc: PathCounts): Counts {
    Sum(FileSums(pc))
  }

  /** `CountUtils.byLanguage`: each found language with its counts summed over the files. */
  ghost function LanguageCounts(pc: PathCounts): (r: map<Language, Counts>)
    ensures r.Keys == Languages(pc)
  {
    map l | l in Languages(pc) :: Sum(Column(pc, l))
  }

  /** `CountUtils.byFile`: each recognized file with its counts summed over its languages. */
  ghost function FileCounts(pc: PathCounts): (r: map<Path, Counts>)
    ensures r.Keys == pc.Keys - Unrecognized(pc)
  {
    map p | p in pc && |pc[p]| > 0 :: Sum(pc[p])
  }

  /**
   * Every file has a recognized language, so every file has an entry in
   * `FileCounts`; the text, HTML and YAML reports look a file's counts up
   * without a default and need this.
   */
  predicate AllRecognized(pc: PathCounts) {
    forall p :: p in pc ==> pc[p] != map[]
  }

  /** Every file has an entry in `FileCounts` exactly when no file is unrecognized. */
  lemma AllRecognizedFileCounts(pc: PathCounts)
    ensures AllRecognized(pc) <==> Unrecognized(pc) == {}
    ensures AllRecognized(pc) <==> FileCounts(pc).Keys == pc.Keys
  {
    if !AllRecognized(pc) {
      var p :| p in pc && pc[p] == map[];
      assert p in Unrecognized(pc);
      assert p !in FileCounts(pc);
    }
  }

  /** Paths are sorted by themselves, so no two paths share a sort key. */
  lemma PathKeyInjective(paths: set<Path>)
    ensures InjectiveOn(paths, PathKey)
  {
  }

  /** Display names that are distinct over all languages found are distinct over one file's languages. */
  lemma FileLanguagesInjective(pc: PathCounts, p: Path)
    requires p in pc
    requires InjectiveOn(Languages(pc), DisplayName)
    ensures InjectiveOn(pc[p].Keys, DisplayName)
  {
    assert pc[p].Keys <= Languages(pc);
  }

  lemma LanguagesRemove(pc: PathCounts, p: Path)
    requires p in pc
    ensures Languages(pc) == Languages(pc - {p}) + pc[p].Keys
  {
    var rest := pc - {p};
    forall l | l in Languages(pc) ensures l in Languages(rest) + pc[p].Keys {
      var q :| q in pc && l in pc[q];
      if q != p {
        assert q in rest && l in rest[q];
      }
    }
    forall l | l in Languages(rest) ensures l in Languages(pc) {
      var q :| q in rest && l in rest[q];
      assert q in pc && l in pc[q];
    }
  }

  lemma ColumnRemove(pc: PathCounts, p: Path, l: Language)
    requires p in pc
    ensures Column(pc, l) - {p} == Column(pc - {p}, l)
    ensures l in pc[p] <==> p in Column(pc, l)
  {
    var a, b := Column(pc, l) - {p}, Column(pc - {p}, l);
    assert a.Keys == b.Keys;
    forall q | q in a ensures a[q] == b[q] {
      assert (pc - {p})[q] == pc[q];
    }
  }

  /** Removing one file from the map removes exactly its counts from each language's column. */
  lemma LanguageCountsStep(pc: PathCounts, p: Path)
    requires p in pc
    ensures LanguageCounts(pc) == Merge(LanguageCounts(pc - {p}), pc[p])
  {
    var rest := pc - {p};
    var lhs := LanguageCounts(pc);
    var rhs := Merge(LanguageCounts(rest), pc[p]);
    LanguagesRemove(pc, p);
    assert lhs.Keys == rhs.Keys;
    forall l | l in lhs ensures lhs[l] == rhs[l] {
      LanguageCountAt(pc, p, l);
    }
  }

  lemma LanguageCountAt(pc: PathCounts, p: Path, l: Language)
    requires p in pc && l in Languages(pc)
    ensures Sum(Column(pc, l)) == Get(LanguageCounts(pc - {p}), l).Add(Get(pc[p], l))
  {
    var rest := pc - {p};
    var col := Column(pc, l);
    ColumnRemove(pc, p, l);
    if l !in Languages(rest) {
      assert Column(rest, l) == map[];
    }
    if l in pc[p] {
      SumRemove(col, p);
      AddComm(pc[p][l], Sum(Column(rest, l)));
    } else {
      assert col - {p} == col;
      AddZero(Sum(col));
    }
  }

  lemma RemoveAbsent<K, V>(m: map<K, V>, k: K)
    requires k !in m
    ensures m - {k} == m
  {
    assert (m - {k}).Keys == m.Keys;
  }

  lemma FileSumsRemove(pc: PathCounts, p: Path)
    ensures FileSums(pc) - {p} == FileSums(pc - {p})
  {
    var a, b := FileSums(pc) - {p}, FileSums(pc - {p});
    assert a.Keys == b.Keys;
    forall q | q in a ensures a[q] == b[q] {
      assert (pc - {p})[q] == pc[q];
    }
  }

  lemma FileCountsRemove(pc: PathCounts, p: Path)
    ensures FileCounts(pc) - {p} == FileCounts(pc - {p})
  {
    var a, b := FileCounts(pc) - {p}, FileCounts(pc - {p});
    assert a.Keys == b.Keys;
    forall q | q in a ensures a[q] == b[q] {
      assert (pc - {p})[q] == pc[q];
    }
  }

  /**
   * The three ways of adding everything up agree: the per-language totals and
   * the per-file totals both add up to the grand total, so the "Total" row of
   * every report is the sum of the rows above it.
   */
  lemma {:induction false} TotalsAgree(pc: PathCounts)
    ensures Sum(LanguageCounts(pc)) == TotalCounts(pc)
    ensures Sum(FileCounts(pc)) == TotalCounts(pc)
    decreases |pc|
  {
    if |pc| == 0 {
      assert LanguageCounts(pc) == map[];
      assert FileCounts(pc) == map[];
      assert FileSums(pc) == map[];
    } else {
      var p :| p in pc;
      var rest := pc - {p};
      TotalsAgree(rest);
      TotalStep(pc, p);
      LanguageTotalStep(pc, p);
      FileTotalStep(pc, p);
    }
  }

  lemma TotalStep(pc: PathCounts, p: Path)
    requires p in pc
    ensures TotalCounts(pc) == Sum(pc[p]).Add(TotalCounts(pc - {p}))
  {
    SumRemove(FileSums(pc), p);
    FileSumsRemove(pc, p);
  }

  lemma LanguageTotalStep(pc: PathCounts, p: Path)
    requires p in pc
    ensures Sum(LanguageCounts(pc)) == Sum(pc[p]).Add(Sum(LanguageCounts(pc - {p})))
  {
    LanguageCountsStep(pc, p);
    SumMerge(LanguageCounts(pc - {p}), pc[p]);
    AddComm(Sum(LanguageCounts(pc - {p})), Sum(pc[p]));
  }

  lemma FileTotalStep(pc: PathCounts, p: Path)
    requires p in pc
    ensures Sum(FileCounts(pc)) == Sum(pc[p]).Add(Sum(FileCounts(pc - {p})))
  {
    var fc := FileCounts(pc);
    FileCountsRemove(pc, p);
    if |pc[p]| > 0 {
      SumRemove(fc, p);
    } else {
      assert p !in fc;
      RemoveAbsent(fc, p);
      assert Sum(pc[p]) == ZERO;
      AddZero(Sum(fc));
      AddComm(Sum(fc), ZERO);
    }
  }

  /** A language's count is the sum of its counts in the files it was found in. */
  lemma LanguageCountsOfColumn(pc: PathCounts, l: Language)
    requires l in Languages(pc)
    ensures LanguageCounts(pc)[l] == Sum(Column(pc, l))
    ensures Column(pc, l).Keys == LanguagePaths(pc)[l]
  {
  }

  // ---------------------------------------------------------------------------
  // The computations

  lemma SumStep<K(!new)>(m: map<K, Counts>, k: K, c: Counts)
    requires k in m
    ensures c.Add(Sum(m)) == c.Add(m[k]).Add(Sum(m - {k}))
  {
    SumRemove(m, k);
    AddAssoc(c, m[k], Sum(m - {k}));
  }

  /** Adds up the values of a map, one entry at a time. */
  method SumValues<K(==,!new)>(m: map<K, Counts>) returns (c: Counts)
    ensures c == Sum(m)
  {
    c := ZERO;
    var rest := m;
    AddZero(Sum(m));
    AddComm(Sum(m), ZERO);
    while rest != map[]
      invariant Sum(m) == c.Add(Sum(rest))
      decreases |rest|
    {
      var k :| k in rest;
      SumStep(rest, k, c);
      c := c.Add(rest[k]);
      rest := rest - {k};
    }
    AddZero(c);
  }

  /** `CountUtils.total`, computed file by file. */
  method ComputeTotal(pc: PathCounts) returns (c: Counts)
    ensures c == TotalCounts(pc)
  {
    var sums := FileSumsOf(pc);
    c := SumValues(sums);
  }

  /** The per-file totals, computed one file at a time. */
  method FileSumsOf(pc: PathCounts) returns (r: map<Path, Counts>)
    ensures r == FileSums(pc)
  {
    r := map[];
    var rest := pc.Keys;
    while rest != {}
      invariant rest <= pc.Keys
      invariant r.Keys == pc.Keys - rest
      invariant forall p :: p in r ==> r[p] == Sum(pc[p])
      decreases rest
    {
      var p :| p in rest;
      var s := SumValues(pc[p]);
      r := r[p := s];
      rest := rest - {p};
    }
    FileSumsByEntry(pc, r);
  }

  /** `CountUtils.byFile`, computed one file at a time, skipping unrecognized files. */
  method ComputeFileCounts(pc: PathCounts) returns (r: map<Path, Counts>)
    ensures r == FileCounts(pc)
  {
    r := map[];
    var rest := pc.Keys;
    while rest != {}
      invariant rest <= pc.Keys
      invariant forall p :: p in r <==> p in pc && p !in rest && |pc[p]| > 0
      invariant forall p :: p in r ==> r[p] == Sum(pc[p])
      decreases rest
    {
      var p :| p in rest;
      if |pc[p]| > 0 {
        var s := SumValues(pc[p]);
        r := r[p := s];
      }
      rest := rest - {p};
    }
    FileCountsByEntry(pc, r);
  }

  /** `CountUtils.byLanguage`, computed one language at a time. */
  method ComputeLanguageCounts(pc: PathCounts) returns (r: map<Language, Counts>)
    ensures r == LanguageCounts(pc)
  {
    r := map[];
    var langs := Languages(pc);
    var rest := langs;
    while rest != {}
      invariant rest <= langs
      invariant r.Keys == langs - rest
      invariant forall l :: l in r ==> r[l] == Sum(Column(pc, l))
      decreases rest
    {
      var l :| l in rest;
      var s := SumValues(Column(pc, l));
      r := r[l := s];
      rest := rest - {l};
    }
    LanguageCountsByEntry(pc, r);
  }

  lemma FileSumsByEntry(pc: PathCounts, r: map<Path, Counts>)
    requires r.Keys == pc.Keys
    requires forall p :: p in r ==> r[p] == Sum(pc[p])
    ensures r == FileSums(pc)
  {
  }

  lemma FileCountsByEntry(pc: PathCounts, r: map<Path, Counts>)
    requires forall p :: p in r <==> p in pc && |pc[p]| > 0
    requires forall p :: p in r ==> r[p] == Sum(pc[p])
    ensures r == FileCounts(pc)
  {
  }

  lemma LanguageCountsByEntry(pc: PathCounts, r: map<Language, Counts>)
    requires r.Keys == Languages(pc)
    requires forall l :: l in r ==> r[l] == Sum(Column(pc, l))
    ensures r == LanguageCounts(pc)
  {
  }

  // ---------------------------------------------------------------------------
  // The fixture of the cache's unit test

  /** The unit test's three files and two languages, all distinct. */
  datatype FixtureNames = FixtureNames(cppPath: Path, javaPath: Path, unknownPath: Path, cpp: Language, java: Language) {
    predicate Distinct() {
      cppPath != javaPath && cppPath != unknownPath && javaPath != unknownPath && cpp != java
    }
  }

  /**
   * The unit test's map: a C++ file with 6 code lines and 1 blank line, a
   * Java file with 6 code, 5 comment and 2 blank lines, and a file in no
   * known language.
   */
  function Fixture(n: FixtureNames): PathCounts {
    map[n.cppPath := map[n.cpp := Counts(6, 0, 1)], n.javaPath := map[n.java := Counts(6, 5, 2)], n.unknownPath := map[]]
  }

  /** The languages, the unrecognized files and the files of each language, as the unit test expects. */
  lemma FixtureSets(n: FixtureNames)
    requires n.Distinct()
    ensures Languages(Fixture(n)) == {n.cpp, n.java}
    ensures Unrecognized(Fixture(n)) == {n.unknownPath}
    ensures LanguagePaths(Fixture(n)) == map[n.cpp := {n.cppPath}, n.java := {n.javaPath}]
  {
    var pc := Fixture(n);
    assert n.cpp in pc[n.cppPath] && n.java in pc[n.javaPath];
    assert Languages(pc) == {n.cpp, n.java};
    assert (set p | p in pc && n.cpp in pc[p]) == {n.cppPath};
    assert (set p | p in pc && n.java in pc[p]) == {n.javaPath};
  }

  /** Each recognized file's counts, as the unit test expects. */
  lemma FixtureFileCounts(n: FixtureNames)
    requires n.Distinct()
    ensures FileCounts(Fixture(n)) == map[n.cppPath := Counts(6, 0, 1), n.javaPath := Counts(6, 5, 2)]
  {
    var pc := Fixture(n);
    var r := map[n.cppPath := Counts(6, 0, 1), n.javaPath := Counts(6, 5, 2)];
    SumSingleton(n.cpp, Counts(6, 0, 1));
    SumSingleton(n.java, Counts(6, 5, 2));
    assert r[n.cppPath] == Sum(pc[n.cppPath]);
    assert r[n.javaPath] == Sum(pc[n.javaPath]);
    assert |pc[n.unknownPath]| == 0;
    FileCountsByEntry(pc, r);
  }

  /** The files of each language in the fixture, with their counts. */
  lemma FixtureColumns(n: FixtureNames)
    requires n.Distinct()
    ensures Column(Fixture(n), n.cpp) == map[n.cppPath := Counts(6, 0, 1)]
    ensures Column(Fixture(n), n.java) == map[n.javaPath := Counts(6, 5, 2)]
  {
    var pc := Fixture(n);
    assert Column(pc, n.cpp).Keys == {n.cppPath};
    assert Column(pc, n.java).Keys == {n.javaPath};
  }

  /** Each language's counts, as the unit test expects. */
  lemma FixtureLanguageCounts(n: FixtureNames)
    requires n.Distinct()
    ensures LanguageCounts(Fixture(n)) == map[n.cpp := Counts(6, 0, 1), n.java := Counts(6, 5, 2)]
  {
    var pc := Fixture(n);
    var r := map[n.cpp := Counts(6, 0, 1), n.java := Counts(6, 5, 2)];
    FixtureSets(n);
    FixtureColumns(n);
    SumSingleton(n.cppPath, Counts(6, 0, 1));
    SumSingleton(n.javaPath, Counts(6, 5, 2));
    assert r[n.cpp] == Sum(Column(pc, n.cpp));
    assert r[n.java] == Sum(Column(pc, n.java));
    LanguageCountsByEntry(pc, r);
  }

  /** The total, as the unit test expects: 12 code, 5 comment and 3 blank lines, 20 in all. */
  lemma FixtureTotal(n: FixtureNames)
    requires n.Distinct()
    ensures TotalCounts(Fixture(n)) == Counts(12, 5, 3)
    ensures TotalCounts(Fixture(n)).Total() == 20
  {
    FixtureLanguageCounts(n);
    TotalsAgree(Fixture(n));
    SumPair(n.cpp, Counts(6, 0, 1), n.java, Counts(6, 5, 2));
  }
}

=== FILE: counts.dfy ===
/**
 * The values the reports are built from: line tallies (`Counts`), languages
 * (`Language`) and the raw per-file, per-language counts map.
 */
module LineCounts {
  import opened Wrappers
  import opened JavaStrings

  /** The code, comment and blank lines counted in some scope (a file, a language, everything). */
  datatype Counts = Counts(code: nat, comment: nat, blank: nat) {

    /** `getTotalLines`. */
    function Total(): nat {
      code + comment + blank
    }

    /** Componentwise sum, the combination `CountUtils` uses for every aggregate. */
    function Add(other: Counts): Counts {
      Counts(code + other.code, comment + other.comment, blank + other.blank)
    }
  }

  /** `Counts.ZERO`: no lines counted. */
  const ZERO: Counts := Counts(0, 0, 0)

  /** A registry entry: enum constant name, display name, optional description and website. */
  datatype Language = Language(name: JString, displayName: JString, description: Option<JString>, website: Option<JString>)

  /** The key the reports sort languages by. */
  function DisplayName(language: Language): JString {
    language.displayName
  }

  /** The display names of languages, in order (`map(Language::getDisplayName)`). */
  function DisplayNames(languages: seq<Language>): (r: seq<JString>)
    ensures |r| == |languages|
    ensures forall i :: 0 <= i < |r| ==> r[i] == languages[i].displayName
  {
    seq(|languages|, i requires 0 <= i < |languages| => languages[i].displayName)
  }

  /** A file path, as the string it is compared and printed by. */
  type Path = JString

  /** The key the reports sort paths by. */
  function PathKey(path: Path): JString {
    path
  }

  /** The counting engine's result: for each file, the counts of each language found in it. */
  type PathCounts = map<Path, map<Language, Counts>>

  /** The value at `k`, or `ZERO` when `k` is absent. */
  function Get<K>(m: map<K, Counts>, k: K): Counts {
    if k in m then m[k] else ZERO
  }

  /** The sum of all values of a map of counts, in no particular order. */
  ghost function Sum<K(!new)>(m: map<K, Counts>): Counts
    decreases |m|
  {
    if |m| == 0 then ZERO
    else
      var k :| k in m;
      m[k].Add(Sum(m - {k}))
  }

  /** The keys of `m` that lie in `keys`. */
  function Restrict<K>(m: map<K, Counts>, keys: set<K>): map<K, Counts> {
    map k | k in keys && k in m :: m[k]
  }

  lemma AddSwap(a: Counts, b: Counts, c: Counts)
    ensures a.Add(b.Add(c)) == b.Add(a.Add(c))
  {
  }

  lemma RestrictAll<K>(m: map<K, Counts>)
    ensures Restrict(m, m.Keys) == m
  {
  }

  lemma RestrictRemove<K>(m: map<K, Counts>, keys: set<K>, k: K)
    ensures Restrict(m, keys) - {k} == Restrict(m, keys - {k})
  {
  }

  lemma RestrictNone<K>(m: map<K, Counts>)
    ensures Restrict(m, {}) == map[]
  {
  }

  lemma AddComm(a: Counts, b: Counts)
    ensures a.Add(b) == b.Add(a)
  {
  }

  lemma AddAssoc(a: Counts, b: Counts, c: Counts)
    ensures a.Add(b).Add(c) == a.Add(b.Add(c))
  {
  }

  lemma AddZero(c: Counts)
    ensures c.Add(ZERO) == c
  {
  }

  lemma AddRotate(a: Counts, b: Counts, c: Counts)
    ensures a.Add(b).Add(c) == a.Add(c.Add(b))
  {
  }

  /** The sum does not depend on which entry is taken first. */
  lemma {:induction false} SumRemove<K(!new)>(m: map<K, Counts>, k: K)
    requires k in m
    ensures Sum(m) == m[k].Add(Sum(m - {k}))
    decreases |m|
  {
    var j :| j in m && Sum(m) == m[j].Add(Sum(m - {j}));
    if j != k {
      var rest := m - {j} - {k};
      assert rest == m - {k} - {j};
      SumRemove(m - {j}, k);
      assert Sum(m - {j}) == m[k].Add(Sum(rest));
      SumRemove(m - {k}, j);
      assert Sum(m - {k}) == m[j].Add(Sum(rest));
      AddSwap(m[j], m[k], Sum(rest));
    }
  }

  /** A map with one entry sums to that entry. */
  lemma SumSingleton<K(!new)>(k: K, c: Counts)
    ensures Sum(map[k := c]) == c
  {
    var m := map[k := c];
    SumRemove(m, k);
    assert m - {k} == map[];
    AddZero(c);
  }

  /** A map with two entries sums to their sum. */
  lemma SumPair<K(!new)>(k1: K, c1: Counts, k2: K, c2: Counts)
    requires k1 != k2
    ensures Sum(map[k1 := c1, k2 := c2]) == c1.Add(c2)
  {
    var m := map[k1 := c1, k2 := c2];
    SumRemove(m, k1);
    assert m - {k1} == map[k2 := c2];
    SumSingleton(k2, c2);
  }

  /** Adding `c` to one entry (creating it if absent) adds `c` to the sum. */
  lemma SumAddAt<K(!new)>(m: map<K, Counts>, k: K, c: Counts)
    ensures Sum(m[k := Get(m, k).Add(c)]) == Sum(m).Add(c)
  {
    var v := Get(m, k).Add(c);
    var m' := m[k := v];
    SumRemove(m', k);
    if k in m {
      SumRemove(m, k);
      UpdateRemove(m, k, v);
      AddRotate(m[k], c, Sum(m - {k}));
      AddAssoc(m[k], Sum(m - {k}), c);
    } else {
      UpdateAbsentRemove(m, k, v);
      AddComm(ZERO.Add(c), Sum(m));
    }
  }

  lemma UpdateRemove<K, V>(m: map<K, V>, k: K, v: V)
    ensures m[k := v] - {k} == m - {k}
  {
  }

  lemma UpdateAbsentRemove<K, V>(m: map<K, V>, k: K, v: V)
    requires k !in m
    ensures m[k := v] - {k} == m
  {
  }

  /** The entrywise sum of two maps, an absent entry counting as `ZERO`. */
  function Merge<K>(a: map<K, Counts>, b: map<K, Counts>): (r: map<K, Counts>)
    ensures r.Keys == a.Keys + b.Keys
  {
    map k | k in a.Keys + b.Keys :: Get(a, k).Add(Get(b, k))
  }

  lemma MergeStep<K>(a: map<K, Counts>, b: map<K, Counts>, k: K)
    requires k in b
    ensures Merge(a, b) == Merge(a, b - {k})[k := Get(Merge(a, b - {k}), k).Add(b[k])]
  {
    var lhs := Merge(a, b);
    var rhs := Merge(a, b - {k})[k := Get(Merge(a, b - {k}), k).Add(b[k])];
    assert lhs.Keys == rhs.Keys;
    forall j | j in lhs.Keys ensures lhs[j] == rhs[j] {
    }
  }

  lemma MergeEmpty<K>(a: map<K, Counts>, b: map<K, Counts>)
    requires |b| == 0
    ensures Merge(a, b) == a
  {
    var m := Merge(a, b);
    forall k | k in a ensures m[k] == a[k] {
      assert k !in b;
      AddZero(a[k]);
    }
    assert m.Keys == a.Keys;
  }

  /** Summing entrywise and then over the keys is summing each map and adding. */
  lemma {:induction false} SumMerge<K(!new)>(a: map<K, Counts>, b: map<K, Counts>)
    ensures Sum(Merge(a, b)) == Sum(a).Add(Sum(b))
    decreases |b|
  {
    if |b| == 0 {
      MergeEmpty(a, b);
      assert Sum(b) == ZERO;
      AddZero(Sum(a));
    } else {
      var k :| k in b;
      var b' := b - {k};
      var mb' := Merge(a, b');
      SumMerge(a, b');
      assert Sum(mb') == Sum(a).Add(Sum(b'));
      SumRemove(b, k);
      assert Sum(b) == b[k].Add(Sum(b'));
      MergeStep(a, b, k);
      SumAddAt(mb', k, b[k]);
      assert Sum(Merge(a, b)) == Sum(mb').Add(b[k]);
      AddRotate(Sum(a), Sum(b'), b[k]);
    }
  }
}

=== FILE: csv.dfy ===
/**
 * `CsvReport`: a header row, a row for all languages together and one row per
 * language in display-name order, each line ending in CR LF. Text fields go
 * through `escape`, which quotes a field holding a comma or a double quote and
 * doubles the quotes inside it. The reader that undoes it follows section 2 of
 * RFC 4180, so an unquoted field ends at a line break: a text with a line
 * break but no comma or quote does not read back (`LineBreakUnquoted`).
 */
module Csv {
  import opened Wrappers
  import opened JavaStrings
  import opened LineCounts
  import opened CountUtils
  import opened Sorting
  import opened Cache

  const COMMA: CodeUnit := 0x2C
  const QUOTE: CodeUnit := 0x22
  const CR: CodeUnit := 0x0D
  const LF: CodeUnit := 0x0A
  const CRLF: JString := [CR, LF]

  /** A field that must be quoted: it holds a comma or a double quote. */
  predicate NeedsQuotes(s: JString) {
    COMMA in s || QUOTE in s
  }

  /**
   * A field that reads back after `escape`: it is quoted, or it holds no line
   * break (an unquoted field ends at the first line break).
   */
  predicate Recoverable(v: JString) {
    NeedsQuotes(v) || (CR !in v && LF !in v)
  }

  /** Every double quote written twice. */
  function DoubleQuotes(s: JString): (r: JString)
    ensures |r| >= |s|
  {
    if s == [] then []
    else (if s[0] == QUOTE then [QUOTE, QUOTE] else [s[0]]) + DoubleQuotes(s[1..])
  }

  /**
   * `CsvReport.escape`: `null` becomes the empty field, a field with a comma
   * or a double quote is quoted with its quotes doubled, any other field is
   * written as it is.
   */
  function Escape(s: Option<JString>): (r: JString)
    ensures s.None? ==> r == []
    ensures s.Some? && !NeedsQuotes(s.value) ==> r == s.value
    ensures s.Some? && NeedsQuotes(s.value) ==> |r| >= 2 && r[0] == QUOTE && r[|r| - 1] == QUOTE
  {
    match s
    case None => []
    case Some(v) => if NeedsQuotes(v) then [QUOTE] + DoubleQuotes(v) + [QUOTE] else v
  }

  // ---------------------------------------------------------------------------
  // Reading a record back (the reader side of RFC 4180, section 2)

  /**
   * The inside of a quoted field, read from just after its opening quote: a
   * doubled quote stands for one quote, a single quote closes the field. Gives
   * the field's value and what follows the closing quote.
   */
  function ScanQuoted(s: JString): (r: Option<(JString, JString)>)
    ensures r.Some? ==> |r.value.1| < |s|
    decreases |s|
  {
    if s == [] then None
    else if s[0] == QUOTE then
      if |s| >= 2 && s[1] == QUOTE then
        match ScanQuoted(s[2..])
        case None => None
        case Some((v, rest)) => Some(([QUOTE] + v, rest))
      else Some(([], s[1..]))
    else
      match ScanQuoted(s[1..])
      case None => None
      case Some((v, rest)) => Some(([s[0]] + v, rest))
  }

  /** An unquoted field: everything up to the next comma or line break, neither of which it may hold. */
  function ScanPlain(s: JString): (r: (JString, JString))
    ensures |r.1| <= |s|
  {
    if s == [] || s[0] == COMMA || s[0] == CR || s[0] == LF then ([], s)
    else
      var (v, rest) := ScanPlain(s[1..]);
      ([s[0]] + v, rest)
  }

  /** One field, quoted or not, and what follows it. */
  function ReadField(s: JString): (r: Option<(JString, JString)>)
    ensures r.Some? ==> |r.value.1| <= |s|
  {
    if |s| > 0 && s[0] == QUOTE then ScanQuoted(s[1..]) else Some(ScanPlain(s))
  }

  /** A whole record: fields separated by commas; `None` when it is malformed. */
  function ReadRecord(s: JString): Option<seq<JString>>
    decreases |s|
  {
    match ReadField(s)
    case None => None
    case Some((field, rest)) =>
      if rest == [] then Some([field])
      else if rest[0] != COMMA then None
      else
        match ReadRecord(rest[1..])
        case None => None
        case Some(fields) => Some([field] + fields)
  }

  /** The inside of an escaped field reads back as the original text. */
  lemma {:induction false} ScanQuotedDoubled(v: JString, rest: JString)
    requires rest == [] || rest[0] != QUOTE
    ensures ScanQuoted(DoubleQuotes(v) + [QUOTE] + rest) == Some((v, rest))
    decreases |v|
  {
    var s := DoubleQuotes(v) + [QUOTE] + rest;
    if v == [] {
      assert s == [QUOTE] + rest;
      assert s[1..] == rest;
    } else {
      ScanQuotedDoubled(v[1..], rest);
      var tail := DoubleQuotes(v[1..]) + [QUOTE] + rest;
      if v[0] == QUOTE {
        assert s == [QUOTE, QUOTE] + tail;
        assert s[2..] == tail;
        assert [QUOTE] + v[1..] == v;
      } else {
        assert s == [v[0]] + tail;
        assert s[1..] == tail;
        assert [v[0]] + v[1..] == v;
      }
    }
  }

  lemma {:induction false} ScanPlainUntilComma(v: JString, rest: JString)
    requires COMMA !in v && CR !in v && LF !in v
    requires rest == [] || rest[0] == COMMA
    ensures ScanPlain(v + rest) == (v, rest)
    decreases |v|
  {
    if v == [] {
      assert v + rest == rest;
    } else {
      ScanPlainUntilComma(v[1..], rest);
      assert (v + rest)[1..] == v[1..] + rest;
      assert [v[0]] + v[1..] == v;
    }
  }

  /** A quoted field, followed by a comma or by the end of the record, reads back as its text. */
  lemma ReadQuotedField(v: JString, rest: JString)
    requires NeedsQuotes(v)
    requires rest == [] || rest[0] == COMMA
    ensures ReadField(Escape(Some(v)) + rest) == Some((v, rest))
  {
    var d := DoubleQuotes(v);
    var s := Escape(Some(v)) + rest;
    assert Escape(Some(v)) == [QUOTE] + d + [QUOTE];
    AppendAssoc([QUOTE] + d, [QUOTE], rest);
    AppendAssoc([QUOTE], d, [QUOTE] + rest);
    AppendAssoc(d, [QUOTE], rest);
    assert s == [QUOTE] + (d + [QUOTE] + rest);
    assert s[1..] == d + [QUOTE] + rest;
    ScanQuotedDoubled(v, rest);
  }

  /** A field written as it is, followed by a comma or by the end of the record, reads back as its text. */
  lemma ReadPlainField(v: JString, rest: JString)
    requires !NeedsQuotes(v) && CR !in v && LF !in v
    requires rest == [] || rest[0] == COMMA
    ensures ReadField(Escape(Some(v)) + rest) == Some((v, rest))
  {
    ScanPlainUntilComma(v, rest);
    if v == [] {
      assert Escape(Some(v)) + rest == rest;
    }
  }

  /** An escaped field, followed by a comma or by the end of the record, reads back as its text. */
  lemma ReadEscapedField(v: JString, rest: JString)
    requires Recoverable(v)
    requires rest == [] || rest[0] == COMMA
    ensures ReadField(Escape(Some(v)) + rest) == Some((v, rest))
  {
    if NeedsQuotes(v) {
      ReadQuotedField(v, rest);
    } else {
      ReadPlainField(v, rest);
    }
  }

  /** Escaping is undone by reading: `escape` loses nothing of a field that is quoted or has no line break. */
  lemma EscapeRoundTrip(v: JString)
    requires Recoverable(v)
    ensures ReadRecord(Escape(Some(v))) == Some([v])
  {
    ReadEscapedField(v, []);
    assert Escape(Some(v)) + [] == Escape(Some(v));
  }

  /**
   * A line break in a field with no comma or quote is written as it is, and
   * the record then ends at the break: "a", LF, "b" does not read back.
   */
  lemma LineBreakUnquoted()
    ensures Escape(Some([0x61, LF, 0x62])) == [0x61, LF, 0x62]
    ensures ReadRecord(Escape(Some([0x61, LF, 0x62]))) == None
  {
    var v: JString := [0x61, LF, 0x62];
    assert !NeedsQuotes(v);
    var tail: JString := [LF, 0x62];
    assert v[1..] == tail;
    assert ScanPlain(tail) == ([], tail);
    assert [v[0]] + ScanPlain(tail).0 == [0x61];
    assert ScanPlain(v) == ([0x61], tail);
  }

  /** The escaped fields joined by commas. */
  function EscapedRecord(fields: seq<JString>): JString {
    Join(seq(|fields|, i requires 0 <= i < |fields| => Escape(Some(fields[i]))), [COMMA])
  }

  /**
   * A record of escaped fields reads back as exactly those fields, whatever
   * commas and quotes they hold, when no unquoted field holds a line break.
   */
  lemma {:induction false} ReadEscapedRecord(fields: seq<JString>)
    requires |fields| >= 1
    requires forall k :: 0 <= k < |fields| ==> Recoverable(fields[k])
    ensures ReadRecord(EscapedRecord(fields)) == Some(fields)
    decreases |fields|
  {
    var parts := seq(|fields|, i requires 0 <= i < |fields| => Escape(Some(fields[i])));
    if |fields| == 1 {
      assert EscapedRecord(fields) == Escape(Some(fields[0]));
      EscapeRoundTrip(fields[0]);
      assert fields == [fields[0]];
    } else {
      var tail := EscapedRecord(fields[1..]);
      assert parts[1..] == seq(|fields[1..]|, i requires 0 <= i < |fields[1..]| => Escape(Some(fields[1..][i])));
      assert EscapedRecord(fields) == parts[0] + ([COMMA] + tail);
      ReadEscapedField(fields[0], [COMMA] + tail);
      assert ([COMMA] + tail)[1..] == tail;
      ReadEscapedRecord(fields[1..]);
      assert [fields[0]] + fields[1..] == fields;
    }
  }

  // ---------------------------------------------------------------------------
  // The report

  const Header: JString := Lit("ID,Name,Description,Total Lines,Code Lines,Comment Lines,Blank Lines")

  /** The numeric columns, always total, code, comment, blank. */
  function CountFields(c: Counts): seq<JString> {
    [Decimal(c.Total()), Decimal(c.code), Decimal(c.comment), Decimal(c.blank)]
  }

  /** The fields of the row for all languages together. */
  function TotalFields(c: Counts): seq<JString> {
    [Lit("ALL"), Lit("All"), Lit("All languages")] + CountFields(c)
  }

  /** The row for all languages together, written without escaping. */
  function TotalRow(c: Counts): JString {
    Join(TotalFields(c), [COMMA])
  }

  /** The fields of a language's row: enum name, display name, description (empty when there is none), counts. */
  function LanguageFields(language: Language, c: Counts): seq<JString> {
    [language.name, language.displayName, language.description.GetOr([])] + CountFields(c)
  }

  /** A language's row: its three text fields escaped, its counts written as numbers. */
  function LanguageRow(language: Language, c: Counts): JString {
    Join([Escape(Some(language.name)), Escape(Some(language.displayName)), Escape(language.description)] + CountFields(c), [COMMA])
  }

  /** `writeln`: the text followed by CR LF. */
  function Line(s: JString): JString {
    s + CRLF
  }

  /** One line per language, in the order given. */
  function LanguageLines(languages: seq<Language>, languageCounts: map<Language, Counts>): seq<JString>
    requires forall l :: l in languages ==> l in languageCounts
  {
    seq(|languages|, i requires 0 <= i < |languages| => Line(LanguageRow(languages[i], languageCounts[languages[i]])))
  }

  /** The report's lines for the given totals and languages, in the given order. */
  function ReportLines(total: Counts, languages: seq<Language>, languageCounts: map<Language, Counts>): seq<JString>
    requires forall l :: l in languages ==> l in languageCounts
  {
    [Line(Header), Line(TotalRow(total))] + LanguageLines(languages, languageCounts)
  }

  /** Digits need no quoting and hold no line break. */
  lemma DecimalIsPlain(n: nat)
    ensures !NeedsQuotes(Decimal(n))
    ensures CR !in Decimal(n) && LF !in Decimal(n)
  {
    var d := Decimal(n);
    assert forall k :: 0 <= k < |d| ==> IsDigit(d[k], 10);
  }

  /** Fields that need no quoting are written as they are, so a record of them is their plain join. */
  lemma PlainRecord(fields: seq<JString>)
    requires forall k :: 0 <= k < |fields| ==> !NeedsQuotes(fields[k])
    ensures EscapedRecord(fields) == Join(fields, [COMMA])
  {
    assert seq(|fields|, i requires 0 <= i < |fields| => Escape(Some(fields[i]))) == fields;
  }

  /** The total row is the escaped record of its fields. */
  lemma TotalRowIsRecord(c: Counts)
    ensures TotalRow(c) == EscapedRecord(TotalFields(c))
  {
    DecimalIsPlain(c.Total());
    DecimalIsPlain(c.code);
    DecimalIsPlain(c.comment);
    DecimalIsPlain(c.blank);
    var fields := TotalFields(c);
    assert Lit("ALL") == [0x41, 0x4C, 0x4C];
    assert Lit("All") == [0x41, 0x6C, 0x6C];
    assert !NeedsQuotes(Lit("All languages"));
    PlainRecord(fields);
  }

  /** A language row is the escaped record of the language's fields. */
  lemma LanguageRowIsRecord(language: Language, c: Counts)
    ensures LanguageRow(language, c) == EscapedRecord(LanguageFields(language, c))
  {
    DecimalIsPlain(c.Total());
    DecimalIsPlain(c.code);
    DecimalIsPlain(c.comment);
    DecimalIsPlain(c.blank);
    var fields := LanguageFields(language, c);
    assert Escape(language.description) == Escape(Some(language.description.GetOr([])));
    assert seq(|fields|, i requires 0 <= i < |fields| => Escape(Some(fields[i])))
        == [Escape(Some(language.name)), Escape(Some(language.displayName)), Escape(language.description)] + CountFields(c);
  }

  /** A language whose name, display name and description read back once escaped. */
  predicate RecoverableLanguage(language: Language) {
    Recoverable(language.name) && Recoverable(language.displayName) && Recoverable(language.description.GetOr([]))
  }

  /** The report of a counts map: the languages in display-name order. */
  ghost function Report(pc: PathCounts): seq<JString> {
    ReportLines(TotalCounts(pc), SortedOrder(Languages(pc), DisplayName), LanguageCounts(pc))
  }

  /**
   * What the lines say, for any totals and language order: `2 + #languages`
   * lines, each ending in CR LF; the header; the total row, which reads back as
   * `ALL,All,All languages` and the totals; then, line by line, each
   * language's escaped fields and counts, which read back as those fields
   * whatever commas or quotes its texts hold, unless an unquoted one holds a
   * line break.
   */
  lemma ReportLinesContents(total: Counts, languages: seq<Language>, languageCounts: map<Language, Counts>)
    requires forall l :: l in languages ==> l in languageCounts
    ensures var r := ReportLines(total, languages, languageCounts);
      && |r| == 2 + |languages|
      && (forall k :: 0 <= k < |r| ==> |r[k]| >= 2 && r[k][|r[k]| - 2..] == CRLF)
      && r[0] == Header + CRLF
      && ReadRecord(r[1][..|r[1]| - 2]) == Some([Lit("ALL"), Lit("All"), Lit("All languages")] + CountFields(total))
      && (forall i :: 0 <= i < |languages| ==>
            r[i + 2][..|r[i + 2]| - 2] == EscapedRecord(LanguageFields(languages[i], languageCounts[languages[i]])))
      && (forall i :: 0 <= i < |languages| && RecoverableLanguage(languages[i]) ==>
            ReadRecord(r[i + 2][..|r[i + 2]| - 2]) == Some(LanguageFields(languages[i], languageCounts[languages[i]])))
  {
    var r := ReportLines(total, languages, languageCounts);
    assert r[1][..|r[1]| - 2] == TotalRow(total);
    TotalRowReadsBack(total);
    forall i | 0 <= i < |languages|
      ensures r[i + 2][..|r[i + 2]| - 2] == EscapedRecord(LanguageFields(languages[i], languageCounts[languages[i]]))
      ensures RecoverableLanguage(languages[i]) ==>
        ReadRecord(r[i + 2][..|r[i + 2]| - 2]) == Some(LanguageFields(languages[i], languageCounts[languages[i]]))
    {
      var row := LanguageRow(languages[i], languageCounts[languages[i]]);
      assert r[i + 2] == row + CRLF;
      assert r[i + 2][..|r[i + 2]| - 2] == row;
      LanguageRowReadsBack(languages[i], languageCounts[languages[i]]);
    }
  }

  /** The total row reads back as `ALL,All,All languages` and the totals. */
  lemma TotalRowReadsBack(c: Counts)
    ensures ReadRecord(TotalRow(c)) == Some(TotalFields(c))
  {
    TotalRowIsRecord(c);
    assert Lit("ALL") == [0x41, 0x4C, 0x4C];
    assert Lit("All") == [0x41, 0x6C, 0x6C];
    assert CR !in Lit("All languages") && LF !in Lit("All languages");
    DecimalIsPlain(c.Total());
    DecimalIsPlain(c.code);
    DecimalIsPlain(c.comment);
    DecimalIsPlain(c.blank);
    ReadEscapedRecord(TotalFields(c));
  }

  /** A language row is the escaped record of its fields, and reads back as them when its texts are recoverable. */
  lemma LanguageRowReadsBack(language: Language, c: Counts)
    ensures LanguageRow(language, c) == EscapedRecord(LanguageFields(language, c))
    ensures RecoverableLanguage(language) ==> ReadRecord(LanguageRow(language, c)) == Some(LanguageFields(language, c))
  {
    LanguageRowIsRecord(language, c);
    if RecoverableLanguage(language) {
      DecimalIsPlain(c.Total());
      DecimalIsPlain(c.code);
      DecimalIsPlain(c.comment);
      DecimalIsPlain(c.blank);
      ReadEscapedRecord(LanguageFields(language, c));
    }
  }

  /** The report of a counts map has one language row per language found, in display-name order. */
  lemma ReportSize(pc: PathCounts)
    ensures |Report(pc)| == 2 + |Languages(pc)|
  {
    SortedOrderSize(Languages(pc), DisplayName);
  }

  /** Writes one line per language, in the order given. */
  method WriteLanguageRows(languages: seq<Language>, languageCounts: map<Language, Counts>) returns (lines: seq<JString>)
    requires forall l :: l in languages ==> l in languageCounts
    ensures lines == LanguageLines(languages, languageCounts)
  {
    lines := [];
    for i := 0 to |languages|
      invariant |lines| == i
      invariant forall j :: 0 <= j < i ==> lines[j] == Line(LanguageRow(languages[j], languageCounts[languages[j]]))
    {
      lines := lines + [Line(LanguageRow(languages[i], languageCounts[languages[i]]))];
    }
    assert |lines| == |LanguageLines(languages, languageCounts)|;
  }

  /**
   * `CsvReport.generateReport`: the report's lines, in the order written. The
   * display names of the languages found are distinct, as they are in the
   * language registry, so the order of the language rows is determined.
   */
  method GenerateReport(cache: CountsCache) returns (lines: seq<JString>)
    requires cache.Valid()
    requires InjectiveOn(Languages(cache.pathCounts), DisplayName)
    modifies cache
    ensures cache.Valid()
    ensures lines == Report(cache.pathCounts)
  {
    var total := cache.GetTotalCounts();
    var languageCounts := cache.GetLanguageCounts();
    var languages := Sort(languageCounts.Keys, DisplayName);
    var rows := WriteLanguageRows(languages, languageCounts);
    lines := [Line(Header), Line(TotalRow(total))] + rows;
  }
}

=== FILE: html.dfy ===
/**
 * `HtmlReport`: an HTML page with a summary table, a table of line counts by
 * language and a table of line counts by file. The page's markup is fixed
 * template text; what varies is the text of the table cells, and every cell
 * taken from the project, a language or a path goes through `escape`, which
 * writes `&`, `<` and `>` as entities, other non-ASCII characters as
 * hexadecimal character references, and drops characters HTML cannot carry.
 */
module Html {
  import opened Wrappers
  import opened JavaStrings
  import opened LineCounts
  import opened CountUtils
  import opened Sorting
  import opened Cache

  const AMP: CodeUnit := 0x26
  const LT: CodeUnit := 0x3C
  const GT: CodeUnit := 0x3E
  const SEMI: CodeUnit := 0x3B

  /** `&amp;` */
  const AMP_ENTITY: JString := [0x26, 0x61, 0x6D, 0x70, 0x3B]
  /** `&lt;` */
  const LT_ENTITY: JString := [0x26, 0x6C, 0x74, 0x3B]
  /** `&gt;` */
  const GT_ENTITY: JString := [0x26, 0x67, 0x74, 0x3B]
  /** `&#x`, the start of a hexadecimal character reference. */
  const REF_START: JString := [0x26, 0x23, 0x78]

  // ---------------------------------------------------------------------------
  // Escaping

  /** `Character.isWhitespace`: the Unicode space separators other than the no-break spaces, and the ASCII controls TAB to CR and FS to US. */
  predicate IsWhitespace(cp: int) {
    || (0x09 <= cp <= 0x0D) || (0x1C <= cp <= 0x20)
    || cp == 0x1680 || (0x2000 <= cp <= 0x2006) || (0x2008 <= cp <= 0x200A)
    || cp == 0x2028 || cp == 0x2029 || cp == 0x205F || cp == 0x3000
  }

  /** `String.isBlank`: empty, or white space only. */
  predicate IsBlank(s: JString) {
    forall k :: 0 <= k < |s| ==> IsWhitespace(s[k])
  }

  /** `&#x`, the code point in upper-case hexadecimal, `;`. */
  function NumericRef(cp: nat): JString {
    REF_START + Hex(cp) + [SEMI]
  }

  /** A code point HTML can carry as a character reference: not a C0 control, not a surrogate, not U+FFFE or U+FFFF. */
  predicate IsReferable(cp: int) {
    (0x7F <= cp <= 0xD7FF) || (0xE000 <= cp <= 0xFFFD) || (0x1_0000 <= cp <= 0x10_FFFF)
  }

  /** A code point the escape keeps, as itself, as an entity or as a reference; every other one is dropped. */
  predicate IsKept(cp: int) {
    cp == 0x0A || cp == 0x09 || cp == 0x0D || (0x1F < cp < 0x7F) || IsReferable(cp)
  }

  /**
   * The text one code point becomes: an entity for `&`, `<` and `>`; itself
   * for LF, TAB, CR and the rest of printable ASCII; a hexadecimal reference
   * for the referable code points; nothing for the others.
   */
  function EscapeCodePoint(cp: int): JString
    requires 0 <= cp <= 0x10_FFFF
  {
    if cp == AMP then AMP_ENTITY
    else if cp == LT then LT_ENTITY
    else if cp == GT then GT_ENTITY
    else if cp == 0x0A || cp == 0x09 || cp == 0x0D then [cp]
    else if 0x1F < cp < 0x7F then [cp]
    else if IsReferable(cp) then NumericRef(cp)
    else []
  }

  /** The escapes of a sequence of code points, one after another. */
  function EscapeCodePoints(cps: seq<int>): JString
    requires forall k :: 0 <= k < |cps| ==> 0 <= cps[k] <= 0x10_FFFF
  {
    if cps == [] then [] else EscapeCodePoint(cps[0]) + EscapeCodePoints(cps[1..])
  }

  /** The escape of every code point of `s`. */
  function EscapeAll(s: JString): JString {
    EscapeCodePoints(CodePoints(s))
  }

  /**
   * `HtmlReport.escape` as corrected (see `EscapeAsWritten` for the code as it
   * stands, which writes LF, TAB and CR as their decimal values): a blank
   * string is returned as it is; any other string is escaped code point by
   * code point.
   */
  function Escape(s: JString): JString {
    if IsBlank(s) then s else EscapeAll(s)
  }

  /** The code points an escape keeps, in order. */
  function KeptCodePoints(cps: seq<int>): seq<int> {
    if cps == [] then [] else (if IsKept(cps[0]) then [cps[0]] else []) + KeptCodePoints(cps[1..])
  }

  lemma EscapeCodePointsCons(cp: int, cps: seq<int>)
    requires 0 <= cp <= 0x10_FFFF
    requires forall k :: 0 <= k < |cps| ==> 0 <= cps[k] <= 0x10_FFFF
    ensures EscapeCodePoints([cp] + cps) == EscapeCodePoint(cp) + EscapeCodePoints(cps)
  {
    assert ([cp] + cps)[1..] == cps;
  }

  /** The escape of `s` from unit `i` on, a code point at a time, a surrogate pair counting as one. */
  function EscapeFrom(s: JString, i: nat): JString
    requires i <= |s|
    decreases |s| - i
  {
    if i == |s| then []
    else
      var ch := CodePointAt(s, i);
      EscapeCodePoint(ch) + EscapeFrom(s, i + CharCount(ch))
  }

  /** The escape from `i` on is the escape of the code point at `i`, then the escape from just past it. */
  lemma EscapeFromStep(s: JString, i: nat, ch: int)
    requires i < |s| && ch == CodePointAt(s, i)
    ensures EscapeFrom(s, i) == EscapeCodePoint(ch) + EscapeFrom(s, i + CharCount(ch))
  {
  }

  /** One pass of the escaping loop: the escape of the code point at `i`, and the index just past it. */
  method EscapeNext(s: JString, i: nat) returns (piece: JString, next: nat)
    requires i < |s|
    ensures i < next <= |s|
    ensures piece + EscapeFrom(s, next) == EscapeFrom(s, i)
  {
    var ch := CodePointAt(s, i);
    piece := EscapeCodePoint(ch);
    next := i + CharCount(ch);
    EscapeFromStep(s, i, ch);
  }

  /** Escaping unit by unit from `i` is escaping the code points of what follows `i`. */
  lemma {:induction false} EscapeFromAll(s: JString, i: nat)
    requires i <= |s|
    ensures EscapeFrom(s, i) == EscapeAll(s[i..])
    decreases |s| - i
  {
    if i == |s| {
      assert s[i..] == [];
    } else {
      var ch := CodePointAt(s, i);
      var j := i + CharCount(ch);
      var rest := CodePoints(s[j..]);
      CodePointsStep(s, i);
      EscapeCodePointsCons(ch, rest);
      EscapeFromAll(s, j);
      assert EscapeFrom(s, i) == EscapeCodePoint(ch) + EscapeFrom(s, j);
    }
  }

  /**
   * `HtmlReport.escape` as corrected: a blank string is returned as it is;
   * otherwise the escaping loop runs.
   */
  method EscapeText(s: JString) returns (r: JString)
    ensures r == Escape(s)
  {
    if IsBlank(s) {
      return s;
    }
    r := EscapeLoop(s);
  }

  /** The escaping loop of `escape`, as corrected: one code point per step, a surrogate pair counting as one. */
  method EscapeLoop(s: JString) returns (buffer: JString)
    ensures buffer == EscapeAll(s)
  {
    buffer := [];
    var idx := 0;
    EscapeFromAll(s, 0);
    assert s[0..] == s;
    while idx < |s|
      invariant 0 <= idx <= |s|
      invariant buffer + EscapeFrom(s, idx) == EscapeAll(s)
      decreases |s| - idx
    {
      var piece, next := EscapeNext(s, idx);
      AppendAssoc(buffer, piece, EscapeFrom(s, next));
      buffer := buffer + piece;
      idx := next;
    }
  }

  // ---------------------------------------------------------------------------
  // Reading escaped text back

  /** A hexadecimal character reference at the front of `t`: its code point and what follows it. */
  function ReadNumericRef(t: JString): (r: Option<(int, JString)>)
    ensures r.Some? ==> |r.value.1| < |t|
  {
    if |t| >= 3 && t[..3] == REF_START then
      var digits := t[3..];
      var n := DigitRun(digits, 16);
      if 1 <= n < |digits| && digits[n] == SEMI then Some((ParseNumeral(digits[..n], 16), digits[n + 1..])) else None
    else None
  }

  /**
   * The decoder of escaped text: the three entities and hexadecimal
   * references become the code points they name, any other unit stands for
   * itself. `None` when an `&` starts none of these. A reference always names
   * its own code point; the remapping of `&#x80;` to `&#x9F;` that HTML
   * parsers apply is not modelled.
   */
  function Unescape(t: JString): Option<seq<int>>
    decreases |t|
  {
    if t == [] then Some([])
    else if t[0] != AMP then
      var rest :- Unescape(t[1..]);
      Some([t[0] as int] + rest)
    else if |t| >= 5 && t[..5] == AMP_ENTITY then
      var rest :- Unescape(t[5..]);
      Some([AMP as int] + rest)
    else if |t| >= 4 && t[..4] == LT_ENTITY then
      var rest :- Unescape(t[4..]);
      Some([LT as int] + rest)
    else if |t| >= 4 && t[..4] == GT_ENTITY then
      var rest :- Unescape(t[4..]);
      Some([GT as int] + rest)
    else
      var ref :- ReadNumericRef(t);
      var rest :- Unescape(ref.1);
      Some([ref.0] + rest)
  }

  /** No unit of a hexadecimal numeral is `;`. */
  lemma HexEndsAtSemicolon(n: nat)
    ensures forall k :: 0 <= k < |Hex(n)| ==> IsDigit(Hex(n)[k], 16)
    ensures !IsDigit(SEMI, 16)
  {
  }

  /** A reference reads back as its code point. */
  lemma ReadNumericRefOf(cp: nat, rest: JString)
    ensures ReadNumericRef(NumericRef(cp) + rest) == Some((cp as int, rest))
  {
    var h := Hex(cp);
    var t := NumericRef(cp) + rest;
    assert t == REF_START + (h + ([SEMI] + rest));
    assert t[..3] == REF_START;
    var digits := t[3..];
    assert digits == h + ([SEMI] + rest);
    HexEndsAtSemicolon(cp);
    DigitRunOf(h, [SEMI] + rest, 16);
    assert digits[..|h|] == h;
    assert digits[|h|] == SEMI;
    assert digits[|h| + 1..] == rest;
    ParseNumeralRoundTrip(cp, 16);
  }

  /** A reference is not mistaken for one of the three entities. */
  lemma NumericRefIsNoEntity(cp: nat, rest: JString)
    ensures var t := NumericRef(cp) + rest;
      && t[0] == AMP
      && !(|t| >= 5 && t[..5] == AMP_ENTITY)
      && !(|t| >= 4 && t[..4] == LT_ENTITY)
      && !(|t| >= 4 && t[..4] == GT_ENTITY)
  {
    var t := NumericRef(cp) + rest;
    assert t[1] == 0x23;
  }

  /** An entity reads back as its character. */
  lemma UnescapeEntity(e: JString, cp: CodeUnit, rest: JString, r: seq<int>)
    requires (e, cp) in {(AMP_ENTITY, AMP), (LT_ENTITY, LT), (GT_ENTITY, GT)}
    requires Unescape(rest) == Some(r)
    ensures Unescape(e + rest) == Some([cp as int] + r)
  {
    var t := e + rest;
    assert t[..|e|] == e;
    assert t[|e|..] == rest;
    if e != AMP_ENTITY {
      assert t[1] != AMP_ENTITY[1];
    }
    if e == GT_ENTITY {
      assert t[1] != LT_ENTITY[1];
    }
  }

  /** One code point's escape reads back as that code point, or as nothing when the escape drops it. */
  lemma UnescapeCodePoint(cp: int, rest: JString, r: seq<int>)
    requires 0 <= cp <= 0x10_FFFF
    requires Unescape(rest) == Some(r)
    ensures Unescape(EscapeCodePoint(cp) + rest) == Some((if IsKept(cp) then [cp] else []) + r)
  {
    var e := EscapeCodePoint(cp);
    if cp == AMP {
      UnescapeEntity(AMP_ENTITY, AMP, rest, r);
    } else if cp == LT {
      UnescapeEntity(LT_ENTITY, LT, rest, r);
    } else if cp == GT {
      UnescapeEntity(GT_ENTITY, GT, rest, r);
    } else if cp == 0x0A || cp == 0x09 || cp == 0x0D || 0x1F < cp < 0x7F {
      assert e == [cp];
      assert (e + rest)[0] == cp && (e + rest)[1..] == rest;
    } else if IsReferable(cp) {
      assert e == NumericRef(cp);
      ReadNumericRefOf(cp, rest);
      NumericRefIsNoEntity(cp, rest);
    } else {
      assert !IsKept(cp) && e == [];
      calc {
        Unescape(EscapeCodePoint(cp) + rest);
        { assert EscapeCodePoint(cp) + rest == rest; }
        Unescape(rest);
        { assert [] + r == r; }
        Some((if IsKept(cp) then [cp] else []) + r);
      }
    }
  }

  /** Escaped code points read back as the code points the escape keeps. */
  lemma {:induction false} UnescapeEscapeCodePoints(cps: seq<int>)
    requires forall k :: 0 <= k < |cps| ==> 0 <= cps[k] <= 0x10_FFFF
    ensures Unescape(EscapeCodePoints(cps)) == Some(KeptCodePoints(cps))
    decreases |cps|
  {
    if cps != [] {
      UnescapeEscapeCodePoints(cps[1..]);
      UnescapeCodePoint(cps[0], EscapeCodePoints(cps[1..]), KeptCodePoints(cps[1..]));
    }
  }

  /**
   * Round trip: escaped text that was not blank reads back as the code
   * points of the original, less the ones HTML cannot carry; in particular
   * every `&` it holds starts an entity or a reference. Blank text, which
   * the escape returns as it is, reads back whole, controls included.
   */
  lemma UnescapeEscape(s: JString)
    ensures Unescape(Escape(s)) == Some(if IsBlank(s) then CodePoints(s) else KeptCodePoints(CodePoints(s)))
  {
    if IsBlank(s) {
      assert forall k :: 0 <= k < |s| ==> IsWhitespace(s[k]);
      CodePointsOfBmp(s);
      UnescapePlain(s);
    } else {
      UnescapeEscapeCodePoints(CodePoints(s));
    }
  }

  /**
   * Text with no `&`, `<` or `>`, only printable ASCII, TAB, LF and CR, is not
   * changed by the corrected escape (as written, TAB, LF and CR become digits).
   */
  lemma {:induction false} EscapePlainText(s: JString)
    requires forall k :: 0 <= k < |s| ==> s[k] in {0x09, 0x0A, 0x0D} || (0x20 <= s[k] <= 0x7E && s[k] !in {AMP, LT, GT})
    ensures Escape(s) == s
  {
    if !IsBlank(s) {
      CodePointsOfBmp(s);
      EscapePlainCodePoints(s);
    }
  }

  lemma {:induction false} EscapePlainCodePoints(s: JString)
    requires forall k :: 0 <= k < |s| ==> s[k] in {0x09, 0x0A, 0x0D} || (0x20 <= s[k] <= 0x7E && s[k] !in {AMP, LT, GT})
    ensures EscapeCodePoints(s) == s
    decreases |s|
  {
    if s != [] {
      EscapePlainCodePoints(s[1..]);
      assert s == [s[0]] + s[1..];
    }
  }

  /** One code point's escape holds no `<` and no `>`. */
  lemma EscapeCodePointNoAngles(cp: int)
    requires 0 <= cp <= 0x10_FFFF
    ensures LT !in EscapeCodePoint(cp) && GT !in EscapeCodePoint(cp)
  {
    if IsReferable(cp) && !(cp == 0x0A || cp == 0x09 || cp == 0x0D || 0x1F < cp < 0x7F) {
      HexEndsAtSemicolon(cp);
      var h := Hex(cp);
      assert LT !in h && GT !in h by {
        forall k | 0 <= k < |h| ensures h[k] != LT && h[k] != GT {
          assert IsDigit(h[k], 16);
        }
      }
    }
  }

  lemma {:induction false} EscapeCodePointsNoAngles(cps: seq<int>)
    requires forall k :: 0 <= k < |cps| ==> 0 <= cps[k] <= 0x10_FFFF
    ensures LT !in EscapeCodePoints(cps) && GT !in EscapeCodePoints(cps)
    decreases |cps|
  {
    if cps != [] {
      EscapeCodePointNoAngles(cps[0]);
      EscapeCodePointsNoAngles(cps[1..]);
    }
  }

  /** Escaped text never holds a raw `<` or `>`, so it cannot open or close markup. */
  lemma EscapeNoAngles(s: JString)
    ensures LT !in Escape(s) && GT !in Escape(s)
  {
    if !IsBlank(s) {
      EscapeCodePointsNoAngles(CodePoints(s));
    } else {
      assert forall k :: 0 <= k < |s| ==> s[k] != LT && s[k] != GT;
    }
  }

  // ---------------------------------------------------------------------------
  // The escape as the source writes it

  /**
   * The escape of one code point as the source writes it: LF, TAB and CR go
   * through `StringBuilder.append(int)`, which appends the code point's
   * decimal value rather than the character.
   */
  function EscapeCodePointAsWritten(cp: int): JString
    requires 0 <= cp <= 0x10_FFFF
  {
    if cp == 0x0A || cp == 0x09 || cp == 0x0D then Decimal(cp) else EscapeCodePoint(cp)
  }

  function EscapeCodePointsAsWritten(cps: seq<int>): JString
    requires forall k :: 0 <= k < |cps| ==> 0 <= cps[k] <= 0x10_FFFF
  {
    if cps == [] then [] else EscapeCodePointAsWritten(cps[0]) + EscapeCodePointsAsWritten(cps[1..])
  }

  /** `escape` as written. */
  function EscapeAsWritten(s: JString): JString {
    if IsBlank(s) then s else EscapeCodePointsAsWritten(CodePoints(s))
  }

  /** Text without `&` reads back as itself. */
  lemma {:induction false} UnescapePlain(t: JString)
    requires AMP !in t
    ensures Unescape(t) == Some(t)
    decreases |t|
  {
    if t != [] {
      UnescapePlain(t[1..]);
      assert t == [t[0]] + t[1..];
    }
  }

  /** `a`, LF, `b`: not blank, and without surrogates. */
  lemma LineFeedText()
    ensures !IsBlank([0x61, 0x0A, 0x62])
    ensures CodePoints([0x61, 0x0A, 0x62]) == [0x61, 0x0A, 0x62]
  {
    var s: JString := [0x61, 0x0A, 0x62];
    assert !IsWhitespace(s[0]);
    CodePointsOfBmp(s);
  }

  /** The escape as written of three code points, one after another. */
  lemma EscapeCodePointsAsWrittenOfThree(a: int, b: int, c: int)
    requires 0 <= a <= 0x10_FFFF && 0 <= b <= 0x10_FFFF && 0 <= c <= 0x10_FFFF
    ensures EscapeCodePointsAsWritten([a, b, c])
      == EscapeCodePointAsWritten(a) + EscapeCodePointAsWritten(b) + EscapeCodePointAsWritten(c)
  {
    var s := [a, b, c];
    assert s[1..] == [b, c] && [b, c][1..] == [c] && [c][1..] == [];
    assert EscapeCodePointsAsWritten([c]) == EscapeCodePointAsWritten(c);
    assert EscapeCodePointsAsWritten([b, c]) == EscapeCodePointAsWritten(b) + EscapeCodePointAsWritten(c);
    assert EscapeCodePointsAsWritten(s) == EscapeCodePointAsWritten(a) + EscapeCodePointsAsWritten([b, c]);
  }

  /** A line feed, as written, becomes the digits `1` and `0`. */
  lemma LineFeedAsWritten()
    ensures EscapeCodePointAsWritten(0x0A) == [0x31, 0x30]
  {
    assert Decimal(0x0A) == [0x31, 0x30];
  }

  /**
   * `a\nb` is not blank, so the line feed reaches the switch and is written
   * as `10`.
   */
  lemma EscapeAsWrittenLineFeed()
    ensures EscapeAsWritten([0x61, 0x0A, 0x62]) == [0x61, 0x31, 0x30, 0x62]
  {
    LineFeedText();
    EscapeCodePointsAsWrittenOfThree(0x61, 0x0A, 0x62);
    LineFeedAsWritten();
  }

  /** HTML can carry all of `a\nb`. */
  lemma LineFeedKept()
    ensures KeptCodePoints([0x61, 0x0A, 0x62]) == [0x61, 0x0A, 0x62]
  {
    var s := [0x61, 0x0A, 0x62];
    assert s[1..] == [0x0A, 0x62] && s[1..][1..] == [0x62] && s[1..][1..][1..] == [];
  }

  /** The corrected escape keeps the line feed of `a\nb`. */
  lemma EscapeLineFeed()
    ensures Escape([0x61, 0x0A, 0x62]) == [0x61, 0x0A, 0x62]
  {
    var s: JString := [0x61, 0x0A, 0x62];
    assert forall k :: 0 <= k < |s| ==> s[k] in {0x61, 0x0A, 0x62};
    EscapePlainText(s);
  }

  /**
   * The text `escape` writes for `a\nb` reads back as `a10b`, not as the
   * `a`, LF, `b` the round trip of the corrected escape gives.
   */
  lemma UnescapeAsWrittenLineFeed()
    ensures KeptCodePoints(CodePoints([0x61, 0x0A, 0x62])) == [0x61, 0x0A, 0x62]
    ensures Unescape(EscapeAsWritten([0x61, 0x0A, 0x62])) == Some([0x61, 0x31, 0x30, 0x62])
    ensures Unescape(EscapeAsWritten([0x61, 0x0A, 0x62])) != Some(KeptCodePoints(CodePoints([0x61, 0x0A, 0x62])))
  {
    LineFeedText();
    LineFeedKept();
    EscapeAsWrittenLineFeed();
    UnescapePlain([0x61, 0x31, 0x30, 0x62]);
  }

  // ---------------------------------------------------------------------------
  // The page

  /** The cells of one table row, in order; the template markup around them is fixed text. */
  type Row = seq<JString>

  /** `<a href="` */
  const ANCHOR_OPEN: JString := [0x3C, 0x61, 0x20, 0x68, 0x72, 0x65, 0x66, 0x3D, 0x22]
  /** `">` */
  const ANCHOR_MID: JString := [0x22, 0x3E]
  /** `</a>` */
  const ANCHOR_CLOSE: JString := [0x3C, 0x2F, 0x61, 0x3E]

  /** The four count cells: total, code, comment, blank (`%d`). */
  function CountCells(c: Counts): Row {
    [Decimal(c.Total()), Decimal(c.code), Decimal(c.comment), Decimal(c.blank)]
  }

  /**
   * A language's description cell: empty without a description; the
   * escaped description, linked to the website when there is one. The
   * website goes into the link as it is.
   */
  function DescriptionCell(language: Language): JString {
    match language.description
    case None => []
    case Some(d) =>
      match language.website
      case None => Escape(d)
      case Some(w) => ANCHOR_OPEN + w + ANCHOR_MID + Escape(d) + ANCHOR_CLOSE
  }

  /**
   * The description cell holds no markup unless the language has both a
   * description and a website, and then it is exactly one link whose text is
   * the escaped description.
   */
  lemma DescriptionCellParts(language: Language)
    ensures language.description.None? ==> DescriptionCell(language) == []
    ensures language.description.Some? && language.website.None? ==>
      DescriptionCell(language) == Escape(language.description.value)
      && LT !in DescriptionCell(language) && GT !in DescriptionCell(language)
    ensures language.description.Some? && language.website.Some? ==>
      Expect(ANCHOR_OPEN + language.website.value + ANCHOR_MID, DescriptionCell(language))
        == Some(Escape(language.description.value) + ANCHOR_CLOSE)
  {
    match language.description
    case None =>
    case Some(d) =>
      EscapeNoAngles(d);
      match language.website
      case None =>
      case Some(w) =>
        var front := ANCHOR_OPEN + w + ANCHOR_MID;
        assert DescriptionCell(language) == front + (Escape(d) + ANCHOR_CLOSE);
        ExpectOf(front, Escape(d) + ANCHOR_CLOSE);
  }

  /** A language's row: escaped display name, description cell, counts. */
  function LanguageRow(language: Language, c: Counts): Row {
    [Escape(language.displayName), DescriptionCell(language)] + CountCells(c)
  }

  /** The last row of the language table: `Total`, an empty description, the total counts. */
  function LanguageTotalRow(total: Counts): Row {
    [Lit("Total"), []] + CountCells(total)
  }

  /** The language table's rows: one per language in the order given, then the total row. */
  function LanguageRows(languages: seq<Language>, languageCounts: map<Language, Counts>, total: Counts): seq<Row>
    requires forall l :: l in languages ==> l in languageCounts
  {
    seq(|languages|, i requires 0 <= i < |languages| => LanguageRow(languages[i], languageCounts[languages[i]]))
      + [LanguageTotalRow(total)]
  }

  /** A file's row: escaped path name, counts, escaped language names joined by `, `. */
  function FileRow(pathname: JString, c: Counts, languages: seq<Language>): Row {
    [Escape(pathname)] + CountCells(c) + [Escape(Join(DisplayNames(languages), [0x2C, 0x20]))]
  }

  /** A file's row as the report writes it, with the file's languages in display-name order. */
  ghost function FileRowOf(p: Path, pc: PathCounts, fileCounts: map<Path, Counts>, pathname: Path -> JString): Row
    requires p in pc && p in fileCounts
  {
    FileRow(pathname(p), fileCounts[p], SortedOrder(pc[p].Keys, DisplayName))
  }

  /** The last row of the file table: `Total`, the total counts, an empty languages cell. */
  function FileTotalRow(total: Counts): Row {
    [Lit("Total")] + CountCells(total) + [[]]
  }

  /** The file table's rows: one per file in the order given, then the total row. */
  ghost function FileRows(paths: seq<Path>, pc: PathCounts, fileCounts: map<Path, Counts>, pathname: Path -> JString, total: Counts): seq<Row>
    requires forall p :: p in paths ==> p in pc && p in fileCounts
  {
    seq(|paths|, i requires 0 <= i < |paths| => FileRowOf(paths[i], pc, fileCounts, pathname)) + [FileTotalRow(total)]
  }

  /** The summary table: project, version, report date, numbers of files, languages and unrecognized files, then the totals. */
  function SummaryRows(projectName: JString, version: JString, date: JString, numFiles: nat, numLanguages: nat, numUnrecognized: nat, total: Counts): seq<Row> {
    [ [Lit("Project"), Escape(projectName)],
      [Lit("Version"), Escape(version)],
      [Lit("Report date"), Escape(date)],
      [Lit("Number of files"), Decimal(numFiles)],
      [Lit("Number of languages"), Decimal(numLanguages)],
      [Lit("Unrecognized files"), Decimal(numUnrecognized)],
      [Lit("Total lines"), Decimal(total.Total())],
      [Lit("Code lines"), Decimal(total.code)],
      [Lit("Comment lines"), Decimal(total.comment)],
      [Lit("Blank lines"), Decimal(total.blank)] ]
  }

  /**
   * What varies in the page: the `<title>` (the project name, not escaped),
   * the `<h1>` text, and the rows of the three tables.
   */
  datatype Page = Page(title: JString, heading: JString, summary: seq<Row>, languageRows: seq<Row>, fileRows: seq<Row>)

  /** The page of a counts map in which every file has a recognized language. */
  ghost function Report(pc: PathCounts, projectName: JString, version: JString, date: JString, pathname: Path -> JString): Page
    requires AllRecognized(pc)
  {
    var total := TotalCounts(pc);
    var languageCounts := LanguageCounts(pc);
    AllRecognizedFileCounts(pc);
    Page(projectName, Lit("Line Count Report For ") + Escape(projectName),
      SummaryRows(projectName, version, date, |pc|, |Languages(pc)|, |Unrecognized(pc)|, total),
      LanguageRows(SortedOrder(languageCounts.Keys, DisplayName), languageCounts, total),
      FileRows(SortedOrder(pc.Keys, PathKey), pc, FileCounts(pc), pathname, total))
  }

  /**
   * The language table: one row per language, in the order given, whose
   * first cell is the escaped display name and holds no raw `<` or `>`; then
   * the total row.
   */
  lemma LanguageRowsShape(languages: seq<Language>, languageCounts: map<Language, Counts>, total: Counts)
    requires forall l :: l in languages ==> l in languageCounts
    ensures var rows := LanguageRows(languages, languageCounts, total);
      && |rows| == |languages| + 1
      && (forall i :: 0 <= i < |languages| ==>
            rows[i][0] == Escape(languages[i].displayName) && LT !in rows[i][0] && GT !in rows[i][0])
      && rows[|languages|] == LanguageTotalRow(total)
  {
    forall i | 0 <= i < |languages|
      ensures LT !in Escape(languages[i].displayName) && GT !in Escape(languages[i].displayName)
    {
      EscapeNoAngles(languages[i].displayName);
    }
  }

  /**
   * The file table: one row per file, in the order given, whose path cell and
   * languages cell are escaped and hold no raw `<` or `>`; then the total row.
   */
  lemma FileRowsShape(paths: seq<Path>, pc: PathCounts, fileCounts: map<Path, Counts>, pathname: Path -> JString, total: Counts)
    requires forall p :: p in paths ==> p in pc && p in fileCounts
    ensures var rows := FileRows(paths, pc, fileCounts, pathname, total);
      && |rows| == |paths| + 1
      && (forall i :: 0 <= i < |paths| ==>
            && rows[i][0] == Escape(pathname(paths[i]))
            && LT !in rows[i][0] && GT !in rows[i][0] && LT !in rows[i][5] && GT !in rows[i][5])
      && rows[|paths|] == FileTotalRow(total)
  {
    var rows := FileRows(paths, pc, fileCounts, pathname, total);
    forall i | 0 <= i < |paths|
      ensures rows[i][0] == Escape(pathname(paths[i]))
      ensures LT !in rows[i][0] && GT !in rows[i][0] && LT !in rows[i][5] && GT !in rows[i][5]
    {
      var p := paths[i];
      var names := Join(DisplayNames(SortedOrder(pc[p].Keys, DisplayName)), [0x2C, 0x20]);
      assert rows[i] == [Escape(pathname(p))] + CountCells(fileCounts[p]) + [Escape(names)];
      EscapeNoAngles(pathname(p));
      EscapeNoAngles(names);
    }
  }

  /**
   * The page's tables: one language row per language found, in display-name
   * order, then the total row; one file row per file, in path order, then
   * the total row.
   */
  lemma ReportTables(pc: PathCounts, projectName: JString, version: JString, date: JString, pathname: Path -> JString)
    requires AllRecognized(pc)
    ensures var page := Report(pc, projectName, version, date, pathname);
      && page.languageRows == LanguageRows(SortedOrder(Languages(pc), DisplayName), LanguageCounts(pc), TotalCounts(pc))
      && page.fileRows == FileRows(SortedOrder(pc.Keys, PathKey), pc, FileCounts(pc), pathname, TotalCounts(pc))
      && |page.languageRows| == |Languages(pc)| + 1
      && |page.fileRows| == |pc| + 1
  {
    AllRecognizedFileCounts(pc);
    SortedOrderSize(Languages(pc), DisplayName);
    SortedOrderSize(pc.Keys, PathKey);
    LanguageRowsShape(SortedOrder(Languages(pc), DisplayName), LanguageCounts(pc), TotalCounts(pc));
    FileRowsShape(SortedOrder(pc.Keys, PathKey), pc, FileCounts(pc), pathname, TotalCounts(pc));
  }

  // ---------------------------------------------------------------------------
  // Writing the page

  /** The body of the language loop: the escaped display name, the description cell, the counts. */
  method WriteLanguageRow(language: Language, counts: Counts) returns (row: Row)
    ensures row == LanguageRow(language, counts)
  {
    var description: JString;
    if language.description.None? {
      description := [];
    } else {
      description := EscapeText(language.description.value);
      if language.website.Some? {
        description := ANCHOR_OPEN + language.website.value + ANCHOR_MID + description + ANCHOR_CLOSE;
      }
    }
    var name := EscapeText(language.displayName);
    row := [name, description] + CountCells(counts);
  }

  /** The loop of `writeLanguages`: one row per language, then the total row. */
  method WriteLanguageRows(languages: seq<Language>, languageCounts: map<Language, Counts>, total: Counts) returns (rows: seq<Row>)
    requires forall l :: l in languages ==> l in languageCounts
    ensures rows == LanguageRows(languages, languageCounts, total)
  {
    rows := [];
    for i := 0 to |languages|
      invariant |rows| == i
      invariant forall j :: 0 <= j < i ==> rows[j] == LanguageRow(languages[j], languageCounts[languages[j]])
    {
      var row := WriteLanguageRow(languages[i], languageCounts[languages[i]]);
      rows := rows + [row];
    }
    rows := rows + [LanguageTotalRow(total)];
  }

  /** The body of the file loop: the escaped path name, the counts, the escaped sorted language names. */
  method WriteFileRow(p: Path, pc: PathCounts, fileCounts: map<Path, Counts>, pathname: Path -> JString) returns (row: Row)
    requires p in pc && p in fileCounts
    requires InjectiveOn(pc[p].Keys, DisplayName)
    ensures row == FileRowOf(p, pc, fileCounts, pathname)
  {
    var languages := Sort(pc[p].Keys, DisplayName);
    var name := EscapeText(pathname(p));
    var names := EscapeText(Join(DisplayNames(languages), [0x2C, 0x20]));
    row := [name] + CountCells(fileCounts[p]) + [names];
  }

  /** The loop of `writeFiles`. */
  method WriteFileRows(paths: seq<Path>, pc: PathCounts, fileCounts: map<Path, Counts>, pathname: Path -> JString, total: Counts)
    returns (rows: seq<Row>)
    requires forall p :: p in paths ==> p in pc && p in fileCounts
    requires InjectiveOn(Languages(pc), DisplayName)
    ensures rows == FileRows(paths, pc, fileCounts, pathname, total)
  {
    rows := [];
    for i := 0 to |paths|
      invariant |rows| == i
      invariant forall j :: 0 <= j < i ==> rows[j] == FileRowOf(paths[j], pc, fileCounts, pathname)
    {
      FileLanguagesInjective(pc, paths[i]);
      var row := WriteFileRow(paths[i], pc, fileCounts, pathname);
      rows := rows + [row];
    }
    FileRowsByEntry(paths, pc, fileCounts, pathname, total, rows);
    rows := rows + [FileTotalRow(total)];
  }

  lemma FileRowsByEntry(paths: seq<Path>, pc: PathCounts, fileCounts: map<Path, Counts>, pathname: Path -> JString, total: Counts, rows: seq<Row>)
    requires forall p :: p in paths ==> p in pc && p in fileCounts
    requires |rows| == |paths|
    requires forall j :: 0 <= j < |paths| ==> rows[j] == FileRowOf(paths[j], pc, fileCounts, pathname)
    ensures rows + [FileTotalRow(total)] == FileRows(paths, pc, fileCounts, pathname, total)
  {
  }

  /** `writeSummary`. */
  method WriteSummary(cache: CountsCache, projectName: JString, version: JString, date: JString) returns (rows: seq<Row>)
    requires cache.Valid()
    modifies cache
    ensures cache.Valid()
    ensures rows == SummaryRows(projectName, version, date, |cache.pathCounts|, |Languages(cache.pathCounts)|,
      |Unrecognized(cache.pathCounts)|, TotalCounts(cache.pathCounts))
  {
    var total := cache.GetTotalCounts();
    var languages := cache.GetLanguages();
    var pc := cache.GetPathCounts();
    var unrecognized := cache.GetUnrecognized();
    var name := EscapeText(projectName);
    var v := EscapeText(version);
    var d := EscapeText(date);
    rows := [ [Lit("Project"), name], [Lit("Version"), v], [Lit("Report date"), d],
      [Lit("Number of files"), Decimal(|pc|)], [Lit("Number of languages"), Decimal(|languages|)],
      [Lit("Unrecognized files"), Decimal(|unrecognized|)], [Lit("Total lines"), Decimal(total.Total())],
      [Lit("Code lines"), Decimal(total.code)], [Lit("Comment lines"), Decimal(total.comment)],
      [Lit("Blank lines"), Decimal(total.blank)] ];
  }

  /** `writeLanguages`. */
  method WriteLanguages(cache: CountsCache) returns (rows: seq<Row>)
    requires cache.Valid()
    requires InjectiveOn(Languages(cache.pathCounts), DisplayName)
    modifies cache
    ensures cache.Valid()
    ensures rows == LanguageRows(SortedOrder(Languages(cache.pathCounts), DisplayName), LanguageCounts(cache.pathCounts), TotalCounts(cache.pathCounts))
  {
    var languageCounts := cache.GetLanguageCounts();
    var languages := Sort(languageCounts.Keys, DisplayName);
    var total := cache.GetTotalCounts();
    rows := WriteLanguageRows(languages, languageCounts, total);
  }

  /** `writeFiles`. */
  method WriteFiles(cache: CountsCache, pathname: Path -> JString) returns (rows: seq<Row>)
    requires cache.Valid()
    requires InjectiveOn(Languages(cache.pathCounts), DisplayName)
    requires AllRecognized(cache.pathCounts)
    modifies cache
    ensures cache.Valid()
    ensures AllRecognized(cache.pathCounts)
    ensures rows == FileRows(SortedOrder(cache.pathCounts.Keys, PathKey), cache.pathCounts, FileCounts(cache.pathCounts), pathname, TotalCounts(cache.pathCounts))
  {
    var fileCounts := cache.GetFileCounts();
    var pc := cache.GetPathCounts();
    var paths := Sort(pc.Keys, PathKey);
    PathKeyInjective(pc.Keys);
    AllRecognizedFileCounts(pc);
    var total := cache.GetTotalCounts();
    rows := WriteFileRows(paths, pc, fileCounts, pathname, total);
  }

  /**
   * `HtmlReport.generateReport`. The project name, version, timestamp and
   * `preparePathname` are parameters.
   */
  method GenerateReport(cache: CountsCache, projectName: JString, version: JString, date: JString, pathname: Path -> JString)
    returns (page: Page)
    requires cache.Valid()
    requires InjectiveOn(Languages(cache.pathCounts), DisplayName)
    requires AllRecognized(cache.pathCounts)
    modifies cache
    ensures cache.Valid()
    ensures page == Report(cache.pathCounts, projectName, version, date, pathname)
  {
    var name := EscapeText(projectName);
    var summary := WriteSummary(cache, projectName, version, date);
    var languageRows := WriteLanguages(cache);
    var fileRows := WriteFiles(cache, pathname);
    page := Page(projectName, Lit("Line Count Report For ") + name, summary, languageRows, fileRows);
  }
}

=== FILE: json.dfy ===
/**
 * `JsonReport`: one JSON object with the format version, the report date,
 * the project, the summary numbers and totals, an array of languages and an
 * array of files. The report is modelled as the tree of objects it writes
 * (`Report`) and the `JsonWriter` calls that write it (`GenerateReport`).
 */
module JsonReport {
  import opened Wrappers
  import opened JavaStrings
  import opened LineCounts
  import opened CountUtils
  import opened Sorting
  import opened Cache
  import J = JsonEvents

  /** `FORMAT_VERSION`. */
  const FORMAT_VERSION: int := 1

  /** The member names of `writeCounts`, in order. */
  const COUNT_KEYS: seq<J.Key> := [J.totalLines, J.codeLines, J.commentLines, J.blankLines]

  /** `writeCounts`: total, code, comment and blank lines. */
  function CountsFields(c: Counts): seq<J.Field> {
    [ J.Scalar(J.totalLines, J.Number(c.Total())),
      J.Scalar(J.codeLines, J.Number(c.code)),
      J.Scalar(J.commentLines, J.Number(c.comment)),
      J.Scalar(J.blankLines, J.Number(c.blank)) ]
  }

  /** A count member: a scalar with the given name and a number that is not negative. */
  predicate IsCount(f: J.Field, k: J.Key) {
    f.Scalar? && f.key == k && f.value.Number? && f.value.n >= 0
  }

  /** What a reader takes from four count members: the counts, when the total is their sum. */
  function ReadCounts(fs: seq<J.Field>): Option<Counts> {
    if |fs| == 4 && IsCount(fs[0], J.totalLines) && IsCount(fs[1], J.codeLines)
      && IsCount(fs[2], J.commentLines) && IsCount(fs[3], J.blankLines)
      && fs[0].value.n == fs[1].value.n + fs[2].value.n + fs[3].value.n
    then Some(Counts(fs[1].value.n, fs[2].value.n, fs[3].value.n))
    else None
  }

  /** The count members are named in order: total, code, comment, blank. */
  lemma CountsKeys(c: Counts)
    ensures J.KeysOf(CountsFields(c)) == COUNT_KEYS
  {
  }

  /** The count members read back as the counts they were written from, total included. */
  lemma CountsRoundTrip(c: Counts)
    ensures ReadCounts(CountsFields(c)) == Some(c)
  {
  }

  // ---------------------------------------------------------------------------
  // The tree

  /** An element of the `languages` array: name, display name, description and website (`null` when absent), counts. */
  function LanguageObject(language: Language, c: Counts): J.Object {
    J.Object(LanguageHead(language) + CountsFields(c))
  }

  function LanguageHead(language: Language): seq<J.Field> {
    [ J.Scalar(J.name, J.Text(language.name)),
      J.Scalar(J.displayName, J.Text(language.displayName)),
      J.Scalar(J.description, J.OptionalText(language.description)),
      J.Scalar(J.website, J.OptionalText(language.website)) ]
  }

  function LanguageObjects(ls: seq<Language>, languageCounts: map<Language, Counts>): seq<J.Object>
    requires forall l :: l in ls ==> l in languageCounts
  {
    seq(|ls|, i requires 0 <= i < |ls| => LanguageObject(ls[i], languageCounts[ls[i]]))
  }

  /** An element of a file's `languages` array: the language's name, then its counts in that file. */
  function FileLanguageObject(language: Language, c: Counts): J.Object {
    J.Object([J.Scalar(J.name, J.Text(language.name))] + CountsFields(c))
  }

  function FileLanguageObjects(ls: seq<Language>, langCounts: map<Language, Counts>): seq<J.Object>
    requires forall l :: l in ls ==> l in langCounts
  {
    seq(|ls|, i requires 0 <= i < |ls| => FileLanguageObject(ls[i], langCounts[ls[i]]))
  }

  /** The members of a file element before its counts: path name, number of languages, and `unrecognized: true` for an unrecognized file. */
  function FileHead(pathname: JString, numLanguages: nat, unrecog: bool): seq<J.Field> {
    [J.Scalar(J.pathname, J.Text(pathname)), J.Scalar(J.numLanguages, J.Number(numLanguages))]
      + (if unrecog then [J.Scalar(J.unrecognized, J.Flag(true))] else [])
  }

  /** The members of a file element after its counts: for a recognized file, the array of its languages. */
  function FileTail(unrecog: bool, languageArray: seq<J.Object>): seq<J.Field> {
    if unrecog then [] else [J.ArrayField(J.languages, languageArray)]
  }

  /** An element of the `files` array. */
  function FileObject(pathname: JString, numLanguages: nat, unrecog: bool, counts: Counts, languageArray: seq<J.Object>): J.Object {
    J.Object(FileHead(pathname, numLanguages, unrecog) + CountsFields(counts) + FileTail(unrecog, languageArray))
  }

  /** The element of `p`: its counts default to `ZERO` when it has no file-counts entry; its languages are in display-name order. */
  ghost function FileObjectOf(p: Path, pc: PathCounts, pathname: Path -> JString): J.Object
    requires p in pc
  {
    FileObject(pathname(p), |pc[p]|, p in Unrecognized(pc), Get(FileCounts(pc), p),
      FileLanguageObjects(SortedOrder(pc[p].Keys, DisplayName), pc[p]))
  }

  ghost function FileObjects(paths: seq<Path>, pc: PathCounts, pathname: Path -> JString): seq<J.Object>
    requires forall p :: p in paths ==> p in pc
  {
    seq(|paths|, i requires 0 <= i < |paths| => FileObjectOf(paths[i], pc, pathname))
  }

  /** The members of the report before the totals. */
  function HeaderFields(timestamp: JString, projectName: JString, version: JString, numPaths: nat, numUnrecognized: nat, numLanguages: nat): seq<J.Field> {
    [ J.Scalar(J.formatVersion, J.Number(FORMAT_VERSION)),
      J.Scalar(J.date, J.Text(timestamp)),
      J.Scalar(J.projectName, J.Text(projectName)),
      J.Scalar(J.projectVersion, J.Text(version)),
      J.Scalar(J.numFiles, J.Number(numPaths)),
      J.Scalar(J.numUnrecognized, J.Number(numUnrecognized)),
      J.Scalar(J.numLanguages, J.Number(numLanguages)) ]
  }

  /** The `languages` array: the languages found, in display-name order, with their counts. */
  ghost function LanguageArray(pc: PathCounts): J.Field {
    var languageCounts := LanguageCounts(pc);
    J.ArrayField(J.languages, LanguageObjects(SortedOrder(languageCounts.Keys, DisplayName), languageCounts))
  }

  /** The `files` array: every file, in path order. */
  ghost function FileArray(pc: PathCounts, pathname: Path -> JString): J.Field {
    J.ArrayField(J.files, FileObjects(SortedOrder(pc.Keys, PathKey), pc, pathname))
  }

  /** The calls that write the header. */
  lemma HeaderEvents(timestamp: JString, projectName: JString, version: JString, numPaths: nat, numUnrecognized: nat, numLanguages: nat)
    ensures J.FieldsEvents(HeaderFields(timestamp, projectName, version, numPaths, numUnrecognized, numLanguages))
      == [ J.Member(J.formatVersion, J.Number(FORMAT_VERSION)), J.Member(J.date, J.Text(timestamp)),
           J.Member(J.projectName, J.Text(projectName)), J.Member(J.projectVersion, J.Text(version)),
           J.Member(J.numFiles, J.Number(numPaths)), J.Member(J.numUnrecognized, J.Number(numUnrecognized)),
           J.Member(J.numLanguages, J.Number(numLanguages)) ]
  {
    J.ScalarsEvents(HeaderFields(timestamp, projectName, version, numPaths, numUnrecognized, numLanguages));
  }

  /** The two arrays that end the report. */
  ghost function ReportArrays(pc: PathCounts, pathname: Path -> JString): seq<J.Field> {
    [LanguageArray(pc), FileArray(pc, pathname)]
  }

  /** The report of a counts map. */
  ghost function Report(pc: PathCounts, timestamp: JString, projectName: JString, version: JString, pathname: Path -> JString): J.Object {
    J.Object(HeaderFields(timestamp, projectName, version, |pc|, |Unrecognized(pc)|, |Languages(pc)|)
      + CountsFields(TotalCounts(pc)) + ReportArrays(pc, pathname))
  }

  // ---------------------------------------------------------------------------
  // What the tree says

  /** A file's counts: its file-counts entry, or `ZERO`, which is what its languages add up to either way. */
  lemma FileCountsDefault(pc: PathCounts, p: Path)
    requires p in pc
    ensures Get(FileCounts(pc), p) == Sum(pc[p])
    ensures p in Unrecognized(pc) ==> Get(FileCounts(pc), p) == ZERO
  {
  }

  /** The member names of a report made of a header, counts and two arrays. */
  lemma ReportKeys(h: seq<J.Field>, c: Counts, arrays: seq<J.Field>,
                   timestamp: JString, projectName: JString, version: JString, numPaths: nat, numUnrecognized: nat, numLanguages: nat)
    requires h == HeaderFields(timestamp, projectName, version, numPaths, numUnrecognized, numLanguages)
    requires |arrays| == 2 && arrays[0].key == J.languages && arrays[1].key == J.files
    ensures J.KeysOf(h + CountsFields(c) + arrays)
      == [J.formatVersion, J.date, J.projectName, J.projectVersion, J.numFiles, J.numUnrecognized,
          J.numLanguages, J.totalLines, J.codeLines, J.commentLines, J.blankLines, J.languages, J.files]
  {
    CountsKeys(c);
    J.KeysOfAppend(h, CountsFields(c));
    J.KeysOfAppend(h + CountsFields(c), arrays);
    assert J.KeysOf(h) == [J.formatVersion, J.date, J.projectName, J.projectVersion, J.numFiles, J.numUnrecognized, J.numLanguages];
    assert J.KeysOf(arrays) == [J.languages, J.files];
  }

  /** The members of a report made of a header, counts and two arrays, part by part. */
  lemma ReportShape(h: seq<J.Field>, c: Counts, arrays: seq<J.Field>)
    requires |h| == 7 && |arrays| == 2
    ensures var fs := h + CountsFields(c) + arrays;
      && fs[..7] == h
      && ReadCounts(fs[7..11]) == Some(c)
      && fs[11..] == arrays
  {
    var fs := h + CountsFields(c) + arrays;
    assert fs[7..11] == CountsFields(c);
    assert fs[..7] == h;
    assert fs[11..] == arrays;
    CountsRoundTrip(c);
  }

  /**
   * The report's members are named, in order, `formatVersion`, `date`,
   * `projectName`, `projectVersion`, `numFiles`, `numUnrecognized`,
   * `numLanguages`, the four counts, `languages` and `files`.
   */
  lemma ReportMemberNames(pc: PathCounts, timestamp: JString, projectName: JString, version: JString, pathname: Path -> JString)
    ensures J.KeysOf(Report(pc, timestamp, projectName, version, pathname).fields)
      == [J.formatVersion, J.date, J.projectName, J.projectVersion, J.numFiles, J.numUnrecognized,
          J.numLanguages, J.totalLines, J.codeLines, J.commentLines, J.blankLines, J.languages, J.files]
  {
    var h := HeaderFields(timestamp, projectName, version, |pc|, |Unrecognized(pc)|, |Languages(pc)|);
    ReportKeys(h, TotalCounts(pc), ReportArrays(pc, pathname), timestamp, projectName, version, |pc|, |Unrecognized(pc)|, |Languages(pc)|);
  }

  /**
   * The report's members: the header, with format version 1 and the numbers
   * of paths, of unrecognized files and of languages found; then counts
   * that read back as the total counts; then the `languages` array and the
   * `files` array.
   */
  lemma ReportMembers(pc: PathCounts, timestamp: JString, projectName: JString, version: JString, pathname: Path -> JString)
    ensures var fs := Report(pc, timestamp, projectName, version, pathname).fields;
      && fs[..7] == HeaderFields(timestamp, projectName, version, |pc|, |Unrecognized(pc)|, |Languages(pc)|)
      && ReadCounts(fs[7..11]) == Some(TotalCounts(pc))
      && fs[11..] == [LanguageArray(pc), FileArray(pc, pathname)]
  {
    var h := HeaderFields(timestamp, projectName, version, |pc|, |Unrecognized(pc)|, |Languages(pc)|);
    var c := TotalCounts(pc);
    var arrays := ReportArrays(pc, pathname);
    assert Report(pc, timestamp, projectName, version, pathname).fields == h + CountsFields(c) + arrays;
    ReportShape(h, c, arrays);
  }

  /** The members of a language element are named name, display name, description, website, then the counts. */
  lemma LanguageObjectKeys(language: Language, c: Counts)
    ensures J.KeysOf(LanguageObject(language, c).fields) == [J.name, J.displayName, J.description, J.website] + COUNT_KEYS
  {
    var head := LanguageHead(language);
    CountsKeys(c);
    J.KeysOfAppend(head, CountsFields(c));
    assert J.KeysOf(head) == [J.name, J.displayName, J.description, J.website];
  }

  /** A language element: the language's four members, then counts that read back as the counts. */
  lemma LanguageObjectShape(language: Language, c: Counts)
    ensures var fs := LanguageObject(language, c).fields;
      && fs[..4] == LanguageHead(language)
      && ReadCounts(fs[4..]) == Some(c)
  {
    var fs := LanguageObject(language, c).fields;
    CountsRoundTrip(c);
    assert fs[4..] == CountsFields(c);
  }

  /** The head of a language element: its name and display name as strings; its description and website `null` exactly when absent, otherwise the text. */
  lemma LanguageHeadValues(language: Language)
    ensures var h := LanguageHead(language);
      && h[0] == J.Scalar(J.name, J.Text(language.name))
      && h[1] == J.Scalar(J.displayName, J.Text(language.displayName))
      && h[2].key == J.description && h[3].key == J.website
      && (h[2].value == J.Null <==> language.description.None?)
      && (language.description.Some? ==> h[2].value == J.Text(language.description.value))
      && (h[3].value == J.Null <==> language.website.None?)
      && (language.website.Some? ==> h[3].value == J.Text(language.website.value))
  {
  }

  /**
   * A `languages` array: one element per language, in display-name order;
   * each has the language's name, display name, description and website
   * (`null` when absent), then counts that read back as the language's
   * counts.
   */
  lemma LanguageElements(ls: seq<Language>, languageCounts: map<Language, Counts>)
    requires IsSortedEnumeration(ls, languageCounts.Keys, DisplayName)
    ensures var os := LanguageObjects(ls, languageCounts);
      && |os| == |languageCounts|
      && forall i :: 0 <= i < |os| ==>
           && J.KeysOf(os[i].fields) == [J.name, J.displayName, J.description, J.website] + COUNT_KEYS
           && os[i].fields[..4] == LanguageHead(ls[i])
           && os[i].fields[0] == J.Scalar(J.name, J.Text(ls[i].name))
           && os[i].fields[1] == J.Scalar(J.displayName, J.Text(ls[i].displayName))
           && (os[i].fields[2] == J.Scalar(J.description, J.Null) <==> ls[i].description.None?)
           && (ls[i].description.Some? ==> os[i].fields[2] == J.Scalar(J.description, J.Text(ls[i].description.value)))
           && (os[i].fields[3] == J.Scalar(J.website, J.Null) <==> ls[i].website.None?)
           && (ls[i].website.Some? ==> os[i].fields[3] == J.Scalar(J.website, J.Text(ls[i].website.value)))
           && ReadCounts(os[i].fields[4..]) == Some(languageCounts[ls[i]])
  {
    DistinctCardinality(ls, languageCounts.Keys);
    var os := LanguageObjects(ls, languageCounts);
    forall i | 0 <= i < |os|
      ensures J.KeysOf(os[i].fields) == [J.name, J.displayName, J.description, J.website] + COUNT_KEYS
      ensures os[i].fields[..4] == LanguageHead(ls[i])
      ensures os[i].fields[0] == J.Scalar(J.name, J.Text(ls[i].name))
      ensures os[i].fields[1] == J.Scalar(J.displayName, J.Text(ls[i].displayName))
      ensures os[i].fields[2] == J.Scalar(J.description, J.Null) <==> ls[i].description.None?
      ensures ls[i].description.Some? ==> os[i].fields[2] == J.Scalar(J.description, J.Text(ls[i].description.value))
      ensures os[i].fields[3] == J.Scalar(J.website, J.Null) <==> ls[i].website.None?
      ensures ls[i].website.Some? ==> os[i].fields[3] == J.Scalar(J.website, J.Text(ls[i].website.value))
      ensures ReadCounts(os[i].fields[4..]) == Some(languageCounts[ls[i]])
    {
      LanguageObjectKeys(ls[i], languageCounts[ls[i]]);
      LanguageObjectShape(ls[i], languageCounts[ls[i]]);
      LanguageHeadValues(ls[i]);
    }
  }

  /** The members of a file's language element are named name, then the counts. */
  lemma FileLanguageObjectKeys(language: Language, c: Counts)
    ensures J.KeysOf(FileLanguageObject(language, c).fields) == [J.name] + COUNT_KEYS
  {
    var head := [J.Scalar(J.name, J.Text(language.name))];
    CountsKeys(c);
    J.KeysOfAppend(head, CountsFields(c));
    assert J.KeysOf(head) == [J.name];
  }

  /** A file's language element: the language's name, then counts that read back as the counts. */
  lemma FileLanguageObjectShape(language: Language, c: Counts)
    ensures var fs := FileLanguageObject(language, c).fields;
      && fs[0] == J.Scalar(J.name, J.Text(language.name))
      && ReadCounts(fs[1..]) == Some(c)
  {
    var fs := FileLanguageObject(language, c).fields;
    assert fs[1..] == CountsFields(c);
    CountsRoundTrip(c);
  }

  /**
   * A file's `languages` array: one element per language found in the file,
   * in display-name order, each with its name and its counts in the file.
   */
  lemma FileLanguageElements(ls: seq<Language>, langCounts: map<Language, Counts>)
    requires IsSortedEnumeration(ls, langCounts.Keys, DisplayName)
    ensures var os := FileLanguageObjects(ls, langCounts);
      && |os| == |langCounts|
      && forall i :: 0 <= i < |os| ==>
           && J.KeysOf(os[i].fields) == [J.name] + COUNT_KEYS
           && os[i].fields[0] == J.Scalar(J.name, J.Text(ls[i].name))
           && ReadCounts(os[i].fields[1..]) == Some(langCounts[ls[i]])
  {
    DistinctCardinality(ls, langCounts.Keys);
    var os := FileLanguageObjects(ls, langCounts);
    forall i | 0 <= i < |os|
      ensures J.KeysOf(os[i].fields) == [J.name] + COUNT_KEYS
      ensures os[i].fields[0] == J.Scalar(J.name, J.Text(ls[i].name))
      ensures ReadCounts(os[i].fields[1..]) == Some(langCounts[ls[i]])
    {
      FileLanguageObjectKeys(ls[i], langCounts[ls[i]]);
      FileLanguageObjectShape(ls[i], langCounts[ls[i]]);
    }
  }

  /** The members of an unrecognized file's element are named path name, number of languages, the flag, then the counts. */
  lemma UnrecognizedFileKeys(pathname: JString, numLanguages: nat, c: Counts, languageArray: seq<J.Object>)
    ensures J.KeysOf(FileObject(pathname, numLanguages, true, c, languageArray).fields)
      == [J.pathname, J.numLanguages, J.unrecognized] + COUNT_KEYS
  {
    var head := FileHead(pathname, numLanguages, true);
    var counts := CountsFields(c);
    assert FileObject(pathname, numLanguages, true, c, languageArray).fields == head + counts;
    CountsKeys(c);
    J.KeysOfAppend(head, counts);
    assert J.KeysOf(head) == [J.pathname, J.numLanguages, J.unrecognized];
  }

  /** An unrecognized file's element: its head, then counts that read back as the counts. */
  lemma UnrecognizedFileShape(pathname: JString, numLanguages: nat, c: Counts, languageArray: seq<J.Object>)
    ensures var fs := FileObject(pathname, numLanguages, true, c, languageArray).fields;
      && fs[..3] == FileHead(pathname, numLanguages, true)
      && ReadCounts(fs[3..7]) == Some(c)
  {
    var head := FileHead(pathname, numLanguages, true);
    var counts := CountsFields(c);
    var fs := FileObject(pathname, numLanguages, true, c, languageArray).fields;
    assert fs == head + counts;
    CountsRoundTrip(c);
    assert fs[..3] == head;
    assert fs[3..7] == counts;
  }

  /** The members of a recognized file's element are named path name, number of languages, the counts, then `languages`. */
  lemma RecognizedFileKeys(pathname: JString, numLanguages: nat, c: Counts, languageArray: seq<J.Object>)
    ensures J.KeysOf(FileObject(pathname, numLanguages, false, c, languageArray).fields)
      == [J.pathname, J.numLanguages] + COUNT_KEYS + [J.languages]
  {
    var head := FileHead(pathname, numLanguages, false);
    var counts := CountsFields(c);
    var tail := [J.ArrayField(J.languages, languageArray)];
    assert FileObject(pathname, numLanguages, false, c, languageArray).fields == head + counts + tail;
    CountsKeys(c);
    J.KeysOfAppend(head, counts);
    J.KeysOfAppend(head + counts, tail);
    assert J.KeysOf(head) == [J.pathname, J.numLanguages];
    assert J.KeysOf(tail) == [J.languages];
  }

  /** A recognized file's element: its head, counts that read back as the counts, then the languages array. */
  lemma RecognizedFileShape(pathname: JString, numLanguages: nat, c: Counts, languageArray: seq<J.Object>)
    ensures var fs := FileObject(pathname, numLanguages, false, c, languageArray).fields;
      && fs[..2] == FileHead(pathname, numLanguages, false)
      && ReadCounts(fs[2..6]) == Some(c)
      && fs[6] == J.ArrayField(J.languages, languageArray)
  {
    var head := FileHead(pathname, numLanguages, false);
    var counts := CountsFields(c);
    var fs := FileObject(pathname, numLanguages, false, c, languageArray).fields;
    assert fs == head + counts + [J.ArrayField(J.languages, languageArray)];
    CountsRoundTrip(c);
    assert fs[..2] == head;
    assert fs[2..6] == counts;
  }

  /**
   * A file element: `unrecognized` is among its members exactly when the
   * file is unrecognized, and its `languages` array exactly when it is not;
   * it starts with the path name and the number of languages in the file;
   * its counts read back as the sum of the file's language counts (`ZERO`
   * for an unrecognized file); a recognized file's languages array lists its
   * languages in display-name order with their counts in the file.
   */
  lemma FileElement(p: Path, pc: PathCounts, pathname: Path -> JString)
    requires p in pc
    ensures var fs := FileObjectOf(p, pc, pathname).fields;
      var u := p in Unrecognized(pc);
      && (u <==> pc[p] == map[])
      && (J.unrecognized in J.KeysOf(fs) <==> u)
      && (J.languages in J.KeysOf(fs) <==> !u)
      && fs[..2] == [J.Scalar(J.pathname, J.Text(pathname(p))), J.Scalar(J.numLanguages, J.Number(|pc[p]|))]
      && (u ==> ReadCounts(fs[3..7]) == Some(Sum(pc[p])))
      && (!u ==> ReadCounts(fs[2..6]) == Some(Sum(pc[p])))
      && (!u ==> fs[6] == J.ArrayField(J.languages, FileLanguageObjects(SortedOrder(pc[p].Keys, DisplayName), pc[p])))
  {
    var u := p in Unrecognized(pc);
    FileCountsDefault(pc, p);
    var arr := FileLanguageObjects(SortedOrder(pc[p].Keys, DisplayName), pc[p]);
    var c := Get(FileCounts(pc), p);
    FileElementOf(p, pc, pathname, u, c, arr);
    FileShape(pathname(p), |pc[p]|, u, c, arr);
  }

  /** Which of `unrecognized` and `languages` the two member lists of a file element hold. */
  lemma FileKeys(ks: seq<J.Key>, u: bool)
    requires ks == if u then [J.pathname, J.numLanguages, J.unrecognized] + COUNT_KEYS
                   else [J.pathname, J.numLanguages] + COUNT_KEYS + [J.languages]
    ensures J.unrecognized in ks <==> u
    ensures J.languages in ks <==> !u
  {
    if u {
      assert ks == [J.pathname, J.numLanguages, J.unrecognized, J.totalLines, J.codeLines, J.commentLines, J.blankLines];
    } else {
      assert ks == [J.pathname, J.numLanguages, J.totalLines, J.codeLines, J.commentLines, J.blankLines, J.languages];
    }
  }

  /** The members of a file element, whichever kind of file it is. */
  lemma FileShape(pathname: JString, numLanguages: nat, u: bool, c: Counts, languageArray: seq<J.Object>)
    ensures var fs := FileObject(pathname, numLanguages, u, c, languageArray).fields;
      && (J.unrecognized in J.KeysOf(fs) <==> u)
      && (J.languages in J.KeysOf(fs) <==> !u)
      && fs[..2] == [J.Scalar(J.pathname, J.Text(pathname)), J.Scalar(J.numLanguages, J.Number(numLanguages))]
      && (u ==> ReadCounts(fs[3..7]) == Some(c))
      && (!u ==> ReadCounts(fs[2..6]) == Some(c))
      && (!u ==> fs[6] == J.ArrayField(J.languages, languageArray))
  {
    var fs := FileObject(pathname, numLanguages, u, c, languageArray).fields;
    if u {
      UnrecognizedFileKeys(pathname, numLanguages, c, languageArray);
      UnrecognizedFileShape(pathname, numLanguages, c, languageArray);
      FileKeys([J.pathname, J.numLanguages, J.unrecognized] + COUNT_KEYS, true);
    } else {
      RecognizedFileKeys(pathname, numLanguages, c, languageArray);
      RecognizedFileShape(pathname, numLanguages, c, languageArray);
      FileKeys([J.pathname, J.numLanguages] + COUNT_KEYS + [J.languages], false);
    }
  }

  lemma FileElementOf(p: Path, pc: PathCounts, pathname: Path -> JString, u: bool, c: Counts, arr: seq<J.Object>)
    requires p in pc
    requires u == (p in Unrecognized(pc)) && c == Get(FileCounts(pc), p)
    requires arr == FileLanguageObjects(SortedOrder(pc[p].Keys, DisplayName), pc[p])
    ensures FileObjectOf(p, pc, pathname) == FileObject(pathname(p), |pc[p]|, u, c, arr)
  {
  }

  // ---------------------------------------------------------------------------
  // Writing the report

  /** `writeCounts`. */
  method WriteCounts(c: Counts) returns (ev: seq<J.Event>)
    ensures ev == J.FieldsEvents(CountsFields(c))
  {
    ev := [ J.Member(J.totalLines, J.Number(c.Total())), J.Member(J.codeLines, J.Number(c.code)),
            J.Member(J.commentLines, J.Number(c.comment)), J.Member(J.blankLines, J.Number(c.blank)) ];
    J.ScalarsEvents(CountsFields(c));
  }

  /** The body of the loop of `writeLanguages`. */
  method WriteLanguage(language: Language, c: Counts) returns (ev: seq<J.Event>)
    ensures ev == J.ObjectEvents(LanguageObject(language, c))
  {
    var counts := WriteCounts(c);
    var head := [ J.Member(J.name, J.Text(language.name)), J.Member(J.displayName, J.Text(language.displayName)),
                  J.Member(J.description, J.OptionalText(language.description)), J.Member(J.website, J.OptionalText(language.website)) ];
    J.ScalarsEvents(LanguageHead(language));
    J.ObjectOfParts(LanguageHead(language), CountsFields(c), []);
    assert LanguageHead(language) + CountsFields(c) + [] == LanguageHead(language) + CountsFields(c);
    ev := [J.StartObject] + head + counts + [J.EndObject];
  }

  /** The loop of `writeLanguages`. */
  method WriteLanguageArray(ls: seq<Language>, languageCounts: map<Language, Counts>) returns (ev: seq<J.Event>)
    requires forall l :: l in ls ==> l in languageCounts
    ensures ev == J.FieldEvents(J.ArrayField(J.languages, LanguageObjects(ls, languageCounts)))
  {
    var body: seq<J.Event> := [];
    ghost var elements: seq<J.Object> := [];
    for i := 0 to |ls|
      invariant |elements| == i
      invariant forall j :: 0 <= j < i ==> elements[j] == LanguageObject(ls[j], languageCounts[ls[j]])
      invariant body == J.ObjectsEvents(elements)
    {
      var element := WriteLanguage(ls[i], languageCounts[ls[i]]);
      J.ObjectsEventsSnoc(elements, LanguageObject(ls[i], languageCounts[ls[i]]));
      body := body + element;
      elements := elements + [LanguageObject(ls[i], languageCounts[ls[i]])];
    }
    assert elements == LanguageObjects(ls, languageCounts);
    J.ArrayEvents(J.languages, elements, body);
    ev := [J.MemberStartArray(J.languages)] + body + [J.EndArray];
  }

  /** The body of the inner loop of `writeFiles`. */
  method WriteFileLanguage(language: Language, c: Counts) returns (ev: seq<J.Event>)
    ensures ev == J.ObjectEvents(FileLanguageObject(language, c))
  {
    var counts := WriteCounts(c);
    J.ObjectOfParts([J.Scalar(J.name, J.Text(language.name))], CountsFields(c), []);
    assert [J.Scalar(J.name, J.Text(language.name))] + CountsFields(c) + [] == [J.Scalar(J.name, J.Text(language.name))] + CountsFields(c);
    J.FieldsEventsOne(J.Scalar(J.name, J.Text(language.name)));
    ev := [J.StartObject, J.Member(J.name, J.Text(language.name))] + counts + [J.EndObject];
  }

  /** The inner loop of `writeFiles`: a file's languages with their counts in the file. */
  method WriteFileLanguageArray(ls: seq<Language>, langCounts: map<Language, Counts>) returns (ev: seq<J.Event>)
    requires forall l :: l in ls ==> l in langCounts
    ensures ev == J.FieldEvents(J.ArrayField(J.languages, FileLanguageObjects(ls, langCounts)))
  {
    var body: seq<J.Event> := [];
    ghost var elements: seq<J.Object> := [];
    for i := 0 to |ls|
      invariant |elements| == i
      invariant forall j :: 0 <= j < i ==> elements[j] == FileLanguageObject(ls[j], langCounts[ls[j]])
      invariant body == J.ObjectsEvents(elements)
    {
      var element := WriteFileLanguage(ls[i], langCounts[ls[i]]);
      J.ObjectsEventsSnoc(elements, FileLanguageObject(ls[i], langCounts[ls[i]]));
      body := body + element;
      elements := elements + [FileLanguageObject(ls[i], langCounts[ls[i]])];
    }
    assert elements == FileLanguageObjects(ls, langCounts);
    J.ArrayEvents(J.languages, elements, body);
    ev := [J.MemberStartArray(J.languages)] + body + [J.EndArray];
  }

  /** The calls that write the members of a file element before its counts. */
  lemma FileHeadEvents(pathname: JString, numLanguages: nat, u: bool)
    ensures J.FieldsEvents(FileHead(pathname, numLanguages, u))
      == [J.Member(J.pathname, J.Text(pathname)), J.Member(J.numLanguages, J.Number(numLanguages))]
         + (if u then [J.Member(J.unrecognized, J.Flag(true))] else [])
  {
    J.ScalarsEvents(FileHead(pathname, numLanguages, u));
  }

  /** The calls that write the members of a file element after its counts. */
  lemma FileTailEvents(u: bool, languageArray: seq<J.Object>)
    ensures J.FieldsEvents(FileTail(u, languageArray)) == if u then [] else J.FieldEvents(J.ArrayField(J.languages, languageArray))
  {
    if !u {
      J.FieldsEventsOne(J.ArrayField(J.languages, languageArray));
    }
  }

  /** The calls that write a file element, part by part. */
  lemma FileObjectEvents(pathname: JString, numLanguages: nat, u: bool, c: Counts, languageArray: seq<J.Object>)
    ensures J.ObjectEvents(FileObject(pathname, numLanguages, u, c, languageArray))
      == [J.StartObject] + J.FieldsEvents(FileHead(pathname, numLanguages, u)) + J.FieldsEvents(CountsFields(c))
         + J.FieldsEvents(FileTail(u, languageArray)) + [J.EndObject]
  {
    J.ObjectOfParts(FileHead(pathname, numLanguages, u), CountsFields(c), FileTail(u, languageArray));
  }

  /** A file element: the head members, the counts, and for a recognized file the sorted languages array. */
  method WriteFileObject(pathname: JString, langCounts: map<Language, Counts>, unrecog: bool, c: Counts) returns (ev: seq<J.Event>)
    requires InjectiveOn(langCounts.Keys, DisplayName)
    ensures ev == J.ObjectEvents(FileObject(pathname, |langCounts|, unrecog, c,
      FileLanguageObjects(SortedOrder(langCounts.Keys, DisplayName), langCounts)))
  {
    ghost var arr := FileLanguageObjects(SortedOrder(langCounts.Keys, DisplayName), langCounts);
    var head := [J.Member(J.pathname, J.Text(pathname)), J.Member(J.numLanguages, J.Number(|langCounts|))];
    if unrecog {
      head := head + [J.Member(J.unrecognized, J.Flag(true))];
    }
    FileHeadEvents(pathname, |langCounts|, unrecog);
    var counts := WriteCounts(c);
    var tail: seq<J.Event> := [];
    if !unrecog {
      var ls := Sort(langCounts.Keys, DisplayName);
      tail := WriteFileLanguageArray(ls, langCounts);
    }
    FileTailEvents(unrecog, arr);
    FileObjectEvents(pathname, |langCounts|, unrecog, c, arr);
    ev := [J.StartObject] + head + counts + tail + [J.EndObject];
  }

  /** The body of the loop of `writeFiles`: the file's entry in the unrecognized set and its counts, `ZERO` by default. */
  method WriteFile(p: Path, pc: PathCounts, fileCounts: map<Path, Counts>, unrecognizedPaths: set<Path>, pathname: Path -> JString)
    returns (ev: seq<J.Event>)
    requires p in pc
    requires fileCounts == FileCounts(pc) && unrecognizedPaths == Unrecognized(pc)
    requires InjectiveOn(pc[p].Keys, DisplayName)
    ensures ev == J.ObjectEvents(FileObjectOf(p, pc, pathname))
  {
    var unrecog := p in unrecognizedPaths;
    var c := if p in fileCounts then fileCounts[p] else ZERO;
    ev := WriteFileObject(pathname(p), pc[p], unrecog, c);
  }

  /** `writeFiles`. */
  method WriteFiles(cache: CountsCache, pathname: Path -> JString) returns (ev: seq<J.Event>)
    requires cache.Valid()
    requires InjectiveOn(Languages(cache.pathCounts), DisplayName)
    modifies cache
    ensures cache.Valid()
    ensures ev == J.FieldEvents(FileArray(cache.pathCounts, pathname))
  {
    var fileCounts := cache.GetFileCounts();
    var unrecognizedPaths := cache.GetUnrecognized();
    var pc := cache.GetPathCounts();
    var paths := Sort(pc.Keys, PathKey);
    PathKeyInjective(pc.Keys);
    var body := WriteFileElements(paths, pc, fileCounts, unrecognizedPaths, pathname);
    J.ArrayEvents(J.files, FileObjects(paths, pc, pathname), body);
    ev := [J.MemberStartArray(J.files)] + body + [J.EndArray];
  }

  /** The loop of `writeFiles`. */
  method WriteFileElements(paths: seq<Path>, pc: PathCounts, fileCounts: map<Path, Counts>, unrecognizedPaths: set<Path>, pathname: Path -> JString)
    returns (body: seq<J.Event>)
    requires forall p :: p in paths ==> p in pc
    requires fileCounts == FileCounts(pc) && unrecognizedPaths == Unrecognized(pc)
    requires InjectiveOn(Languages(pc), DisplayName)
    ensures body == J.ObjectsEvents(FileObjects(paths, pc, pathname))
  {
    body := [];
    ghost var all := FileObjects(paths, pc, pathname);
    for i := 0 to |paths|
      invariant body == J.ObjectsEvents(all[..i])
    {
      FileLanguagesInjective(pc, paths[i]);
      var element := WriteFile(paths[i], pc, fileCounts, unrecognizedPaths, pathname);
      assert all[i] == FileObjectOf(paths[i], pc, pathname);
      J.ObjectsEventsPrefix(all, i);
      body := body + element;
    }
    assert all[..|paths|] == all;
  }

  /** `writeLanguages`. */
  method WriteLanguages(cache: CountsCache) returns (ev: seq<J.Event>)
    requires cache.Valid()
    requires InjectiveOn(Languages(cache.pathCounts), DisplayName)
    modifies cache
    ensures cache.Valid()
    ensures ev == J.FieldEvents(LanguageArray(cache.pathCounts))
  {
    var languageCounts := cache.GetLanguageCounts();
    var ls := Sort(languageCounts.Keys, DisplayName);
    ev := WriteLanguageArray(ls, languageCounts);
  }

  /** The calls that write the report, part by part. */
  lemma ReportEvents(pc: PathCounts, timestamp: JString, projectName: JString, version: JString, pathname: Path -> JString)
    ensures J.ObjectEvents(Report(pc, timestamp, projectName, version, pathname))
      == [J.StartObject] + J.FieldsEvents(HeaderFields(timestamp, projectName, version, |pc|, |Unrecognized(pc)|, |Languages(pc)|))
         + J.FieldsEvents(CountsFields(TotalCounts(pc)))
         + (J.FieldEvents(LanguageArray(pc)) + J.FieldEvents(FileArray(pc, pathname))) + [J.EndObject]
  {
    J.FieldsEventsTwo(LanguageArray(pc), FileArray(pc, pathname));
    J.ObjectOfParts(HeaderFields(timestamp, projectName, version, |pc|, |Unrecognized(pc)|, |Languages(pc)|),
      CountsFields(TotalCounts(pc)), ReportArrays(pc, pathname));
  }

  /**
   * `JsonReport.generateReport`: the calls that write the report, which
   * form one well-nested document that reads back as `Report`. The date,
   * project name and version and `preparePathname` are parameters.
   */
  method GenerateReport(cache: CountsCache, timestamp: JString, projectName: JString, version: JString, pathname: Path -> JString)
    returns (ev: seq<J.Event>)
    requires cache.Valid()
    requires InjectiveOn(Languages(cache.pathCounts), DisplayName)
    modifies cache
    ensures cache.Valid()
    ensures ev == J.ObjectEvents(Report(cache.pathCounts, timestamp, projectName, version, pathname))
    ensures J.ParseDocument(ev) == Some(Report(cache.pathCounts, timestamp, projectName, version, pathname))
  {
    var totalCounts := cache.GetTotalCounts();
    var allLanguages := cache.GetLanguages();
    var pc := cache.GetPathCounts();
    var unrecognizedPaths := cache.GetUnrecognized();
    var header := [ J.Member(J.formatVersion, J.Number(FORMAT_VERSION)), J.Member(J.date, J.Text(timestamp)),
                    J.Member(J.projectName, J.Text(projectName)), J.Member(J.projectVersion, J.Text(version)),
                    J.Member(J.numFiles, J.Number(|pc|)), J.Member(J.numUnrecognized, J.Number(|unrecognizedPaths|)),
                    J.Member(J.numLanguages, J.Number(|allLanguages|)) ];
    HeaderEvents(timestamp, projectName, version, |pc|, |unrecognizedPaths|, |allLanguages|);
    var counts := WriteCounts(totalCounts);
    var languageArray := WriteLanguages(cache);
    var fileArray := WriteFiles(cache, pathname);
    ReportEvents(pc, timestamp, projectName, version, pathname);
    ev := [J.StartObject] + header + counts + (languageArray + fileArray) + [J.EndObject];
    J.DocumentRoundTrip(Report(pc, timestamp, projectName, version, pathname));
  }
}

=== FILE: json_events.dfy ===
/**
 * What the JSON report asks of its `JsonWriter`: a stream of start, member
 * and end calls. The stream stands for a tree of objects whose members are
 * scalars or arrays of objects; the writer's text, indentation and string
 * escaping are not part of this model.
 */
module JsonEvents {
  import opened Wrappers
  import opened JavaStrings

  /** The member names the report writes, one constructor per name, spelled as written. */
  datatype Key =
    | formatVersion | date | projectName | projectVersion
    | numFiles | numUnrecognized | numLanguages
    | totalLines | codeLines | commentLines | blankLines
    | languages | files
    | name | displayName | description | website
    | pathname | unrecognized

  /** A scalar member value: a number, a string, a boolean or `null` (a `null` string). */
  datatype Value = Number(n: int) | Text(s: JString) | Flag(b: bool) | Null

  /** `null` for an absent string, the string otherwise. */
  function OptionalText(s: Option<JString>): (v: Value)
    ensures v.Null? <==> s.None?
    ensures s.Some? ==> v == Text(s.value)
  {
    match s
    case None => Null
    case Some(t) => Text(t)
  }

  /** One `JsonWriter` call. */
  datatype Event =
    | StartObject
    | EndObject
    | Member(key: Key, value: Value)
    | MemberStartArray(key: Key)
    | EndArray

  /** An object: its members in the order they are written. */
  datatype Object = Object(fields: seq<Field>)

  /** A member: a scalar, or an array of objects. */
  datatype Field = Scalar(key: Key, value: Value) | ArrayField(key: Key, elements: seq<Object>)

  /** The member names of a member list, in order. */
  function KeysOf(fs: seq<Field>): (ks: seq<Key>)
    ensures |ks| == |fs|
    ensures forall i :: 0 <= i < |fs| ==> ks[i] == fs[i].key
  {
    seq(|fs|, i requires 0 <= i < |fs| => fs[i].key)
  }

  /** The names of two member lists, one after the other. */
  lemma KeysOfAppend(a: seq<Field>, b: seq<Field>)
    ensures KeysOf(a + b) == KeysOf(a) + KeysOf(b)
  {
  }

  // ---------------------------------------------------------------------------
  // From tree to events

  /** The calls that write an object: `startObject`, its members, `endObject`. */
  function ObjectEvents(o: Object): seq<Event>
    decreases o, 2
  {
    [StartObject] + FieldsEvents(o.fields) + [EndObject]
  }

  /** The calls that write a member list. */
  function FieldsEvents(fs: seq<Field>): seq<Event>
    decreases fs, 1
  {
    if fs == [] then [] else FieldEvents(fs[0]) + FieldsEvents(fs[1..])
  }

  /** `member(key, value)`, or `memberStartArray(key)`, the elements and `endArray`. */
  function FieldEvents(f: Field): seq<Event>
    decreases f, 0
  {
    match f
    case Scalar(k, v) => [Member(k, v)]
    case ArrayField(k, es) => [MemberStartArray(k)] + ObjectsEvents(es) + [EndArray]
  }

  /** The calls that write the objects of an array, one after another. */
  function ObjectsEvents(os: seq<Object>): seq<Event>
    decreases os, 3
  {
    if os == [] then [] else ObjectsEvents(os[..|os| - 1]) + ObjectEvents(os[|os| - 1])
  }

  // ---------------------------------------------------------------------------
  // From events back to the tree

  /** An object at the front of `ev`, and what follows it. */
  function ParseObject(ev: seq<Event>): (r: Option<(Object, seq<Event>)>)
    ensures r.Some? ==> |r.value.1| < |ev|
    decreases |ev|, 1
  {
    if ev != [] && ev[0] == StartObject then
      var fs :- ParseFields(ev[1..]);
      Some((Object(fs.0), fs.1))
    else None
  }

  /** Members up to and including the `endObject` that closes them, and what follows. */
  function ParseFields(ev: seq<Event>): (r: Option<(seq<Field>, seq<Event>)>)
    ensures r.Some? ==> |r.value.1| < |ev|
    decreases |ev|, 0
  {
    if ev == [] then None
    else
      match ev[0]
      case EndObject => Some(([], ev[1..]))
      case Member(k, v) =>
        var fs :- ParseFields(ev[1..]);
        Some(([Scalar(k, v)] + fs.0, fs.1))
      case MemberStartArray(k) =>
        var os :- ParseObjects(ev[1..]);
        var fs :- ParseFields(os.1);
        Some(([ArrayField(k, os.0)] + fs.0, fs.1))
      case _ => None
  }

  /** Objects up to and including the `endArray` that closes them, and what follows. */
  function ParseObjects(ev: seq<Event>): (r: Option<(seq<Object>, seq<Event>)>)
    ensures r.Some? ==> |r.value.1| < |ev|
    decreases |ev|, 2
  {
    if ev == [] then None
    else if ev[0] == EndArray then Some(([], ev[1..]))
    else
      var o :- ParseObject(ev);
      var os :- ParseObjects(o.1);
      Some(([o.0] + os.0, os.1))
  }

  /** A whole document: one object and nothing after it. */
  function ParseDocument(ev: seq<Event>): Option<Object> {
    var o :- ParseObject(ev);
    if o.1 == [] then Some(o.0) else None
  }

  // ---------------------------------------------------------------------------
  // The round trip

  lemma {:induction false} FieldsEventsAppend(a: seq<Field>, b: seq<Field>)
    ensures FieldsEvents(a + b) == FieldsEvents(a) + FieldsEvents(b)
    decreases |a|
  {
    if a != [] {
      assert (a + b)[0] == a[0];
      assert (a + b)[1..] == a[1..] + b;
      FieldsEventsAppend(a[1..], b);
    } else {
      assert a + b == b;
    }
  }

  lemma {:induction false} ObjectsEventsCons(o: Object, os: seq<Object>)
    ensures ObjectsEvents([o] + os) == ObjectEvents(o) + ObjectsEvents(os)
    decreases |os|
  {
    if os != [] {
      var front := os[..|os| - 1];
      assert ([o] + os)[..|os|] == [o] + front;
      assert ([o] + os)[|os|] == os[|os| - 1];
      ObjectsEventsCons(o, front);
    } else {
      assert ([o] + os)[..0] == [];
    }
  }

  lemma ObjectsEventsSnoc(os: seq<Object>, o: Object)
    ensures ObjectsEvents(os + [o]) == ObjectsEvents(os) + ObjectEvents(o)
  {
    assert (os + [o])[..|os|] == os;
  }

  /** The objects of a prefix one longer are written by one more object's calls. */
  lemma ObjectsEventsPrefix(os: seq<Object>, i: nat)
    requires i < |os|
    ensures ObjectsEvents(os[..i + 1]) == ObjectsEvents(os[..i]) + ObjectEvents(os[i])
  {
    assert os[..i + 1] == os[..i] + [os[i]];
    ObjectsEventsSnoc(os[..i], os[i]);
  }

  /** An object whose members come in three parts is written part after part. */
  lemma ObjectOfParts(a: seq<Field>, b: seq<Field>, c: seq<Field>)
    ensures ObjectEvents(Object(a + b + c)) == [StartObject] + FieldsEvents(a) + FieldsEvents(b) + FieldsEvents(c) + [EndObject]
  {
    FieldsEventsAppend(a, b);
    FieldsEventsAppend(a + b, c);
  }

  /** Scalar members are written one `member` call each. */
  lemma {:induction false} ScalarsEvents(fs: seq<Field>)
    requires forall i :: 0 <= i < |fs| ==> fs[i].Scalar?
    ensures FieldsEvents(fs) == seq(|fs|, i requires 0 <= i < |fs| => Member(fs[i].key, fs[i].value))
    decreases |fs|
  {
    if fs != [] {
      ScalarsEvents(fs[1..]);
    }
  }

  /** A single member is written by its own calls. */
  lemma FieldsEventsOne(f: Field)
    ensures FieldsEvents([f]) == FieldEvents(f)
  {
    assert [f][1..] == [];
  }

  /** Two members are written one after the other. */
  lemma FieldsEventsTwo(f: Field, g: Field)
    ensures FieldsEvents([f, g]) == FieldEvents(f) + FieldEvents(g)
  {
    assert [f, g][1..] == [g];
    FieldsEventsOne(g);
  }

  /** `memberStartArray`, one object per element, `endArray`. */
  lemma ArrayEvents(k: Key, os: seq<Object>, body: seq<Event>)
    requires body == ObjectsEvents(os)
    ensures [MemberStartArray(k)] + body + [EndArray] == FieldEvents(ArrayField(k, os))
  {
  }

  /** The events of an object read back as that object, whatever follows. */
  lemma {:induction false} ParseObjectOf(o: Object, rest: seq<Event>)
    ensures ParseObject(ObjectEvents(o) + rest) == Some((o, rest))
    decreases o, 2
  {
    var ev := ObjectEvents(o) + rest;
    assert ev[1..] == FieldsEvents(o.fields) + ([EndObject] + rest);
    ParseFieldsOf(o.fields, rest);
  }

  /** The events of a member list, then `endObject`, read back as the list. */
  lemma {:induction false} ParseFieldsOf(fs: seq<Field>, rest: seq<Event>)
    ensures ParseFields(FieldsEvents(fs) + ([EndObject] + rest)) == Some((fs, rest))
    decreases fs, 1
  {
    var ev := FieldsEvents(fs) + ([EndObject] + rest);
    if fs == [] {
      assert ev == [EndObject] + rest;
    } else {
      var tail := FieldsEvents(fs[1..]) + ([EndObject] + rest);
      assert ev == FieldEvents(fs[0]) + tail;
      ParseFieldsOf(fs[1..], rest);
      ParseFieldOf(fs[0], fs[1..], tail, rest);
      assert [fs[0]] + fs[1..] == fs;
    }
  }

  /** One member's events in front of the events of further members read back as that member first. */
  lemma {:induction false} ParseFieldOf(f: Field, fs: seq<Field>, tail: seq<Event>, rest: seq<Event>)
    requires ParseFields(tail) == Some((fs, rest))
    ensures ParseFields(FieldEvents(f) + tail) == Some(([f] + fs, rest))
    decreases f, 0
  {
    var ev := FieldEvents(f) + tail;
    match f
    case Scalar(k, v) =>
      assert ev == [Member(k, v)] + tail;
      assert ev[1..] == tail;
    case ArrayField(k, es) =>
      assert ev == [MemberStartArray(k)] + (ObjectsEvents(es) + ([EndArray] + tail));
      assert ev[1..] == ObjectsEvents(es) + ([EndArray] + tail);
      ParseObjectsOf(es, tail);
  }

  /** The events of an array's objects, then `endArray`, read back as the objects. */
  lemma {:induction false} ParseObjectsOf(os: seq<Object>, rest: seq<Event>)
    ensures ParseObjects(ObjectsEvents(os) + ([EndArray] + rest)) == Some((os, rest))
    decreases os, 3
  {
    var ev := ObjectsEvents(os) + ([EndArray] + rest);
    if os == [] {
      assert ev == [EndArray] + rest;
    } else {
      ObjectsEventsCons(os[0], os[1..]);
      assert [os[0]] + os[1..] == os;
      var tail := ObjectsEvents(os[1..]) + ([EndArray] + rest);
      assert ev == ObjectEvents(os[0]) + tail;
      assert ev[0] == StartObject;
      ParseObjectOf(os[0], tail);
      ParseObjectsOf(os[1..], rest);
    }
  }

  /**
   * The calls that write an object form one well-nested document, and it
   * reads back as the object: every start is closed, in order, and nothing
   * is lost.
   */
  lemma DocumentRoundTrip(o: Object)
    ensures ParseDocument(ObjectEvents(o)) == Some(o)
  {
    ParseObjectOf(o, []);
    assert ObjectEvents(o) + [] == ObjectEvents(o);
  }
}

=== FILE: jstring.dfy ===
/**
 * Java strings as the reports see them: sequences of UTF-16 code units, walked
 * code point by code point, plus the number formatting the reports use
 * (`Integer.toString`, `%d`, `%X`, `Integer.toHexString`) and the code-unit
 * order of `String.compareTo`.
 */
module JavaStrings {
  import opened Wrappers

  /** A UTF-16 code unit (a Java `char`). */
  type CodeUnit = u: int | 0 <= u < 0x1_0000

  /** A Java `String`. */
  type JString = seq<CodeUnit>

  /** An ASCII literal as a Java string (every literal of the model is ASCII). */
  function Lit(s: string): (r: JString)
    ensures |r| == |s|
  {
    seq(|s|, i requires 0 <= i < |s| => if s[i] as int < 0x1_0000 then s[i] as int else 0xFFFD)
  }

  /** A string made of `n` copies of one unit (`String.repeat`). */
  function Repeat(u: CodeUnit, n: nat): (r: JString)
    ensures |r| == n
    ensures forall k :: 0 <= k < n ==> r[k] == u
  {
    seq(n, k => u)
  }

  predicate IsHighSurrogate(u: int) { 0xD800 <= u <= 0xDBFF }
  predicate IsLowSurrogate(u: int) { 0xDC00 <= u <= 0xDFFF }

  /** `Character.charCount`: how many code units a code point occupies. */
  function CharCount(cp: int): nat {
    if cp >= 0x1_0000 then 2 else 1
  }

  /**
   * `String.codePointAt`: a high surrogate followed by a low surrogate is one
   * supplementary code point; any other unit, a lone surrogate included, is
   * its own code point.
   */
  function CodePointAt(s: JString, i: nat): (cp: int)
    requires i < |s|
    ensures 0 <= cp <= 0x10FFFF
    ensures i + CharCount(cp) <= |s|
    ensures cp >= 0x1_0000 <==> i + 1 < |s| && IsHighSurrogate(s[i]) && IsLowSurrogate(s[i + 1])
    ensures cp < 0x1_0000 ==> cp == s[i]
  {
    if i + 1 < |s| && IsHighSurrogate(s[i]) && IsLowSurrogate(s[i + 1]) then
      var high: int, low: int := s[i], s[i + 1];
      0x1_0000 + (high - 0xD800) * 0x400 + (low - 0xDC00)
    else
      s[i]
  }

  /** The code points of a string, in order, as the source's `codePointAt` loops visit them. */
  function CodePoints(s: JString): (cps: seq<int>)
    ensures |cps| <= |s|
    ensures forall k :: 0 <= k < |cps| ==> 0 <= cps[k] <= 0x10FFFF
    decreases |s|
  {
    if s == [] then []
    else
      var cp := CodePointAt(s, 0);
      [cp] + CodePoints(s[CharCount(cp)..])
  }

  lemma CodePointAtSuffix(s: JString, i: nat)
    requires i < |s|
    ensures CodePointAt(s[i..], 0) == CodePointAt(s, i)
  {
    assert s[i..][0] == s[i];
    if i + 1 < |s| {
      assert s[i..][1] == s[i + 1];
    }
  }

  /** One step of a code-point loop: the code points from index `i` start with the one at `i`. */
  lemma CodePointsStep(s: JString, i: nat)
    requires i < |s|
    ensures i + CharCount(CodePointAt(s, i)) <= |s|
    ensures CodePoints(s[i..]) == [CodePointAt(s, i)] + CodePoints(s[i + CharCount(CodePointAt(s, i))..])
  {
    CodePointAtSuffix(s, i);
    var n := CharCount(CodePointAt(s, i));
    assert s[i..][n..] == s[i + n..];
  }

  /** A string with no surrogate unit is its own code-point sequence. */
  lemma {:induction false} CodePointsOfBmp(s: JString)
    requires forall k :: 0 <= k < |s| ==> !IsHighSurrogate(s[k]) && !IsLowSurrogate(s[k])
    ensures CodePoints(s) == s
  {
    if s != [] {
      CodePointsOfBmp(s[1..]);
    }
  }

  /** The UTF-16 units of one code point: itself, or a high and a low surrogate above U+FFFF. */
  function Utf16(cp: int): (r: JString)
    requires 0 <= cp <= 0x10FFFF
    ensures |r| == CharCount(cp)
  {
    if cp < 0x1_0000 then [cp]
    else [0xD800 + (cp - 0x1_0000) / 0x400, 0xDC00 + (cp - 0x1_0000) % 0x400]
  }

  /** The UTF-16 units of a sequence of code points. */
  function Utf16s(cps: seq<int>): JString
    requires forall k :: 0 <= k < |cps| ==> 0 <= cps[k] <= 0x10FFFF
  {
    if cps == [] then [] else Utf16(cps[0]) + Utf16s(cps[1..])
  }

  /** The code point at `i`, encoded again, gives back the units it was read from. */
  lemma CodePointUnits(s: JString, i: nat)
    requires i < |s|
    ensures Utf16(CodePointAt(s, i)) == s[i..i + CharCount(CodePointAt(s, i))]
  {
    var cp := CodePointAt(s, i);
    if cp >= 0x1_0000 {
      var high: int, low: int := s[i], s[i + 1];
      var a, b := high - 0xD800, low - 0xDC00;
      assert cp - 0x1_0000 == a * 0x400 + b;
      assert (a * 0x400 + b) / 0x400 == a && (a * 0x400 + b) % 0x400 == b;
    }
  }

  /** Encoding the code points of a string gives back the string. */
  lemma {:induction false} CodePointsUtf16(s: JString)
    ensures Utf16s(CodePoints(s)) == s
    decreases |s|
  {
    if s != [] {
      var cp := CodePointAt(s, 0);
      var n := CharCount(cp);
      CodePointUnits(s, 0);
      CodePointsUtf16(s[n..]);
      assert CodePoints(s)[1..] == CodePoints(s[n..]);
      assert s == s[..n] + s[n..];
    }
  }

  // ---------------------------------------------------------------------------
  // Numerals

  predicate IsDigit(u: int, base: nat) {
    (0x30 <= u <= 0x39 && u - 0x30 < base) || (0x41 <= u <= 0x46 && u - 0x41 + 10 < base)
  }

  /** The upper-case digit for `d` (`%X`, `toUpperCase()` of `toHexString`). */
  function DigitChar(d: nat): (u: CodeUnit)
    requires d < 16
    ensures IsDigit(u, d + 1)
  {
    if d < 10 then 0x30 + d else 0x41 + (d - 10)
  }

  function DigitValue(u: int): nat {
    if 0x30 <= u <= 0x39 then u - 0x30
    else if 0x41 <= u <= 0x46 then u - 0x41 + 10
    else 0
  }

  /** Concatenation is associative. */
  lemma AppendAssoc<T>(a: seq<T>, b: seq<T>, c: seq<T>)
    ensures (a + b) + c == a + (b + c)
  {
  }

  /** Division by a base of at least two shrinks a number no smaller than the base, to a positive quotient. */
  lemma DivideByBase(n: nat, base: nat)
    requires 2 <= base <= n
    ensures 1 <= n / base < n && n % base < base
  {
  }

  /** `n` written in `base` with no leading zeros and upper-case letters. */
  function Numeral(n: nat, base: nat): (r: JString)
    requires 2 <= base <= 16
    ensures 1 <= |r|
    ensures forall k :: 0 <= k < |r| ==> IsDigit(r[k], base)
    ensures |r| > 1 ==> r[0] != 0x30
    decreases n
  {
    if n < base then [DigitChar(n)]
    else
      DivideByBase(n, base);
      Numeral(n / base, base) + [DigitChar(n % base)]
  }

  /** The value of a string of digits, most significant first. */
  function ParseNumeral(s: JString, base: nat): nat {
    if s == [] then 0 else base * ParseNumeral(s[..|s| - 1], base) + DigitValue(s[|s| - 1])
  }

  /** `Integer.toString(n, 10)` and `%d` for a non-negative count. */
  function Decimal(n: nat): JString {
    Numeral(n, 10)
  }

  /** `Integer.toHexString(n).toUpperCase()`. */
  function Hex(n: nat): JString {
    Numeral(n, 16)
  }

  /** `String.format("%0<w>X", n)`: upper-case hexadecimal, zero-padded on the left to at least `w` digits. */
  function HexPad(n: nat, w: nat): (r: JString) {
    var h := Hex(n);
    (if |h| < w then Repeat(0x30, w - |h|) else []) + h
  }

  /** Reading a numeral back gives the number it was written from. */
  lemma {:induction false} ParseNumeralRoundTrip(n: nat, base: nat)
    requires 2 <= base <= 16
    ensures ParseNumeral(Numeral(n, base), base) == n
    decreases n
  {
    var r := Numeral(n, base);
    if n >= base {
      var q, d := n / base, n % base;
      DivStep(n, base);
      var init := Numeral(q, base);
      assert r == init + [DigitChar(d)];
      ParseNumeralRoundTrip(q, base);
      assert r[..|r| - 1] == init;
      assert DigitValue(r[|r| - 1]) == d;
      assert ParseNumeral(r, base) == base * q + d;
    } else {
      assert r == [DigitChar(n)];
      assert DigitValue(r[0]) == n;
    }
  }

  /** One step of writing `n` in `base`: the quotient is smaller and the remainder is the last digit. */
  lemma DivStep(n: nat, base: nat)
    requires 2 <= base <= n
    ensures n / base < n && n % base < base
    ensures n == base * (n / base) + n % base
  {
  }

  lemma {:induction false} ParseLeadingZeros(z: nat, t: JString, base: nat)
    ensures ParseNumeral(Repeat(0x30, z) + t, base) == ParseNumeral(t, base)
    decreases |t|
  {
    if t == [] {
      assert Repeat(0x30, z) + t == Repeat(0x30, z);
      ParseZeros(z, base);
    } else {
      var s := Repeat(0x30, z) + t;
      assert s[..|s| - 1] == Repeat(0x30, z) + t[..|t| - 1];
      ParseLeadingZeros(z, t[..|t| - 1], base);
    }
  }

  lemma {:induction false} ParseZeros(z: nat, base: nat)
    ensures ParseNumeral(Repeat(0x30, z), base) == 0
  {
    if z > 0 {
      assert Repeat(0x30, z)[..z - 1] == Repeat(0x30, z - 1);
      ParseZeros(z - 1, base);
    }
  }

  /** Zero-padding does not change the value a hexadecimal numeral reads back as. */
  lemma HexPadRoundTrip(n: nat, w: nat)
    ensures ParseNumeral(HexPad(n, w), 16) == n
  {
    var h := Hex(n);
    ParseNumeralRoundTrip(n, 16);
    if |h| < w {
      ParseLeadingZeros(w - |h|, h, 16);
    } else {
      assert HexPad(n, w) == h;
    }
  }

  function Pow16(w: nat): nat {
    if w == 0 then 1 else 16 * Pow16(w - 1)
  }

  /** A number below 16^w has at most w hexadecimal digits, so `%0<w>X` writes exactly w. */
  lemma {:induction false} HexPadLength(n: nat, w: nat)
    requires 1 <= w && n < Pow16(w)
    ensures |Hex(n)| <= w
    ensures |HexPad(n, w)| == w
  {
    if n >= 16 {
      assert w > 0 && n / 16 < Pow16(w - 1);
      HexPadLength(n / 16, w - 1);
      assert Hex(n) == Hex(n / 16) + [DigitChar(n % 16)];
    }
  }

  /** Every unit of a hexadecimal numeral is a digit or an upper-case letter A-F. */
  lemma HexPadDigits(n: nat, w: nat)
    ensures forall k :: 0 <= k < |HexPad(n, w)| ==> IsDigit(HexPad(n, w)[k], 16)
  {
  }

  // ---------------------------------------------------------------------------
  // Joining and ordering

  /** `Collectors.joining(sep)`. */
  function Join(parts: seq<JString>, sep: JString): JString {
    if |parts| == 0 then []
    else if |parts| == 1 then parts[0]
    else parts[0] + sep + Join(parts[1..], sep)
  }

  /** `a.compareTo(b) <= 0` for `String` (code-unit lexicographic order). */
  predicate LessEq(a: JString, b: JString) {
    |a| == 0 || (|b| > 0 && (a[0] < b[0] || (a[0] == b[0] && LessEq(a[1..], b[1..]))))
  }

  lemma {:induction false} LessEqReflexive(a: JString)
    ensures LessEq(a, a)
  {
    if |a| > 0 {
      LessEqReflexive(a[1..]);
    }
  }

  lemma {:induction false} LessEqTotal(a: JString, b: JString)
    ensures LessEq(a, b) || LessEq(b, a)
  {
    if |a| > 0 && |b| > 0 && a[0] == b[0] {
      LessEqTotal(a[1..], b[1..]);
    }
  }

  lemma {:induction false} LessEqTransitive(a: JString, b: JString, c: JString)
    requires LessEq(a, b) && LessEq(b, c)
    ensures LessEq(a, c)
  {
    if |a| > 0 && |b| > 0 && |c| > 0 && a[0] == b[0] == c[0] {
      LessEqTransitive(a[1..], b[1..], c[1..]);
    }
  }

  lemma {:induction false} LessEqAntisymmetric(a: JString, b: JString)
    requires LessEq(a, b) && LessEq(b, a)
    ensures a == b
  {
    if |a| > 0 && |b| > 0 {
      LessEqAntisymmetric(a[1..], b[1..]);
      assert a == [a[0]] + a[1..];
      assert b == [b[0]] + b[1..];
    }
  }

  // ---------------------------------------------------------------------------
  // Reading text back

  /** `s` with `lit` taken off its front, if it starts with `lit`. */
  function Expect(lit: JString, s: JString): (r: Option<JString>)
    ensures r.Some? <==> |lit| <= |s| && s[..|lit|] == lit
    ensures r.Some? ==> s == lit + r.value
  {
    if |lit| <= |s| && s[..|lit|] == lit then Some(s[|lit|..]) else None
  }

  /** A string that starts with `lit` gives back what follows it. */
  lemma ExpectOf(lit: JString, rest: JString)
    ensures Expect(lit, lit + rest) == Some(rest)
  {
    assert (lit + rest)[..|lit|] == lit;
    assert (lit + rest)[|lit|..] == rest;
  }

  /** The number of digits in `base` at the front of `s`. */
  function DigitRun(s: JString, base: nat): (n: nat)
    ensures n <= |s|
    ensures forall k :: 0 <= k < n ==> IsDigit(s[k], base)
    ensures n < |s| ==> !IsDigit(s[n], base)
  {
    if s == [] || !IsDigit(s[0], base) then 0 else 1 + DigitRun(s[1..], base)
  }

  /** The decimal number at the front of `s` (the longest run of digits, at least one) and what follows it. */
  function ReadDecimal(s: JString): Option<(nat, JString)> {
    var n := DigitRun(s, 10);
    if n == 0 then None else Some((ParseNumeral(s[..n], 10), s[n..]))
  }

  /** A run of digits followed by a non-digit is read up to that non-digit. */
  lemma {:induction false} DigitRunOf(d: JString, rest: JString, base: nat)
    requires forall k :: 0 <= k < |d| ==> IsDigit(d[k], base)
    requires rest == [] || !IsDigit(rest[0], base)
    ensures DigitRun(d + rest, base) == |d|
    decreases |d|
  {
    if d != [] {
      assert (d + rest)[1..] == d[1..] + rest;
      DigitRunOf(d[1..], rest, base);
    } else {
      assert d + rest == rest;
    }
  }

  /** A decimal numeral followed by a non-digit reads back as its number. */
  lemma ReadDecimalOf(n: nat, rest: JString)
    requires rest == [] || !IsDigit(rest[0], 10)
    ensures ReadDecimal(Decimal(n) + rest) == Some((n, rest))
  {
    var d := Decimal(n);
    DigitRunOf(d, rest, 10);
    assert (d + rest)[..|d|] == d;
    assert (d + rest)[|d|..] == rest;
    ParseNumeralRoundTrip(n, 10);
  }

  /** The decimal number at the front of `s`, which must be followed by `suffix`, and what follows that. */
  function ReadNumberThen(s: JString, suffix: JString): Option<(nat, JString)> {
    match ReadDecimal(s)
    case None => None
    case Some((n, rest)) =>
      match Expect(suffix, rest)
      case None => None
      case Some(after) => Some((n, after))
  }

  /** A numeral, a suffix that does not start with a digit, and anything after: the numeral and the rest read back. */
  lemma ReadNumberThenOf(n: nat, suffix: JString, rest: JString)
    requires suffix != [] && !IsDigit(suffix[0], 10)
    ensures ReadNumberThen(Decimal(n) + suffix + rest, suffix) == Some((n, rest))
  {
    assert Decimal(n) + suffix + rest == Decimal(n) + (suffix + rest);
    ReadDecimalOf(n, suffix + rest);
    assert (suffix + rest)[..|suffix|] == suffix;
    assert (suffix + rest)[|suffix|..] == rest;
  }
}

=== FILE: sorting.dfy ===
/**
 * The reports turn a key set into a list and sort it, by display name for
 * languages (`Comparator.comparing(Language::getDisplayName)`) and by path for
 * files (`Path::compareTo`). This module states what such a sorted list is and
 * computes one.
 */
module Sorting {
  import opened JavaStrings

  /** `xs` is in non-decreasing order of `key`. */
  ghost predicate SortedBy<T>(xs: seq<T>, key: T -> JString) {
    forall i, j :: 0 <= i < j < |xs| ==> LessEq(key(xs[i]), key(xs[j]))
  }

  ghost predicate Distinct<T>(xs: seq<T>) {
    forall i, j :: 0 <= i < j < |xs| ==> xs[i] != xs[j]
  }

  /** `xs` lists every element of `s` exactly once, in the order of `key`. */
  ghost predicate IsSortedEnumeration<T(!new)>(xs: seq<T>, s: set<T>, key: T -> JString) {
    && SortedBy(xs, key)
    && Distinct(xs)
    && (forall x :: x in xs <==> x in s)
  }

  /** No two elements of `s` share a key, so the sorted order of `s` is unique. */
  ghost predicate InjectiveOn<T>(s: set<T>, key: T -> JString) {
    forall x, y :: x in s && y in s && key(x) == key(y) ==> x == y
  }

  /** Inserts `x` before the first element whose key is not smaller. */
  function Insert<T(!new)>(xs: seq<T>, x: T, key: T -> JString): (ys: seq<T>)
    ensures |ys| == |xs| + 1
    ensures forall y :: y in ys <==> y == x || y in xs
  {
    if xs == [] then [x]
    else if LessEq(key(x), key(xs[0])) then [x] + xs
    else [xs[0]] + Insert(xs[1..], x, key)
  }

  lemma {:induction false} InsertSorted<T(!new)>(xs: seq<T>, x: T, key: T -> JString)
    requires SortedBy(xs, key)
    ensures SortedBy(Insert(xs, x, key), key)
  {
    var ys := Insert(xs, x, key);
    if xs == [] {
    } else if LessEq(key(x), key(xs[0])) {
      assert ys == [x] + xs;
      forall i, j | 0 <= i < j < |ys| ensures LessEq(key(ys[i]), key(ys[j])) {
        if i == 0 {
          if j > 1 {
            LessEqTransitive(key(x), key(xs[0]), key(xs[j - 1]));
          }
        } else {
          assert ys[i] == xs[i - 1] && ys[j] == xs[j - 1];
        }
      }
    } else {
      InsertSorted(xs[1..], x, key);
      LessEqTotal(key(x), key(xs[0]));
      var tail := Insert(xs[1..], x, key);
      assert ys == [xs[0]] + tail;
      forall i, j | 0 <= i < j < |ys| ensures LessEq(key(ys[i]), key(ys[j])) {
        if i == 0 {
          assert ys[j] == tail[j - 1];
          if tail[j - 1] != x {
            assert tail[j - 1] in xs[1..];
            var k :| 1 <= k < |xs| && xs[k] == tail[j - 1];
            assert LessEq(key(xs[0]), key(xs[k]));
          }
        } else {
          assert ys[i] == tail[i - 1] && ys[j] == tail[j - 1];
        }
      }
    }
  }

  lemma {:induction false} InsertDistinct<T(!new)>(xs: seq<T>, x: T, key: T -> JString)
    requires Distinct(xs) && x !in xs
    ensures Distinct(Insert(xs, x, key))
  {
    if xs != [] && !LessEq(key(x), key(xs[0])) {
      InsertDistinct(xs[1..], x, key);
      var tail := Insert(xs[1..], x, key);
      assert xs[0] !in xs[1..] by {
        forall k | 1 <= k < |xs| ensures xs[k] != xs[0] { }
      }
      assert xs[0] !in tail;
      var ys := Insert(xs, x, key);
      assert ys == [xs[0]] + tail;
      forall i, j | 0 <= i < j < |ys| ensures ys[i] != ys[j] {
        if i == 0 {
          assert ys[j] == tail[j - 1];
          assert ys[j] in tail;
        } else {
          assert ys[i] == tail[i - 1] && ys[j] == tail[j - 1];
        }
      }
    }
  }

  /** The sorted order of a set, as a specification: insertion of one element after another. */
  ghost function SortedOrder<T(!new)>(s: set<T>, key: T -> JString): (xs: seq<T>)
    ensures IsSortedEnumeration(xs, s, key)
    decreases s
  {
    if s == {} then []
    else
      var x :| x in s;
      var rest := SortedOrder(s - {x}, key);
      InsertSorted(rest, x, key);
      InsertDistinct(rest, x, key);
      Insert(rest, x, key)
  }

  /** With distinct keys there is only one sorted enumeration of a set. */
  lemma {:induction false} SortedEnumerationUnique<T(!new)>(xs: seq<T>, ys: seq<T>, s: set<T>, key: T -> JString)
    requires IsSortedEnumeration(xs, s, key) && IsSortedEnumeration(ys, s, key)
    requires InjectiveOn(s, key)
    ensures xs == ys
    decreases |xs|
  {
    assert ys != [] ==> ys[0] in s;
    if xs != [] {
      assert xs[0] in s;
      assert ys != [] by { assert xs[0] in ys; }
      assert ys[0] in s;
      assert ys[0] in xs;
      var i :| 0 <= i < |xs| && xs[i] == ys[0];
      var j :| 0 <= j < |ys| && ys[j] == xs[0];
      assert LessEq(key(xs[0]), key(ys[0])) by {
        if i > 0 { assert LessEq(key(xs[0]), key(xs[i])); } else { LessEqReflexive(key(xs[0])); }
      }
      assert LessEq(key(ys[0]), key(xs[0])) by {
        if j > 0 { assert LessEq(key(ys[0]), key(ys[j])); } else { LessEqReflexive(key(ys[0])); }
      }
      LessEqAntisymmetric(key(xs[0]), key(ys[0]));
      var x := xs[0];
      forall z ensures z in xs[1..] <==> z in s - {x} {
        if z in xs[1..] {
          var k :| 1 <= k < |xs| && xs[k] == z;
        }
      }
      forall z ensures z in ys[1..] <==> z in s - {x} {
        if z in ys[1..] {
          var k :| 1 <= k < |ys| && ys[k] == z;
        }
      }
      SortedEnumerationUnique(xs[1..], ys[1..], s - {x}, key);
      assert xs == [x] + xs[1..] && ys == [x] + ys[1..];
    }
  }

  /** A duplicate-free enumeration of a set is as long as the set is large. */
  lemma {:induction false} DistinctCardinality<T(!new)>(xs: seq<T>, s: set<T>)
    requires Distinct(xs) && forall x :: x in xs <==> x in s
    ensures |xs| == |s|
    decreases |xs|
  {
    if xs != [] {
      var rest := xs[1..];
      assert Distinct(rest);
      forall x ensures x in rest <==> x in s - {xs[0]} {
        if x in rest {
          var k :| 0 <= k < |rest| && rest[k] == x;
          assert xs[k + 1] == x;
        }
        if x in s - {xs[0]} {
          assert x in xs;
          var k :| 0 <= k < |xs| && xs[k] == x;
          assert k != 0;
          assert rest[k - 1] == x;
        }
      }
      DistinctCardinality(rest, s - {xs[0]});
    } else {
      assert forall x :: x !in s;
    }
  }

  /** The sorted order of a set lists as many elements as the set has. */
  lemma SortedOrderSize<T(!new)>(s: set<T>, key: T -> JString)
    ensures |SortedOrder(s, key)| == |s|
  {
    DistinctCardinality(SortedOrder(s, key), s);
  }

  /** `new ArrayList<>(s)` followed by `list.sort(Comparator.comparing(key))`. */
  method Sort<T(==,!new)>(s: set<T>, key: T -> JString) returns (xs: seq<T>)
    ensures IsSortedEnumeration(xs, s, key)
    ensures InjectiveOn(s, key) ==> xs == SortedOrder(s, key)
  {
    xs := [];
    var rest := s;
    while rest != {}
      invariant rest <= s
      invariant SortedBy(xs, key) && Distinct(xs)
      invariant forall x :: x in xs <==> x in s && x !in rest
      decreases rest
    {
      var x :| x in rest;
      InsertSorted(xs, x, key);
      InsertDistinct(xs, x, key);
      xs := Insert(xs, x, key);
      rest := rest - {x};
    }
    if InjectiveOn(s, key) {
      SortedEnumerationUnique(xs, SortedOrder(s, key), s, key);
    }
  }
}

=== FILE: text.dfy ===
/**
 * `TextReport`: a plain-text report, line by line. A title over a line of
 * dashes, nine summary lines, a `Languages` section with one block per
 * language in display-name order, and a `Files` section with one block per
 * file in path order, the file blocks separated by blank lines.
 */
module Text {
  import opened Wrappers
  import opened JavaStrings
  import opened LineCounts
  import opened CountUtils
  import opened Sorting
  import opened Cache

  const DASH: CodeUnit := 0x2D

  // ---------------------------------------------------------------------------
  // Lines

  /** `writeCounts`: `    Lines: T total, C code, M comment, B blank`. */
  function CountsLine(c: Counts): JString {
    Lit("    Lines: ") + Decimal(c.Total()) + Lit(" total, ") + Decimal(c.code) + Lit(" code, ")
      + Decimal(c.comment) + Lit(" comment, ") + Decimal(c.blank) + Lit(" blank")
  }

  /** Reads a counts line back; its total must be the sum of the other three numbers. */
  function ReadCountsLine(s: JString): Option<Counts> {
    var s1 :- Expect(Lit("    Lines: "), s);
    var total :- ReadNumberThen(s1, Lit(" total, "));
    var code :- ReadNumberThen(total.1, Lit(" code, "));
    var comment :- ReadNumberThen(code.1, Lit(" comment, "));
    var blank :- ReadNumberThen(comment.1, Lit(" blank"));
    if blank.1 == [] && total.0 == code.0 + comment.0 + blank.0 then Some(Counts(code.0, comment.0, blank.0)) else None
  }

  /** Each word after a number in a counts line starts with a space, so it ends the number. */
  lemma CountsLineWords()
    ensures Lit(" total, ") != [] && !IsDigit(Lit(" total, ")[0], 10)
    ensures Lit(" code, ") != [] && !IsDigit(Lit(" code, ")[0], 10)
    ensures Lit(" comment, ") != [] && !IsDigit(Lit(" comment, ")[0], 10)
    ensures Lit(" blank") != [] && !IsDigit(Lit(" blank")[0], 10)
  {
  }

  /** A counts line gives back the counts it was written from, and its total is their sum. */
  lemma CountsLineRoundTrip(c: Counts)
    ensures ReadCountsLine(CountsLine(c)) == Some(c)
  {
    CountsLineWords();
    var tail4 := Decimal(c.blank) + Lit(" blank");
    var tail3 := Decimal(c.comment) + Lit(" comment, ") + tail4;
    var tail2 := Decimal(c.code) + Lit(" code, ") + tail3;
    var tail1 := Decimal(c.Total()) + Lit(" total, ") + tail2;
    assert CountsLine(c) == Lit("    Lines: ") + tail1;
    ExpectOf(Lit("    Lines: "), tail1);
    ReadNumberThenOf(c.Total(), Lit(" total, "), tail2);
    ReadNumberThenOf(c.code, Lit(" code, "), tail3);
    ReadNumberThenOf(c.comment, Lit(" comment, "), tail4);
    ReadNumberThenOf(c.blank, Lit(" blank"), []);
    assert Decimal(c.blank) + Lit(" blank") + [] == tail4;
  }

  /** A line made of a caption and a number (the `writeln(String, int)` overload). */
  function NumberLine(caption: JString, n: nat): JString {
    caption + Decimal(n)
  }

  /** The number after `caption`, when that is all the line holds. */
  function ReadNumberLine(caption: JString, s: JString): Option<nat> {
    var digits :- Expect(caption, s);
    var n :- ReadDecimal(digits);
    if n.1 == [] then Some(n.0) else None
  }

  /** A number line reads back as its number. */
  lemma NumberLineRoundTrip(caption: JString, n: nat)
    ensures ReadNumberLine(caption, NumberLine(caption, n)) == Some(n)
  {
    ExpectOf(caption, Decimal(n));
    ReadDecimalOf(n, []);
    assert Decimal(n) + [] == Decimal(n);
  }

  /** The title: `Line Count Report For <project name>`, then a line of 80 dashes. */
  function TitleLines(projectName: JString): seq<JString> {
    [Lit("Line Count Report For ") + projectName, Repeat(DASH, 80)]
  }

  /** The captions of the numeric summary lines, in the order written. */
  function SummaryCaptions(): seq<JString> {
    [ Lit("Number of files: "), Lit("Number unrecognized files: "), Lit("Number of languages: "),
      Lit("Total lines: "), Lit("Code lines: "), Lit("Comment lines: "), Lit("Blank lines: ") ]
  }

  /** The numbers of the summary: files, unrecognized files, languages, then the total, code, comment and blank lines. */
  function SummaryNumbers(numFiles: nat, numUnrecognized: nat, numLanguages: nat, total: Counts): seq<nat> {
    [numFiles, numUnrecognized, numLanguages, total.Total(), total.code, total.comment, total.blank]
  }

  /** The summary lines: the date, the version, then each captioned number. */
  function SummaryLines(date: JString, version: JString, numFiles: nat, numUnrecognized: nat, numLanguages: nat, total: Counts): seq<JString> {
    var captions := SummaryCaptions();
    var numbers := SummaryNumbers(numFiles, numUnrecognized, numLanguages, total);
    [Lit("Date: ") + date, Lit("Project version: ") + version]
      + seq(|captions|, i requires 0 <= i < |captions| => NumberLine(captions[i], numbers[i]))
  }

  /** The summary reads back: the date, the version, and each number after its caption. */
  lemma SummaryRoundTrip(date: JString, version: JString, numFiles: nat, numUnrecognized: nat, numLanguages: nat, total: Counts)
    ensures var s := SummaryLines(date, version, numFiles, numUnrecognized, numLanguages, total);
      var numbers := SummaryNumbers(numFiles, numUnrecognized, numLanguages, total);
      && |s| == 9
      && Expect(Lit("Date: "), s[0]) == Some(date)
      && Expect(Lit("Project version: "), s[1]) == Some(version)
      && forall i :: 0 <= i < 7 ==> ReadNumberLine(SummaryCaptions()[i], s[i + 2]) == Some(numbers[i])
  {
    var s := SummaryLines(date, version, numFiles, numUnrecognized, numLanguages, total);
    var numbers := SummaryNumbers(numFiles, numUnrecognized, numLanguages, total);
    ExpectOf(Lit("Date: "), date);
    ExpectOf(Lit("Project version: "), version);
    forall i | 0 <= i < 7 ensures ReadNumberLine(SummaryCaptions()[i], s[i + 2]) == Some(numbers[i]) {
      NumberLineRoundTrip(SummaryCaptions()[i], numbers[i]);
    }
  }

  // ---------------------------------------------------------------------------
  // Languages

  /** A language's heading: `Name: description`, or just `Name` when it has no description. */
  function LanguageHeading(language: Language): JString {
    match language.description
    case None => language.displayName
    case Some(d) => language.displayName + Lit(": ") + d
  }

  /** The heading starts with the display name; it is the display name alone exactly when there is no description, and otherwise the description follows `: `. */
  lemma LanguageHeadingParts(language: Language)
    ensures var h := LanguageHeading(language);
      var n := |language.displayName|;
      && n <= |h| && h[..n] == language.displayName
      && (h == language.displayName <==> language.description.None?)
      && (language.description.Some? ==> Expect(Lit(": "), h[n..]) == Some(language.description.value))
  {
    var h := LanguageHeading(language);
    var n := |language.displayName|;
    if language.description.Some? {
      var d := language.description.value;
      assert h == language.displayName + (Lit(": ") + d);
      assert h[n..] == Lit(": ") + d;
      assert |h| > n;
    }
  }

  /** One block per language, in the order given: heading, counts, blank line. */
  function LanguageBlocks(languages: seq<Language>, languageCounts: map<Language, Counts>): seq<JString>
    requires forall l :: l in languages ==> l in languageCounts
  {
    if languages == [] then []
    else
      var n := |languages| - 1;
      var l := languages[n];
      LanguageBlocks(languages[..n], languageCounts) + [LanguageHeading(l), CountsLine(languageCounts[l]), []]
  }

  /** `writeLanguages`: a blank line, the heading over nine dashes, then the blocks. */
  function LanguagesSection(languages: seq<Language>, languageCounts: map<Language, Counts>): seq<JString>
    requires forall l :: l in languages ==> l in languageCounts
  {
    [[], Lit("Languages"), Repeat(DASH, 9)] + LanguageBlocks(languages, languageCounts)
  }

  /** The k-th language's block is lines 3k to 3k+2: its heading, its counts, a blank line. */
  lemma {:induction false} LanguageBlocksShape(languages: seq<Language>, languageCounts: map<Language, Counts>)
    requires forall l :: l in languages ==> l in languageCounts
    ensures var r := LanguageBlocks(languages, languageCounts);
      && |r| == 3 * |languages|
      && forall k :: 0 <= k < |languages| ==>
           && r[3 * k] == LanguageHeading(languages[k])
           && r[3 * k + 1] == CountsLine(languageCounts[languages[k]])
           && r[3 * k + 2] == []
    decreases |languages|
  {
    if languages != [] {
      var n := |languages| - 1;
      var init := languages[..n];
      LanguageBlocksShape(init, languageCounts);
      var r := LanguageBlocks(languages, languageCounts);
      var r0 := LanguageBlocks(init, languageCounts);
      var block := [LanguageHeading(languages[n]), CountsLine(languageCounts[languages[n]]), []];
      assert r == r0 + block;
      assert |r0| == 3 * n;
      forall k | 0 <= k < |languages|
        ensures r[3 * k] == LanguageHeading(languages[k])
        ensures r[3 * k + 1] == CountsLine(languageCounts[languages[k]])
        ensures r[3 * k + 2] == []
      {
        if k < n {
          assert languages[k] == init[k];
          assert r[3 * k] == r0[3 * k] && r[3 * k + 1] == r0[3 * k + 1] && r[3 * k + 2] == r0[3 * k + 2];
        } else {
          assert r[3 * k] == block[0] && r[3 * k + 1] == block[1] && r[3 * k + 2] == block[2];
        }
      }
    }
  }

  /** The loop of `writeLanguages` over the sorted languages. */
  method WriteLanguageBlocks(languages: seq<Language>, languageCounts: map<Language, Counts>) returns (lines: seq<JString>)
    requires forall l :: l in languages ==> l in languageCounts
    ensures lines == LanguageBlocks(languages, languageCounts)
  {
    lines := [];
    for i := 0 to |languages|
      invariant lines == LanguageBlocks(languages[..i], languageCounts)
    {
      var language := languages[i];
      assert languages[..i + 1][..i] == languages[..i];
      var heading: JString;
      if language.description.None? {
        heading := language.displayName;
      } else {
        heading := language.displayName + Lit(": ") + language.description.value;
      }
      lines := lines + [heading, CountsLine(languageCounts[language]), []];
    }
    assert languages[..|languages|] == languages;
  }

  // ---------------------------------------------------------------------------
  // Files

  /** `    Languages: ` and the display names joined by `, `. */
  function LanguagesLine(languages: seq<Language>): JString {
    Lit("    Languages: ") + Join(DisplayNames(languages), Lit(", "))
  }

  /** A file's block: its relative path, its counts, its languages. */
  function FileBlock(relativePath: JString, counts: Counts, languages: seq<Language>): seq<JString> {
    [relativePath, CountsLine(counts), LanguagesLine(languages)]
  }

  /** A file's block as the report writes it: relative path, counts, and its languages in display-name order. */
  ghost function FileBlockOf(p: Path, pc: PathCounts, fileCounts: map<Path, Counts>, relativize: Path -> JString): (r: seq<JString>)
    requires p in pc && p in fileCounts
    ensures |r| == 3
  {
    FileBlock(relativize(p), fileCounts[p], SortedOrder(pc[p].Keys, DisplayName))
  }

  /** Blocks of lines one after another, with a blank line before every block but the first. */
  function Separated(blocks: seq<seq<JString>>): seq<JString> {
    if blocks == [] then []
    else
      var n := |blocks| - 1;
      Separated(blocks[..n]) + (if n > 0 then [[]] else []) + blocks[n]
  }

  /**
   * With three lines to a block, the k-th block is lines 4k to 4k+2 and line
   * 4k+3 is blank when another block follows: one blank line between blocks,
   * none before the first and none after the last.
   */
  lemma {:induction false} SeparatedShape(blocks: seq<seq<JString>>)
    requires forall k :: 0 <= k < |blocks| ==> |blocks[k]| == 3
    ensures var r := Separated(blocks);
      && |r| == (if blocks == [] then 0 else 4 * |blocks| - 1)
      && (forall k :: 0 <= k < |blocks| ==> r[4 * k..4 * k + 3] == blocks[k])
      && (forall k :: 0 <= k < |blocks| - 1 ==> r[4 * k + 3] == [])
    decreases |blocks|
  {
    if blocks != [] {
      var n := |blocks| - 1;
      var init := blocks[..n];
      SeparatedShape(init);
      var r0 := Separated(init);
      var gap: seq<JString> := if n > 0 then [[]] else [];
      var front := r0 + gap;
      var r := Separated(blocks);
      assert r == front + blocks[n];
      assert |front| == 4 * n;
      forall k | 0 <= k < |blocks| ensures r[4 * k..4 * k + 3] == blocks[k] {
        if k < n {
          assert blocks[k] == init[k];
          SliceOfFront(front, blocks[n], 4 * k, 4 * k + 3);
          SliceOfFront(r0, gap, 4 * k, 4 * k + 3);
        } else {
          SliceOfBack(front, blocks[n]);
        }
      }
      forall k | 0 <= k < |blocks| - 1 ensures r[4 * k + 3] == [] {
        if k < n - 1 {
          assert r[4 * k + 3] == r0[4 * k + 3];
        } else {
          assert r[4 * k + 3] == gap[0];
        }
      }
    }
  }

  /** Adding a block adds a blank line, unless it is the first, and then the block. */
  lemma SeparatedAppend(blocks: seq<seq<JString>>, block: seq<JString>)
    ensures Separated(blocks + [block]) == Separated(blocks) + (if blocks == [] then [] else [[]]) + block
  {
    assert (blocks + [block])[..|blocks|] == blocks;
  }

  /** One step of a loop that writes a blank line before every block but the first. */
  lemma SeparatedStep(blocks: seq<seq<JString>>, block: seq<JString>, prior: seq<JString>, lines: seq<JString>)
    requires prior == Separated(blocks)
    requires lines == prior + (if blocks == [] then [] else [[]])
    ensures lines + block == Separated(blocks + [block])
  {
    SeparatedAppend(blocks, block);
  }

  lemma SliceOfFront<T>(a: seq<T>, b: seq<T>, i: nat, j: nat)
    requires i <= j <= |a|
    ensures (a + b)[i..j] == a[i..j]
  {
  }

  lemma SliceOfBack<T>(a: seq<T>, b: seq<T>)
    ensures (a + b)[|a|..|a| + |b|] == b
  {
  }

  /** The blocks of the files, in the order given. */
  ghost function FileBlockList(paths: seq<Path>, pc: PathCounts, fileCounts: map<Path, Counts>, relativize: Path -> JString): (r: seq<seq<JString>>)
    requires forall p :: p in paths ==> p in pc && p in fileCounts
    ensures |r| == |paths|
    ensures forall k :: 0 <= k < |r| ==> |r[k]| == 3
  {
    seq(|paths|, k requires 0 <= k < |paths| => FileBlockOf(paths[k], pc, fileCounts, relativize))
  }

  /** `writeFiles`: the heading over five dashes, then the file blocks separated by blank lines. */
  ghost function FilesSection(paths: seq<Path>, pc: PathCounts, fileCounts: map<Path, Counts>, relativize: Path -> JString): seq<JString>
    requires forall p :: p in paths ==> p in pc && p in fileCounts
  {
    [Lit("Files"), Repeat(DASH, 5)] + Separated(FileBlockList(paths, pc, fileCounts, relativize))
  }

  /** The body of the file loop: the relative path, the counts, the sorted languages. */
  method WriteFileBlock(p: Path, pc: PathCounts, fileCounts: map<Path, Counts>, relativize: Path -> JString)
    returns (block: seq<JString>)
    requires p in pc && p in fileCounts
    requires InjectiveOn(pc[p].Keys, DisplayName)
    ensures block == FileBlockOf(p, pc, fileCounts, relativize)
  {
    var languages := Sort(pc[p].Keys, DisplayName);
    block := [relativize(p), CountsLine(fileCounts[p]), LanguagesLine(languages)];
  }

  /** The loop of `writeFiles`, with its `first` flag. */
  method WriteFileBlocks(paths: seq<Path>, pc: PathCounts, fileCounts: map<Path, Counts>, relativize: Path -> JString)
    returns (lines: seq<JString>)
    requires forall p :: p in paths ==> p in pc && p in fileCounts
    requires InjectiveOn(Languages(pc), DisplayName)
    ensures lines == Separated(FileBlockList(paths, pc, fileCounts, relativize))
  {
    lines := [];
    var first := true;
    for i := 0 to |paths|
      invariant first <==> i == 0
      invariant lines == Separated(FileBlockList(paths[..i], pc, fileCounts, relativize))
    {
      ghost var prior := lines;
      if !first {
        lines := lines + [[]];
      }
      first := false;
      var p := paths[i];
      FileLanguagesInjective(pc, p);
      var block := WriteFileBlock(p, pc, fileCounts, relativize);
      FileBlockListStep(paths, i, pc, fileCounts, relativize);
      SeparatedStep(FileBlockList(paths[..i], pc, fileCounts, relativize), block, prior, lines);
      lines := lines + block;
    }
    assert paths[..|paths|] == paths;
  }

  /** The blocks of one more file are the blocks so far and that file's block. */
  lemma FileBlockListStep(paths: seq<Path>, i: nat, pc: PathCounts, fileCounts: map<Path, Counts>, relativize: Path -> JString)
    requires i < |paths|
    requires forall p :: p in paths ==> p in pc && p in fileCounts
    ensures FileBlockList(paths[..i + 1], pc, fileCounts, relativize)
      == FileBlockList(paths[..i], pc, fileCounts, relativize) + [FileBlockOf(paths[i], pc, fileCounts, relativize)]
  {
    assert forall p :: p in paths[..i + 1] ==> p in paths;
  }

  // ---------------------------------------------------------------------------
  // The report

  /** The report of a counts map in which every file has a recognized language. */
  ghost function Report(pc: PathCounts, projectName: JString, version: JString, date: JString, relativize: Path -> JString): seq<JString>
    requires AllRecognized(pc)
  {
    var total := TotalCounts(pc);
    var languageCounts := LanguageCounts(pc);
    AllRecognizedFileCounts(pc);
    TitleLines(projectName)
      + SummaryLines(date, version, |pc|, |Unrecognized(pc)|, |Languages(pc)|, total)
      + LanguagesSection(SortedOrder(languageCounts.Keys, DisplayName), languageCounts)
      + FilesSection(SortedOrder(pc.Keys, PathKey), pc, FileCounts(pc), relativize)
  }

  /**
   * The report's layout: the title over 80 dashes; the nine summary lines; a
   * blank line and `Languages` over nine dashes, then three lines per
   * language; `Files` over five dashes, then four lines per file less the
   * blank line after the last.
   */
  lemma ReportLayout(pc: PathCounts, projectName: JString, version: JString, date: JString, relativize: Path -> JString)
    requires AllRecognized(pc)
    ensures var r := Report(pc, projectName, version, date, relativize);
      var nl := |Languages(pc)|;
      && |r| == 16 + 3 * nl + (if |pc| == 0 then 0 else 4 * |pc| - 1)
      && r[0] == Lit("Line Count Report For ") + projectName
      && r[1] == Repeat(DASH, 80)
      && r[2..11] == SummaryLines(date, version, |pc|, |Unrecognized(pc)|, nl, TotalCounts(pc))
      && r[11..14] == [[], Lit("Languages"), Repeat(DASH, 9)]
      && r[14 + 3 * nl..16 + 3 * nl] == [Lit("Files"), Repeat(DASH, 5)]
  {
    var ls, fs := ReportParts(pc, projectName, version, date, relativize);
    SectionsLayout(TitleLines(projectName), SummaryLines(date, version, |pc|, |Unrecognized(pc)|, |Languages(pc)|, TotalCounts(pc)), ls, fs);
  }

  /** The report is the title, the summary and the two sections, whose sizes follow from the numbers of languages and files. */
  lemma ReportParts(pc: PathCounts, projectName: JString, version: JString, date: JString, relativize: Path -> JString)
    returns (ls: seq<JString>, fs: seq<JString>)
    requires AllRecognized(pc)
    ensures Report(pc, projectName, version, date, relativize)
      == TitleLines(projectName) + SummaryLines(date, version, |pc|, |Unrecognized(pc)|, |Languages(pc)|, TotalCounts(pc)) + ls + fs
    ensures |ls| == 3 + 3 * |Languages(pc)| && ls[..3] == [[], Lit("Languages"), Repeat(DASH, 9)]
    ensures |fs| == 2 + (if |pc| == 0 then 0 else 4 * |pc| - 1) && fs[..2] == [Lit("Files"), Repeat(DASH, 5)]
  {
    var languageCounts := LanguageCounts(pc);
    var languages := SortedOrder(languageCounts.Keys, DisplayName);
    var paths := SortedOrder(pc.Keys, PathKey);
    AllRecognizedFileCounts(pc);
    ls := LanguagesSection(languages, languageCounts);
    fs := FilesSection(paths, pc, FileCounts(pc), relativize);
    SortedOrderSize(languageCounts.Keys, DisplayName);
    SortedOrderSize(pc.Keys, PathKey);
    LanguagesSectionSize(languages, languageCounts);
    FilesSectionSize(paths, pc, FileCounts(pc), relativize);
  }

  lemma LanguagesSectionSize(languages: seq<Language>, languageCounts: map<Language, Counts>)
    requires forall l :: l in languages ==> l in languageCounts
    ensures var ls := LanguagesSection(languages, languageCounts);
      |ls| == 3 + 3 * |languages| && ls[..3] == [[], Lit("Languages"), Repeat(DASH, 9)]
  {
    LanguageBlocksShape(languages, languageCounts);
  }

  lemma FilesSectionSize(paths: seq<Path>, pc: PathCounts, fileCounts: map<Path, Counts>, relativize: Path -> JString)
    requires forall p :: p in paths ==> p in pc && p in fileCounts
    ensures var fs := FilesSection(paths, pc, fileCounts, relativize);
      |fs| == 2 + (if |paths| == 0 then 0 else 4 * |paths| - 1) && fs[..2] == [Lit("Files"), Repeat(DASH, 5)]
  {
    SeparatedShape(FileBlockList(paths, pc, fileCounts, relativize));
  }

  /** Where the title, the summary and the two sections sit in the report. */
  lemma SectionsLayout(title: seq<JString>, summary: seq<JString>, ls: seq<JString>, fs: seq<JString>)
    requires |title| == 2 && |summary| == 9 && |ls| >= 3 && |fs| >= 2
    ensures var r := title + summary + ls + fs;
      && |r| == 11 + |ls| + |fs|
      && r[0] == title[0] && r[1] == title[1]
      && r[2..11] == summary
      && r[11..14] == ls[..3]
      && r[11 + |ls|..13 + |ls|] == fs[..2]
  {
    var r := title + summary + ls + fs;
    assert r[2..11] == summary;
    assert r[11..14] == ls[..3];
    assert r[11 + |ls|..13 + |ls|] == fs[..2];
  }

  /** `writeLanguages`. */
  method WriteLanguages(cache: CountsCache) returns (lines: seq<JString>)
    requires cache.Valid()
    requires InjectiveOn(Languages(cache.pathCounts), DisplayName)
    modifies cache
    ensures cache.Valid()
    ensures lines == LanguagesSection(SortedOrder(Languages(cache.pathCounts), DisplayName), LanguageCounts(cache.pathCounts))
  {
    var languageCounts := cache.GetLanguageCounts();
    var languages := Sort(languageCounts.Keys, DisplayName);
    var blocks := WriteLanguageBlocks(languages, languageCounts);
    lines := [[], Lit("Languages"), Repeat(DASH, 9)] + blocks;
  }

  /** `writeFiles`. */
  method WriteFiles(cache: CountsCache, relativize: Path -> JString) returns (lines: seq<JString>)
    requires cache.Valid()
    requires InjectiveOn(Languages(cache.pathCounts), DisplayName)
    requires AllRecognized(cache.pathCounts)
    modifies cache
    ensures cache.Valid()
    ensures AllRecognized(cache.pathCounts)
    ensures lines == FilesSection(SortedOrder(cache.pathCounts.Keys, PathKey), cache.pathCounts, FileCounts(cache.pathCounts), relativize)
  {
    var fileCounts := cache.GetFileCounts();
    var pc := cache.GetPathCounts();
    var paths := Sort(pc.Keys, PathKey);
    PathKeyInjective(pc.Keys);
    AllRecognizedFileCounts(pc);
    var blocks := WriteFileBlocks(paths, pc, fileCounts, relativize);
    lines := [Lit("Files"), Repeat(DASH, 5)] + blocks;
  }

  /**
   * `TextReport.generateReport`. The project name, version, timestamp and
   * the relativization of paths against the root project are parameters.
   */
  method GenerateReport(cache: CountsCache, projectName: JString, version: JString, date: JString, relativize: Path -> JString)
    returns (lines: seq<JString>)
    requires cache.Valid()
    requires InjectiveOn(Languages(cache.pathCounts), DisplayName)
    requires AllRecognized(cache.pathCounts)
    modifies cache
    ensures cache.Valid()
    ensures lines == Report(cache.pathCounts, projectName, version, date, relativize)
  {
    var total := cache.GetTotalCounts();
    var languages := cache.GetLanguages();
    var pc := cache.GetPathCounts();
    var unrecognized := cache.GetUnrecognized();
    var head := TitleLines(projectName) + SummaryLines(date, version, |pc|, |unrecognized|, |languages|, total);
    var languageLines := WriteLanguages(cache);
    var fileLines := WriteFiles(cache, relativize);
    lines := head + languageLines + fileLines;
  }
}

=== FILE: wrappers.dfy ===
/** The nullable values of the Java source. */
module Wrappers {

  /** A Java reference that may be `null`. */
  datatype Option<+T> = None | Some(value: T) {

    /** The value, or the given default when absent (`Map.getOrDefault`). */
    function GetOr(default: T): T {
      match this
      case Some(v) => v
      case None => default
    }

    predicate IsFailure() {
      None?
    }

    function PropagateFailure<U>(): Option<U>
      requires None?
    {
      None
    }

    function Extract(): T
      requires Some?
    {
      value
    }
  }
}

=== FILE: yaml.dfy ===
/**
 * `YamlReport`: the report as a YAML 1.2 document, one `writeln` per line.
 * Every string value is written by `writeEscaped`, which classifies it
 * (`requiresQuotes`) as needing no quotes, single quotes or double quotes,
 * and in double quotes escapes it code point by code point with the escape
 * sequences of section 5.7 of YAML 1.2. The classification is modelled as
 * corrected, with the backquote among the indicators; `ClassifyAsWritten`
 * keeps the list as it stands.
 */
module Yaml {
  import opened Wrappers
  import opened JavaStrings
  import opened LineCounts
  import opened CountUtils
  import opened Sorting
  import Text

  const SPACE: CodeUnit := 0x20
  const DQUOTE: CodeUnit := 0x22
  const QUOTE: CodeUnit := 0x27
  const BACKSLASH: CodeUnit := 0x5C
  const LF: CodeUnit := 0x0A
  const CR: CodeUnit := 0x0D
  const HYPHEN: CodeUnit := 0x2D
  const PERIOD: CodeUnit := 0x2E
  const BACKQUOTE: CodeUnit := 0x60

  /** The indicator characters that call for single quotes. */
  const INDICATORS: JString := Lit("#,[]{}&*!|>%@?:-/")

  /** The indicator characters are exactly the units of `INDICATORS`. */
  lemma IndicatorsListed(u: int)
    ensures IsIndicator(u) <==> u in INDICATORS
  {
    var ind := INDICATORS;
    assert ind == [0x23, 0x2C, 0x5B, 0x5D, 0x7B, 0x7D, 0x26, 0x2A, 0x21, 0x7C, 0x3E, 0x25, 0x40, 0x3F, 0x3A, 0x2D, 0x2F];
  }

  /** `YamlReport.Quoting`; `NoQuotes` is the enum's `None`. */
  datatype Quoting = NoQuotes | Single | Double

  // ---------------------------------------------------------------------------
  // Which quotes a value needs

  /** A unit that only a double-quoted scalar can carry: a control, anything beyond ASCII, a quote or a backslash. */
  predicate NeedsEscape(u: int) {
    u < 0x20 || u > 0x7E || u == DQUOTE || u == QUOTE || u == BACKSLASH
  }

  /** One of the indicator characters `#,[]{}&*!|>%@?:-/`. */
  predicate IsIndicator(u: int) {
    u in {0x23, 0x2C, 0x5B, 0x5D, 0x7B, 0x7D, 0x26, 0x2A, 0x21, 0x7C, 0x3E, 0x25, 0x40, 0x3F, 0x3A, 0x2D, 0x2F}
  }

  /**
   * A unit that asks for single quotes: one of the listed indicators, or the
   * backquote, which YAML 1.2 reserves as an indicator too (rules [21] and
   * [22]) but the list leaves out. This is the corrected classification; see
   * `ClassifyAsWritten` for the list as it stands.
   */
  predicate AsksSingle(u: int) {
    IsIndicator(u) || u == BACKQUOTE
  }

  /** A leading or trailing space, a leading `---` or a trailing `...`. */
  predicate Framed(s: JString) {
    (|s| >= 1 && s[0] == SPACE) || (|s| >= 1 && s[|s| - 1] == SPACE)
    || (|s| >= 3 && s[0] == s[1] == s[2] == HYPHEN) || (|s| >= 3 && s[|s| - 3] == s[|s| - 2] == s[|s| - 1] == PERIOD)
  }

  /**
   * The quoting a value calls for: double quotes when any unit needs an
   * escape; otherwise single quotes for the empty string, a framed string or
   * one holding an indicator or a backquote (as corrected); otherwise none.
   * Only printable ASCII other than quotes and backslash is ever left
   * unescaped.
   */
  function Classify(s: JString): (q: Quoting)
    ensures q != Double <==> forall k :: 0 <= k < |s| ==> !NeedsEscape(s[k])
    ensures q == NoQuotes ==> s != [] && !Framed(s) && forall k :: 0 <= k < |s| ==> !AsksSingle(s[k])
  {
    if exists k :: 0 <= k < |s| && NeedsEscape(s[k]) then Double
    else if s == [] || Framed(s) || exists k :: 0 <= k < |s| && AsksSingle(s[k]) then Single
    else NoQuotes
  }

  /**
   * `requiresQuotes`, as corrected: the empty string needs single quotes;
   * otherwise the string is walked code point by code point, an indicator or
   * a backquote asking for single quotes and the first unit that needs an
   * escape deciding double quotes at once.
   */
  method RequiresQuotes(s: JString) returns (q: Quoting)
    ensures q == Classify(s)
  {
    if |s| == 0 {
      return Single;
    }
    var needsSingle := Framed(s);
    var idx := 0;
    while idx < |s|
      invariant 0 <= idx <= |s|
      invariant forall k :: 0 <= k < idx ==> !NeedsEscape(s[k])
      invariant needsSingle <==> Framed(s) || exists k :: 0 <= k < idx && AsksSingle(s[k])
      decreases |s| - idx
    {
      var ch := CodePointAt(s, idx);
      if AsksSingle(ch) {
        needsSingle := true;
      } else if ch < 0x20 || ch > 0x7E || ch == DQUOTE || ch == QUOTE || ch == BACKSLASH {
        assert NeedsEscape(s[idx]);
        return Double;
      }
      idx := idx + CharCount(ch);
    }
    q := if needsSingle then Single else NoQuotes;
  }

  // ---------------------------------------------------------------------------
  // The double-quoted escape

  /** The letter of the named escape of a code point, for the fourteen the report names. */
  function NamedEscape(cp: int): Option<CodeUnit> {
    if cp == 0x00 then Some(0x30)            // \0
    else if cp == 0x07 then Some(0x61)       // \a
    else if cp == 0x08 then Some(0x62)       // \b
    else if cp == 0x09 then Some(0x74)       // \t
    else if cp == 0x0A then Some(0x6E)       // \n
    else if cp == 0x0B then Some(0x76)       // \v
    else if cp == 0x0D then Some(0x72)       // \r
    else if cp == 0x22 then Some(0x22)       // \"
    else if cp == 0x2F then Some(0x2F)       // \/
    else if cp == 0x5C then Some(0x5C)       // \\
    else if cp == 0x85 then Some(0x4E)       // \N
    else if cp == 0xA0 then Some(0x5F)       // \_
    else if cp == 0x2028 then Some(0x4C)     // \L
    else if cp == 0x2029 then Some(0x50)     // \P
    else None
  }

  /** `\x`, `\u` or `\U` and the hexadecimal digits, upper case, zero-padded to `width`. */
  function HexEscape(letter: CodeUnit, cp: nat, width: nat): JString {
    [BACKSLASH, letter] + HexPad(cp, width)
  }

  /**
   * The escape of one code point inside double quotes: a named escape; else
   * `\xHH` below 0x20; else the character itself up to 0x7E; else `\xHH`
   * up to 0xFF, `\uHHHH` up to 0xFFFF and `\UHHHHHHHH` beyond.
   */
  function EscapeCodePoint(cp: int): JString
    requires 0 <= cp <= 0x10FFFF
  {
    match NamedEscape(cp)
    case Some(letter) => [BACKSLASH, letter]
    case None =>
      if cp < 0x20 then HexEscape(0x78, cp, 2)
      else if cp <= 0x7E then [cp]
      else if cp <= 0xFF then HexEscape(0x78, cp, 2)
      else if cp <= 0xFFFF then HexEscape(0x75, cp, 4)
      else HexEscape(0x55, cp, 8)
  }

  function EscapeCodePoints(cps: seq<int>): JString
    requires forall k :: 0 <= k < |cps| ==> 0 <= cps[k] <= 0x10FFFF
  {
    if cps == [] then [] else EscapeCodePoint(cps[0]) + EscapeCodePoints(cps[1..])
  }

  /** The escape of every code point of `s`. */
  function EscapeAll(s: JString): JString {
    EscapeCodePoints(CodePoints(s))
  }

  /** `writeEscaped`: the value as it appears in the report. */
  function Written(s: JString): JString {
    match Classify(s)
    case NoQuotes => s
    case Single => [QUOTE] + s + [QUOTE]
    case Double => [DQUOTE] + EscapeAll(s) + [DQUOTE]
  }

  lemma EscapeCodePointsCons(cp: int, cps: seq<int>)
    requires 0 <= cp <= 0x10FFFF
    requires forall k :: 0 <= k < |cps| ==> 0 <= cps[k] <= 0x10FFFF
    ensures EscapeCodePoints([cp] + cps) == EscapeCodePoint(cp) + EscapeCodePoints(cps)
  {
    assert ([cp] + cps)[1..] == cps;
  }

  /** The escape of `s` from unit `i` on, a code point at a time, a surrogate pair counting as one. */
  function EscapeFrom(s: JString, i: nat): JString
    requires i <= |s|
    decreases |s| - i
  {
    if i == |s| then []
    else
      var ch := CodePointAt(s, i);
      EscapeCodePoint(ch) + EscapeFrom(s, i + CharCount(ch))
  }

  /** The escape from `i` on is the escape of the code point at `i`, then the escape from just past it. */
  lemma EscapeFromStep(s: JString, i: nat, ch: int)
    requires i < |s| && ch == CodePointAt(s, i)
    ensures EscapeFrom(s, i) == EscapeCodePoint(ch) + EscapeFrom(s, i + CharCount(ch))
  {
  }

  /** One pass of the escaping loop: the escape of the code point at `i`, and the index just past it. */
  method EscapeNext(s: JString, i: nat) returns (piece: JString, next: nat)
    requires i < |s|
    ensures i < next <= |s|
    ensures piece + EscapeFrom(s, next) == EscapeFrom(s, i)
  {
    var ch := CodePointAt(s, i);
    piece := EscapeCodePoint(ch);
    next := i + CharCount(ch);
    EscapeFromStep(s, i, ch);
  }

  /** Escaping unit by unit from `i` is escaping the code points of what follows `i`. */
  lemma {:induction false} EscapeFromAll(s: JString, i: nat)
    requires i <= |s|
    ensures EscapeFrom(s, i) == EscapeAll(s[i..])
    decreases |s| - i
  {
    if i == |s| {
      assert s[i..] == [];
    } else {
      var ch := CodePointAt(s, i);
      var j := i + CharCount(ch);
      var rest := CodePoints(s[j..]);
      CodePointsStep(s, i);
      EscapeCodePointsCons(ch, rest);
      EscapeFromAll(s, j);
      assert EscapeFrom(s, i) == EscapeCodePoint(ch) + EscapeFrom(s, j);
    }
  }

  /** The double-quoted branch of `writeEscaped`: one code point per step, a surrogate pair counting as one. */
  method EscapeLoop(s: JString) returns (buffer: JString)
    ensures buffer == EscapeAll(s)
  {
    buffer := [];
    var idx := 0;
    EscapeFromAll(s, 0);
    assert s[0..] == s;
    while idx < |s|
      invariant 0 <= idx <= |s|
      invariant buffer + EscapeFrom(s, idx) == EscapeAll(s)
      decreases |s| - idx
    {
      var piece, next := EscapeNext(s, idx);
      AppendAssoc(buffer, piece, EscapeFrom(s, next));
      buffer := buffer + piece;
      idx := next;
    }
  }

  /** `writeEscaped`: no quotes, the string in single quotes as it is, or the escape in double quotes. */
  method WriteEscaped(s: JString) returns (out: JString)
    ensures out == Written(s)
  {
    var quoting := RequiresQuotes(s);
    if quoting == NoQuotes {
      return s;
    }
    if quoting == Single {
      return [QUOTE] + s + [QUOTE];
    }
    var body := EscapeLoop(s);
    out := [DQUOTE] + body + [DQUOTE];
  }

  // ---------------------------------------------------------------------------
  // Reading a scalar back

  /** The escapes of section 5.7 of YAML 1.2 that stand for one fixed character: the escaped letter to that character. */
  function NamedUnescape(u: int): Option<int> {
    if u == 0x30 then Some(0x00)
    else if u == 0x61 then Some(0x07)
    else if u == 0x62 then Some(0x08)
    else if u == 0x74 || u == 0x09 then Some(0x09)
    else if u == 0x6E then Some(0x0A)
    else if u == 0x76 then Some(0x0B)
    else if u == 0x66 then Some(0x0C)
    else if u == 0x72 then Some(0x0D)
    else if u == 0x65 then Some(0x1B)
    else if u == 0x20 then Some(0x20)
    else if u == 0x22 then Some(0x22)
    else if u == 0x2F then Some(0x2F)
    else if u == 0x5C then Some(0x5C)
    else if u == 0x4E then Some(0x85)
    else if u == 0x5F then Some(0xA0)
    else if u == 0x4C then Some(0x2028)
    else if u == 0x50 then Some(0x2029)
    else None
  }

  /** The number of hexadecimal digits after `\x`, `\u` and `\U`; 0 after any other letter. */
  function HexWidth(u: int): nat {
    if u == 0x78 then 2 else if u == 0x75 then 4 else if u == 0x55 then 8 else 0
  }

  /**
   * The body of a double-quoted scalar up to its closing quote, which must
   * end the text: escapes become the code points they stand for, any other
   * unit stands for itself. A raw line break (which YAML would fold) is not
   * accepted.
   */
  function ReadDouble(t: JString): Option<seq<int>>
    decreases |t|
  {
    if t == [] then None
    else if t[0] == DQUOTE then (if |t| == 1 then Some([]) else None)
    else if t[0] == BACKSLASH then
      if |t| < 2 then None
      else
        var n := HexWidth(t[1]);
        if n > 0 then
          if |t| >= 2 + n && forall k :: 2 <= k < 2 + n ==> IsDigit(t[k], 16) then
            var rest :- ReadDouble(t[2 + n..]);
            Some([ParseNumeral(t[2..2 + n], 16)] + rest)
          else None
        else
          var cp :- NamedUnescape(t[1]);
          var rest :- ReadDouble(t[2..]);
          Some([cp] + rest)
    else if t[0] == LF || t[0] == CR then None
    else
      var rest :- ReadDouble(t[1..]);
      Some([t[0] as int] + rest)
  }

  /** The body of a single-quoted scalar up to its closing quote, which must end the text; `''` stands for one quote. */
  function ReadSingle(t: JString): Option<seq<int>>
    decreases |t|
  {
    if t == [] then None
    else if t[0] == QUOTE then
      if |t| == 1 then Some([])
      else if t[1] == QUOTE then
        var rest :- ReadSingle(t[2..]);
        Some([QUOTE as int] + rest)
      else None
    else if t[0] == LF || t[0] == CR then None
    else
      var rest :- ReadSingle(t[1..]);
      Some([t[0] as int] + rest)
  }

  /**
   * A plain scalar as this reader accepts it (a cautious part of what
   * section 7.3.3 of YAML 1.2 allows): not empty, printable ASCII with no
   * quote, backslash or listed indicator, not starting with a backquote
   * (rule [126] lets no indicator start a plain scalar), no space at either
   * end, not starting with `---` and not ending with `...`.
   */
  predicate IsPlain(t: JString) {
    && t != []
    && (forall k :: 0 <= k < |t| ==> 0x20 <= t[k] <= 0x7E && !IsIndicator(t[k]) && t[k] != DQUOTE && t[k] != QUOTE && t[k] != BACKSLASH)
    && t[0] != BACKQUOTE
    && t[0] != SPACE && t[|t| - 1] != SPACE
    && !(|t| >= 3 && t[0] == t[1] == t[2] == HYPHEN) && !(|t| >= 3 && t[|t| - 3] == t[|t| - 2] == t[|t| - 1] == PERIOD)
  }

  /** The code points a YAML reader takes from a scalar written as `t`; `None` when `t` is no scalar this reader accepts. */
  function ReadScalar(t: JString): Option<seq<int>> {
    if t == [] then None
    else if t[0] == QUOTE then ReadSingle(t[1..])
    else if t[0] == DQUOTE then ReadDouble(t[1..])
    else if IsPlain(t) then Some(t)
    else None
  }

  /** A named escape reads back as its code point, and its letter starts no hexadecimal escape. */
  lemma NamedEscapeInverse(cp: int)
    requires NamedEscape(cp).Some?
    ensures HexWidth(NamedEscape(cp).value) == 0
    ensures NamedUnescape(NamedEscape(cp).value) == Some(cp)
  {
  }

  /** A hexadecimal escape of `width` digits, for a code point that fits in them, reads back as that code point. */
  lemma ReadHexEscape(letter: CodeUnit, cp: nat, width: nat, rest: JString, r: seq<int>)
    requires HexWidth(letter) == width && 1 <= width && cp < Pow16(width)
    requires ReadDouble(rest) == Some(r)
    ensures ReadDouble(HexEscape(letter, cp, width) + rest) == Some([cp] + r)
  {
    var digits := HexPad(cp, width);
    var t := HexEscape(letter, cp, width) + rest;
    HexPadLength(cp, width);
    HexPadDigits(cp, width);
    HexPadRoundTrip(cp, width);
    assert t == [BACKSLASH, letter] + digits + rest;
    assert t[2..2 + width] == digits;
    assert t[2 + width..] == rest;
    assert forall k :: 2 <= k < 2 + width ==> t[k] == digits[k - 2];
  }

  /** The escape of one code point, in front of what follows, reads back as that code point in front of what follows. */
  lemma ReadEscapedCodePoint(cp: int, rest: JString, r: seq<int>)
    requires 0 <= cp <= 0x10FFFF
    requires ReadDouble(rest) == Some(r)
    ensures ReadDouble(EscapeCodePoint(cp) + rest) == Some([cp] + r)
  {
    var t := EscapeCodePoint(cp) + rest;
    match NamedEscape(cp)
    case Some(letter) =>
      NamedEscapeInverse(cp);
      assert t == [BACKSLASH, letter] + rest && t[2..] == rest;
    case None =>
      if cp < 0x20 {
        ReadHexEscape(0x78, cp, 2, rest, r);
      } else if cp <= 0x7E {
        assert t == [cp] + rest && t[1..] == rest;
      } else if cp <= 0xFF {
        ReadHexEscape(0x78, cp, 2, rest, r);
      } else if cp <= 0xFFFF {
        ReadHexEscape(0x75, cp, 4, rest, r);
      } else {
        ReadHexEscape(0x55, cp, 8, rest, r);
      }
  }

  /** The escape of a run of code points, then the closing quote, reads back as the run. */
  lemma {:induction false} ReadEscapedCodePoints(cps: seq<int>)
    requires forall k :: 0 <= k < |cps| ==> 0 <= cps[k] <= 0x10FFFF
    ensures ReadDouble(EscapeCodePoints(cps) + [DQUOTE]) == Some(cps)
    decreases |cps|
  {
    if cps == [] {
      assert EscapeCodePoints(cps) + [DQUOTE] == [DQUOTE];
    } else {
      ReadEscapedCodePoints(cps[1..]);
      ReadEscapedCodePoint(cps[0], EscapeCodePoints(cps[1..]) + [DQUOTE], cps[1..]);
      assert EscapeCodePoints(cps) == EscapeCodePoint(cps[0]) + EscapeCodePoints(cps[1..]);
      AppendAssoc(EscapeCodePoint(cps[0]), EscapeCodePoints(cps[1..]), [DQUOTE]);
      assert [cps[0]] + cps[1..] == cps;
    }
  }

  /** Text without quotes or line breaks, then the closing quote, reads back as itself. */
  lemma {:induction false} ReadSingleOf(s: JString)
    requires forall k :: 0 <= k < |s| ==> s[k] != QUOTE && s[k] != LF && s[k] != CR
    ensures ReadSingle(s + [QUOTE]) == Some(s)
    decreases |s|
  {
    var t := s + [QUOTE];
    if s == [] {
      assert t == [QUOTE];
    } else {
      ReadSingleOf(s[1..]);
      assert t[1..] == s[1..] + [QUOTE];
      assert [s[0] as int] + s[1..] == s;
    }
  }

  /** A string no unit of which needs an escape has no surrogate, so it is its own code points. */
  lemma CodePointsOfUnescaped(s: JString)
    requires forall k :: 0 <= k < |s| ==> !NeedsEscape(s[k])
    ensures CodePoints(s) == s
  {
    CodePointsOfBmp(s);
  }

  /** A value that needs no quotes is read back as a plain scalar. */
  lemma PlainRoundTrip(s: JString)
    requires Classify(s) == NoQuotes
    ensures ReadScalar(s) == Some(s)
  {
    assert !NeedsEscape(s[0]) && !AsksSingle(s[0]);
    assert IsPlain(s);
  }

  /** A value in single quotes is read back unchanged: it holds no quote to double. */
  lemma SingleRoundTrip(s: JString)
    requires Classify(s) == Single
    ensures ReadScalar([QUOTE] + s + [QUOTE]) == Some(s)
  {
    var w := [QUOTE] + s + [QUOTE];
    assert w[0] == QUOTE && w[1..] == s + [QUOTE];
    ReadSingleOf(s);
  }

  /** A value in double quotes is read back as its code points. */
  lemma DoubleRoundTrip(s: JString)
    ensures ReadScalar([DQUOTE] + EscapeAll(s) + [DQUOTE]) == Some(CodePoints(s))
  {
    var w := [DQUOTE] + EscapeAll(s) + [DQUOTE];
    assert w[0] == DQUOTE && w[1..] == EscapeAll(s) + [DQUOTE];
    ReadEscapedCodePoints(CodePoints(s));
  }

  /**
   * Whatever the value, a YAML reader takes back from what `writeEscaped`
   * writes exactly the code points of the value, and encoding them again in
   * UTF-16 gives back the value itself.
   */
  lemma ScalarRoundTrip(s: JString)
    ensures ReadScalar(Written(s)) == Some(CodePoints(s))
    ensures Utf16s(CodePoints(s)) == s
  {
    CodePointsUtf16(s);
    var q := Classify(s);
    if q == NoQuotes {
      CodePointsOfUnescaped(s);
      PlainRoundTrip(s);
    } else if q == Single {
      CodePointsOfUnescaped(s);
      SingleRoundTrip(s);
    } else {
      DoubleRoundTrip(s);
    }
  }

  // ---------------------------------------------------------------------------
  // The classification as the source writes it

  /** `requiresQuotes` as written: its indicator list has no backquote. */
  function ClassifyAsWritten(s: JString): Quoting {
    if exists k :: 0 <= k < |s| && NeedsEscape(s[k]) then Double
    else if s == [] || Framed(s) || exists k :: 0 <= k < |s| && IsIndicator(s[k]) then Single
    else NoQuotes
  }

  /** `writeEscaped` over the classification as written. */
  function WrittenAsWritten(s: JString): JString {
    match ClassifyAsWritten(s)
    case NoQuotes => s
    case Single => [QUOTE] + s + [QUOTE]
    case Double => [DQUOTE] + EscapeAll(s) + [DQUOTE]
  }

  /** The correction changes nothing for a value without a backquote. */
  lemma CorrectionOnlyBackquote(s: JString)
    requires forall k :: 0 <= k < |s| ==> s[k] != BACKQUOTE
    ensures ClassifyAsWritten(s) == Classify(s)
    ensures WrittenAsWritten(s) == Written(s)
  {
    assert (exists k :: 0 <= k < |s| && IsIndicator(s[k])) <==> (exists k :: 0 <= k < |s| && AsksSingle(s[k]));
  }

  /**
   * As written, a value starting with a backquote and holding nothing else
   * that asks for quotes goes unquoted, and a YAML reader rejects it as a
   * plain scalar: "`a" is written as it is and does not read back. The
   * corrected classification single-quotes it, and it reads back.
   */
  lemma BackquoteAsWritten()
    ensures WrittenAsWritten([BACKQUOTE, 0x61]) == [BACKQUOTE, 0x61]
    ensures ReadScalar(WrittenAsWritten([BACKQUOTE, 0x61])) == None
    ensures Written([BACKQUOTE, 0x61]) == [QUOTE, BACKQUOTE, 0x61, QUOTE]
    ensures ReadScalar(Written([BACKQUOTE, 0x61])) == Some([BACKQUOTE, 0x61])
  {
    var v: JString := [BACKQUOTE, 0x61];
    assert !NeedsEscape(v[0]) && !NeedsEscape(v[1]);
    assert !IsIndicator(v[0]) && !IsIndicator(v[1]);
    assert !Framed(v);
    assert ClassifyAsWritten(v) == NoQuotes;
    assert AsksSingle(v[0]);
    assert Classify(v) == Single;
    assert [QUOTE] + v + [QUOTE] == [QUOTE, BACKQUOTE, 0x61, QUOTE];
    ScalarRoundTrip(v);
    CodePointsOfUnescaped(v);
  }

  /** Every unit of an escaped code point is printable ASCII. */
  lemma EscapeCodePointPrintable(cp: int)
    requires 0 <= cp <= 0x10FFFF
    ensures forall k :: 0 <= k < |EscapeCodePoint(cp)| ==> 0x20 <= EscapeCodePoint(cp)[k] <= 0x7E
  {
    if NamedEscape(cp).None? && !(0x20 <= cp <= 0x7E) {
      var width := if cp <= 0xFF then 2 else if cp <= 0xFFFF then 4 else 8;
      HexPadDigits(cp, width);
    }
  }

  lemma {:induction false} EscapeCodePointsPrintable(cps: seq<int>)
    requires forall k :: 0 <= k < |cps| ==> 0 <= cps[k] <= 0x10FFFF
    ensures forall k :: 0 <= k < |EscapeCodePoints(cps)| ==> 0x20 <= EscapeCodePoints(cps)[k] <= 0x7E
    decreases |cps|
  {
    if cps != [] {
      EscapeCodePointPrintable(cps[0]);
      EscapeCodePointsPrintable(cps[1..]);
    }
  }

  /**
   * A written value is printable ASCII throughout, so it never breaks the
   * line `writeln` puts it on, whatever the value holds.
   */
  lemma WrittenPrintable(s: JString)
    ensures forall k :: 0 <= k < |Written(s)| ==> 0x20 <= Written(s)[k] <= 0x7E
  {
    if Classify(s) == Double {
      EscapeCodePointsPrintable(CodePoints(s));
    }
  }

  // ---------------------------------------------------------------------------
  // Lines

  const FORMAT_VERSION: nat := 1
  const INDENT_4: JString := Lit("    ")
  const INDENT_8: JString := Lit("        ")

  /** The indent of a line, none when it is `null`. */
  function Indent(indent: Option<JString>): JString {
    match indent
    case None => []
    case Some(i) => i
  }

  /** `writeln(writer, indent, str, val)` for a number: the indent, the caption, the decimal digits. */
  function NumberLine(indent: Option<JString>, caption: JString, n: nat): JString {
    Text.NumberLine(Indent(indent) + caption, n)
  }

  /** `writeln(writer, str, val)` for a string: the caption and the written value, or no line at all when the value is `null`. */
  function ValueLines(caption: JString, val: Option<JString>): seq<JString> {
    match val
    case None => []
    case Some(v) => [caption + Written(v)]
  }

  /** What a YAML reader takes from a line holding `caption` and a scalar. */
  function ReadValueLine(caption: JString, line: JString): Option<seq<int>> {
    var t :- Expect(caption, line);
    ReadScalar(t)
  }

  /**
   * A `null` value leaves no line; any other value gives one line, which
   * reads back as the value's code points after the caption and is
   * printable ASCII after it.
   */
  lemma ValueLinesRoundTrip(caption: JString, val: Option<JString>)
    ensures |ValueLines(caption, val)| == if val.None? then 0 else 1
    ensures val.Some? ==> ReadValueLine(caption, ValueLines(caption, val)[0]) == Some(CodePoints(val.value))
  {
    if val.Some? {
      ExpectOf(caption, Written(val.value));
      ScalarRoundTrip(val.value);
    }
  }

  /** The captions of a counts block, in the order written. */
  function CountCaptions(): seq<JString> {
    [Lit("totalLines: "), Lit("codeLines: "), Lit("commentLines: "), Lit("blankLines: ")]
  }

  /** `writeCounts`: the total, code, comment and blank lines, each under the indent. */
  function CountsLines(indent: Option<JString>, c: Counts): seq<JString> {
    [ NumberLine(indent, Lit("totalLines: "), c.Total()), NumberLine(indent, Lit("codeLines: "), c.code),
      NumberLine(indent, Lit("commentLines: "), c.comment), NumberLine(indent, Lit("blankLines: "), c.blank) ]
  }

  /** A counts block reads back, line by line, as the total, code, comment and blank lines, and the total is the sum of the other three. */
  lemma CountsLinesRoundTrip(indent: Option<JString>, c: Counts)
    ensures var r := CountsLines(indent, c);
      var numbers := [c.Total(), c.code, c.comment, c.blank];
      && |r| == 4
      && (forall k :: 0 <= k < 4 ==> Text.ReadNumberLine(Indent(indent) + CountCaptions()[k], r[k]) == Some(numbers[k]))
      && numbers[0] == numbers[1] + numbers[2] + numbers[3]
  {
    var numbers := [c.Total(), c.code, c.comment, c.blank];
    forall k | 0 <= k < 4
      ensures Text.NumberLine(Indent(indent) + CountCaptions()[k], numbers[k]) == CountsLines(indent, c)[k]
      ensures Text.ReadNumberLine(Indent(indent) + CountCaptions()[k], CountsLines(indent, c)[k]) == Some(numbers[k])
    {
      Text.NumberLineRoundTrip(Indent(indent) + CountCaptions()[k], numbers[k]);
    }
  }

  /** The header after `---`: the format version, the date, the project's name and version, and the numbers of files, unrecognized files and languages. */
  function HeaderLines(date: JString, projectName: JString, version: JString, numFiles: nat, numUnrecognized: nat, numLanguages: nat): seq<JString> {
    [NumberLine(None, Lit("formatVersion: "), FORMAT_VERSION)]
      + ValueLines(Lit("date: "), Some(date)) + ValueLines(Lit("projectName: "), Some(projectName))
      + ValueLines(Lit("projectVersion: "), Some(version))
      + [ NumberLine(None, Lit("numFiles: "), numFiles), NumberLine(None, Lit("numUnrecognized: "), numUnrecognized),
          NumberLine(None, Lit("numLanguages: "), numLanguages) ]
  }

  /** A value line reads back as the value's code points after its caption. */
  lemma ValueLineRoundTrip(caption: JString, v: JString)
    ensures ReadValueLine(caption, caption + Written(v)) == Some(CodePoints(v))
  {
    ExpectOf(caption, Written(v));
    ScalarRoundTrip(v);
  }

  /** A number line with no indent reads back as its number after its caption. */
  lemma NumberLineRoundTrip(caption: JString, n: nat)
    ensures Text.ReadNumberLine(caption, NumberLine(None, caption, n)) == Some(n)
  {
    assert [] + caption == caption;
    Text.NumberLineRoundTrip(caption, n);
  }

  /**
   * The header is seven lines, none of them left out: the format version,
   * the date, the project's name and version, then the numbers of files,
   * of unrecognized files and of languages.
   */
  lemma HeaderList(date: JString, projectName: JString, version: JString, numFiles: nat, numUnrecognized: nat, numLanguages: nat)
    ensures HeaderLines(date, projectName, version, numFiles, numUnrecognized, numLanguages)
      == [ NumberLine(None, Lit("formatVersion: "), FORMAT_VERSION), Lit("date: ") + Written(date),
           Lit("projectName: ") + Written(projectName), Lit("projectVersion: ") + Written(version),
           NumberLine(None, Lit("numFiles: "), numFiles), NumberLine(None, Lit("numUnrecognized: "), numUnrecognized),
           NumberLine(None, Lit("numLanguages: "), numLanguages) ]
  {
  }

  /** The header's number lines, the format version and the three tallies, read back as the numbers they were written from. */
  lemma HeaderNumbersRoundTrip(date: JString, projectName: JString, version: JString, numFiles: nat, numUnrecognized: nat, numLanguages: nat)
    ensures var h := HeaderLines(date, projectName, version, numFiles, numUnrecognized, numLanguages);
      && |h| == 7
      && Text.ReadNumberLine(Lit("formatVersion: "), h[0]) == Some(FORMAT_VERSION)
      && Text.ReadNumberLine(Lit("numFiles: "), h[4]) == Some(numFiles)
      && Text.ReadNumberLine(Lit("numUnrecognized: "), h[5]) == Some(numUnrecognized)
      && Text.ReadNumberLine(Lit("numLanguages: "), h[6]) == Some(numLanguages)
  {
    HeaderList(date, projectName, version, numFiles, numUnrecognized, numLanguages);
    NumberLineRoundTrip(Lit("formatVersion: "), FORMAT_VERSION);
    NumberLineRoundTrip(Lit("numFiles: "), numFiles);
    NumberLineRoundTrip(Lit("numUnrecognized: "), numUnrecognized);
    NumberLineRoundTrip(Lit("numLanguages: "), numLanguages);
  }

  // ---------------------------------------------------------------------------
  // Languages

  /** The lines of a language before its counts: name, display name, and the description and website when they are not `null`. */
  function LanguageHead(language: Language): seq<JString> {
    ValueLines(Lit("  - name: "), Some(language.name)) + ValueLines(Lit("    displayName: "), Some(language.displayName))
      + ValueLines(Lit("    description: "), language.description) + ValueLines(Lit("    website: "), language.website)
  }

  /** One language of `writeLanguages`: its head, then its counts under four spaces. */
  function LanguageBlock(language: Language, c: Counts): seq<JString> {
    LanguageHead(language) + CountsLines(Some(INDENT_4), c)
  }

  /**
   * A language's head: the name and the display name first, then one line
   * for the description and one for the website exactly when the language
   * has them, each its caption followed by the written value.
   */
  lemma LanguageHeadShape(language: Language)
    ensures var h := LanguageHead(language);
      var d := if language.description.Some? then 1 else 0;
      var w := if language.website.Some? then 1 else 0;
      && |h| == 2 + d + w
      && h[0] == Lit("  - name: ") + Written(language.name)
      && h[1] == Lit("    displayName: ") + Written(language.displayName)
      && (language.description.Some? ==> h[2] == Lit("    description: ") + Written(language.description.value))
      && (language.website.Some? ==> h[2 + d] == Lit("    website: ") + Written(language.website.value))
  {
    var nameLine := Lit("  - name: ") + Written(language.name);
    var displayLine := Lit("    displayName: ") + Written(language.displayName);
    var descLines := ValueLines(Lit("    description: "), language.description);
    var webLines := ValueLines(Lit("    website: "), language.website);
    assert LanguageHead(language) == [nameLine, displayLine] + descLines + webLines;
  }

  /** The blocks of the languages, in the order given. */
  function LanguageBlocks(languages: seq<Language>, languageCounts: map<Language, Counts>): seq<JString>
    requires forall l :: l in languages ==> l in languageCounts
  {
    if languages == [] then []
    else
      var n := |languages| - 1;
      LanguageBlocks(languages[..n], languageCounts) + LanguageBlock(languages[n], languageCounts[languages[n]])
  }

  /** `writeLanguages`: `languages:`, then the blocks. */
  function LanguagesSection(languages: seq<Language>, languageCounts: map<Language, Counts>): seq<JString>
    requires forall l :: l in languages ==> l in languageCounts
  {
    [Lit("languages:")] + LanguageBlocks(languages, languageCounts)
  }

  /** One language's lines, from its `writeln` calls. */
  method WriteLanguageBlock(language: Language, c: Counts) returns (lines: seq<JString>)
    ensures lines == LanguageBlock(language, c)
  {
    var name := Writeln(Lit("  - name: "), Some(language.name));
    var displayName := Writeln(Lit("    displayName: "), Some(language.displayName));
    var description := Writeln(Lit("    description: "), language.description);
    var website := Writeln(Lit("    website: "), language.website);
    lines := name + displayName + description + website + CountsLines(Some(INDENT_4), c);
  }

  /** The loop of `writeLanguages` over the sorted languages. */
  method WriteLanguageBlocks(languages: seq<Language>, languageCounts: map<Language, Counts>) returns (lines: seq<JString>)
    requires forall l :: l in languages ==> l in languageCounts
    ensures lines == LanguageBlocks(languages, languageCounts)
  {
    lines := [];
    for i := 0 to |languages|
      invariant lines == LanguageBlocks(languages[..i], languageCounts)
    {
      assert languages[..i + 1][..i] == languages[..i];
      var block := WriteLanguageBlock(languages[i], languageCounts[languages[i]]);
      lines := lines + block;
    }
    assert languages[..|languages|] == languages;
  }

  /** `writeln(writer, str, val)` for a string value. */
  method Writeln(caption: JString, val: Option<JString>) returns (lines: seq<JString>)
    ensures lines == ValueLines(caption, val)
  {
    if val.None? {
      return [];
    }
    var escaped := WriteEscaped(val.value);
    lines := [caption + escaped];
  }

  /** `writeLanguages`: the per-language totals, in display-name order. */
  method WriteLanguages(pc: PathCounts) returns (lines: seq<JString>)
    requires InjectiveOn(Languages(pc), DisplayName)
    ensures lines == LanguagesSection(SortedOrder(Languages(pc), DisplayName), LanguageCounts(pc))
  {
    var languageCounts := ComputeLanguageCounts(pc);
    var languages := Sort(languageCounts.Keys, DisplayName);
    var blocks := WriteLanguageBlocks(languages, languageCounts);
    lines := [Lit("languages:")] + blocks;
  }

  // ---------------------------------------------------------------------------
  // Files

  /** One language of a file: its name and its counts in the file under eight spaces. */
  function FileLanguageBlock(language: Language, c: Counts): seq<JString> {
    ValueLines(Lit("      - name: "), Some(language.name)) + CountsLines(Some(INDENT_8), c)
  }

  /** Blocks of lines, one after another. */
  function Concat<T>(blocks: seq<seq<T>>): seq<T> {
    if blocks == [] then [] else Concat(blocks[..|blocks| - 1]) + blocks[|blocks| - 1]
  }

  /** One block more at the end adds its lines at the end. */
  lemma ConcatPrefix<T>(blocks: seq<seq<T>>, i: nat)
    requires i < |blocks|
    ensures Concat(blocks[..i + 1]) == Concat(blocks[..i]) + blocks[i]
  {
    assert blocks[..i + 1][..i] == blocks[..i];
  }

  /** With five lines to a block, the k-th block is lines 5k to 5k+4. */
  lemma {:induction false} ConcatOfFives<T>(blocks: seq<seq<T>>)
    requires forall k :: 0 <= k < |blocks| ==> |blocks[k]| == 5
    ensures |Concat(blocks)| == 5 * |blocks|
    ensures forall k :: 0 <= k < |blocks| ==> Concat(blocks)[5 * k..5 * k + 5] == blocks[k]
    decreases |blocks|
  {
    if blocks != [] {
      var n := |blocks| - 1;
      var init := blocks[..n];
      ConcatOfFives(init);
      var r0 := Concat(init);
      assert Concat(blocks) == r0 + blocks[n];
      forall k | 0 <= k < |blocks|
        ensures Concat(blocks)[5 * k..5 * k + 5] == blocks[k]
      {
        if k < n {
          assert blocks[k] == init[k];
          Text.SliceOfFront(r0, blocks[n], 5 * k, 5 * k + 5);
        } else {
          Text.SliceOfBack(r0, blocks[n]);
        }
      }
    }
  }

  /** The blocks of a file's languages, in the order given. */
  function FileLanguageBlocks(languages: seq<Language>, langCounts: map<Language, Counts>): (r: seq<seq<JString>>)
    requires forall l :: l in languages ==> l in langCounts
    ensures |r| == |languages|
  {
    seq(|languages|, k requires 0 <= k < |languages| => FileLanguageBlock(languages[k], langCounts[languages[k]]))
  }

  /** The languages of a file, in the order given. */
  function FileLanguageLines(languages: seq<Language>, langCounts: map<Language, Counts>): seq<JString>
    requires forall l :: l in languages ==> l in langCounts
  {
    Concat(FileLanguageBlocks(languages, langCounts))
  }

  /** A file's language: five lines, its name read back, then its counts under eight spaces. */
  lemma FileLanguageBlockShape(language: Language, c: Counts)
    ensures var b := FileLanguageBlock(language, c);
      && |b| == 5
      && ReadValueLine(Lit("      - name: "), b[0]) == Some(CodePoints(language.name))
      && b[1..] == CountsLines(Some(INDENT_8), c)
  {
    var line := Lit("      - name: ") + Written(language.name);
    assert FileLanguageBlock(language, c) == [line] + CountsLines(Some(INDENT_8), c);
    ValueLineRoundTrip(Lit("      - name: "), language.name);
  }

  /** The k-th language of a file is lines 5k to 5k+4: its name, read back, then its counts. */
  lemma FileLanguageLinesShape(languages: seq<Language>, langCounts: map<Language, Counts>)
    requires forall l :: l in languages ==> l in langCounts
    ensures var r := FileLanguageLines(languages, langCounts);
      && |r| == 5 * |languages|
      && forall k :: 0 <= k < |languages| ==>
           && ReadValueLine(Lit("      - name: "), r[5 * k]) == Some(CodePoints(languages[k].name))
           && r[5 * k + 1..5 * k + 5] == CountsLines(Some(INDENT_8), langCounts[languages[k]])
  {
    var r := FileLanguageLines(languages, langCounts);
    var blocks := FileLanguageBlocks(languages, langCounts);
    forall k | 0 <= k < |blocks| ensures |blocks[k]| == 5 {
      FileLanguageBlockShape(languages[k], langCounts[languages[k]]);
    }
    ConcatOfFives(blocks);
    forall k | 0 <= k < |languages|
      ensures ReadValueLine(Lit("      - name: "), r[5 * k]) == Some(CodePoints(languages[k].name))
      ensures r[5 * k + 1..5 * k + 5] == CountsLines(Some(INDENT_8), langCounts[languages[k]])
    {
      var b := r[5 * k..5 * k + 5];
      assert b == blocks[k] == FileLanguageBlock(languages[k], langCounts[languages[k]]);
      FileLanguageBlockShape(languages[k], langCounts[languages[k]]);
      assert r[5 * k] == b[0];
      assert r[5 * k + 1..5 * k + 5] == b[1..];
    }
  }

  /** A file of `writeFiles`: its path name, its number of languages, its counts, `languages:` and its languages. */
  function FileBlock(pathname: JString, numLanguages: nat, c: Counts, languageLines: seq<JString>): seq<JString> {
    ValueLines(Lit("  - pathname: "), Some(pathname)) + [NumberLine(None, Lit("    numLanguages: "), numLanguages)]
      + CountsLines(Some(INDENT_4), c) + [Lit("    languages:")] + languageLines
  }

  /** A file's block: the path name line, the number of languages read back, the counts under four spaces, `languages:`, then the languages. */
  lemma FileBlockShape(pathname: JString, numLanguages: nat, c: Counts, languageLines: seq<JString>)
    ensures var b := FileBlock(pathname, numLanguages, c, languageLines);
      && |b| == 7 + |languageLines|
      && b[0] == Lit("  - pathname: ") + Written(pathname)
      && Text.ReadNumberLine(Lit("    numLanguages: "), b[1]) == Some(numLanguages)
      && b[2..6] == CountsLines(Some(INDENT_4), c)
      && b[6] == Lit("    languages:")
      && b[7..] == languageLines
  {
    assert [] + Lit("    numLanguages: ") == Lit("    numLanguages: ");
    Text.NumberLineRoundTrip(Lit("    numLanguages: "), numLanguages);
    var b := FileBlock(pathname, numLanguages, c, languageLines);
    var counts := CountsLines(Some(INDENT_4), c);
    assert b == ValueLines(Lit("  - pathname: "), Some(pathname)) + [NumberLine(None, Lit("    numLanguages: "), numLanguages)] + counts + [Lit("    languages:")] + languageLines;
    assert b[2..6] == counts;
    assert b[7..] == languageLines;
  }

  /** A file's block as the report writes it: its relativized path, its languages in display-name order. */
  ghost function FileBlockOf(p: Path, pc: PathCounts, fileCounts: map<Path, Counts>, relativize: Path -> JString): seq<JString>
    requires p in pc && p in fileCounts
  {
    FileBlock(relativize(p), |pc[p]|, fileCounts[p], FileLanguageLines(SortedOrder(pc[p].Keys, DisplayName), pc[p]))
  }

  /** The blocks of the files, in the order given. */
  ghost function FileBlocks(paths: seq<Path>, pc: PathCounts, fileCounts: map<Path, Counts>, relativize: Path -> JString): seq<JString>
    requires forall p :: p in paths ==> p in pc && p in fileCounts
  {
    if paths == [] then []
    else
      var n := |paths| - 1;
      FileBlocks(paths[..n], pc, fileCounts, relativize) + FileBlockOf(paths[n], pc, fileCounts, relativize)
  }

  /** `writeFiles`: `files:`, then the blocks. */
  ghost function FilesSection(paths: seq<Path>, pc: PathCounts, fileCounts: map<Path, Counts>, relativize: Path -> JString): seq<JString>
    requires forall p :: p in paths ==> p in pc && p in fileCounts
  {
    [Lit("files:")] + FileBlocks(paths, pc, fileCounts, relativize)
  }

  /** The inner loop of `writeFiles`, over a file's sorted languages. */
  method WriteFileLanguageLines(languages: seq<Language>, langCounts: map<Language, Counts>) returns (lines: seq<JString>)
    requires forall l :: l in languages ==> l in langCounts
    ensures lines == FileLanguageLines(languages, langCounts)
  {
    lines := [];
    ghost var blocks := FileLanguageBlocks(languages, langCounts);
    for i := 0 to |languages|
      invariant lines == Concat(blocks[..i])
    {
      var name := Writeln(Lit("      - name: "), Some(languages[i].name));
      ConcatPrefix(blocks, i);
      lines := lines + (name + CountsLines(Some(INDENT_8), langCounts[languages[i]]));
    }
    assert blocks[..|languages|] == blocks;
  }

  /** The body of the file loop; `relativize` stands for relativizing against the root project directory. */
  method WriteFileBlock(p: Path, pc: PathCounts, fileCounts: map<Path, Counts>, relativize: Path -> JString)
    returns (block: seq<JString>)
    requires p in pc && p in fileCounts
    requires InjectiveOn(pc[p].Keys, DisplayName)
    ensures block == FileBlockOf(p, pc, fileCounts, relativize)
  {
    var langCounts := pc[p];
    var pathname := Writeln(Lit("  - pathname: "), Some(relativize(p)));
    var languages := Sort(langCounts.Keys, DisplayName);
    var languageLines := WriteFileLanguageLines(languages, langCounts);
    block := pathname + [NumberLine(None, Lit("    numLanguages: "), |langCounts|)]
      + CountsLines(Some(INDENT_4), fileCounts[p]) + [Lit("    languages:")] + languageLines;
  }

  /** The loop of `writeFiles` over the sorted paths. */
  method WriteFileBlocks(paths: seq<Path>, pc: PathCounts, fileCounts: map<Path, Counts>, relativize: Path -> JString)
    returns (lines: seq<JString>)
    requires forall p :: p in paths ==> p in pc && p in fileCounts
    requires InjectiveOn(Languages(pc), DisplayName)
    ensures lines == FileBlocks(paths, pc, fileCounts, relativize)
  {
    lines := [];
    for i := 0 to |paths|
      invariant lines == FileBlocks(paths[..i], pc, fileCounts, relativize)
    {
      FileLanguagesInjective(pc, paths[i]);
      var block := WriteFileBlock(paths[i], pc, fileCounts, relativize);
      FileBlocksSnoc(paths, i, pc, fileCounts, relativize);
      lines := lines + block;
    }
    assert paths[..|paths|] == paths;
  }

  lemma FileBlocksSnoc(paths: seq<Path>, i: nat, pc: PathCounts, fileCounts: map<Path, Counts>, relativize: Path -> JString)
    requires i < |paths|
    requires forall p :: p in paths ==> p in pc && p in fileCounts
    ensures FileBlocks(paths[..i + 1], pc, fileCounts, relativize)
      == FileBlocks(paths[..i], pc, fileCounts, relativize) + FileBlockOf(paths[i], pc, fileCounts, relativize)
  {
    assert paths[..i + 1][..i] == paths[..i];
  }

  /** `writeFiles`: every file in path order; each file's counts are looked up without a default, so every file must be recognized. */
  method WriteFiles(pc: PathCounts, relativize: Path -> JString) returns (lines: seq<JString>)
    requires AllRecognized(pc)
    requires InjectiveOn(Languages(pc), DisplayName)
    ensures AllRecognized(pc) && FileCounts(pc).Keys == pc.Keys
    ensures lines == FilesSection(SortedOrder(pc.Keys, PathKey), pc, FileCounts(pc), relativize)
  {
    var fileCounts := ComputeFileCounts(pc);
    var paths := Sort(pc.Keys, PathKey);
    PathKeyInjective(pc.Keys);
    AllRecognizedFileCounts(pc);
    var blocks := WriteFileBlocks(paths, pc, fileCounts, relativize);
    lines := [Lit("files:")] + blocks;
  }

  // ---------------------------------------------------------------------------
  // The report

  /** The report of a counts map in which every file has a recognized language. */
  ghost function Report(pc: PathCounts, date: JString, projectName: JString, version: JString, relativize: Path -> JString): seq<JString>
    requires AllRecognized(pc)
  {
    AllRecognizedFileCounts(pc);
    Document(
      HeaderLines(date, projectName, version, |pc|, |Unrecognized(pc)|, |Languages(pc)|),
      CountsLines(None, TotalCounts(pc)),
      LanguagesSection(SortedOrder(Languages(pc), DisplayName), LanguageCounts(pc)),
      FilesSection(SortedOrder(pc.Keys, PathKey), pc, FileCounts(pc), relativize))
  }

  /** One YAML document: `---`, the header, the totals, the languages, the files, `...`. */
  function Document(header: seq<JString>, counts: seq<JString>, languageLines: seq<JString>, fileLines: seq<JString>): seq<JString> {
    [Lit("---")] + header + counts + languageLines + fileLines + [Lit("...")]
  }

  /** Where the parts of a document sit: `---`, seven header lines, four count lines, the languages and the files, `...`. */
  lemma DocumentLayout(header: seq<JString>, counts: seq<JString>, ls: seq<JString>, fs: seq<JString>)
    requires |header| == 7 && |counts| == 4 && |ls| >= 1 && |fs| >= 1
    ensures var r := Document(header, counts, ls, fs);
      && |r| == 14 + |ls| + |fs| - 1
      && r[0] == Lit("---") && r[|r| - 1] == Lit("...")
      && r[1..8] == header && r[8..12] == counts
      && r[12] == ls[0] && r[12 + |ls|] == fs[0]
  {
    var r := Document(header, counts, ls, fs);
    assert r[1..8] == header;
    assert r[8..12] == counts;
    assert r[12] == ls[0];
    assert r[12 + |ls|] == fs[0];
  }

  /**
   * The report is one YAML document: it starts with `---` and ends with
   * `...`; the header follows the start, then the totals at no indent, then
   * `languages:` and, after the language blocks, `files:`. (`Report` is the
   * document of these parts, for the sorted languages and paths.)
   */
  lemma ReportLayout(header: seq<JString>, totals: Counts, languages: seq<Language>, languageCounts: map<Language, Counts>,
                     paths: seq<Path>, pc: PathCounts, fileCounts: map<Path, Counts>, relativize: Path -> JString)
    requires |header| == 7
    requires forall l :: l in languages ==> l in languageCounts
    requires forall p :: p in paths ==> p in pc && p in fileCounts
    ensures var r := Document(header, CountsLines(None, totals), LanguagesSection(languages, languageCounts),
                              FilesSection(paths, pc, fileCounts, relativize));
      && r[0] == Lit("---") && r[|r| - 1] == Lit("...")
      && r[1..8] == header
      && r[8..12] == CountsLines(None, totals)
      && r[12] == Lit("languages:")
      && r[13 + |LanguageBlocks(languages, languageCounts)|] == Lit("files:")
  {
    DocumentLayout(header, CountsLines(None, totals), LanguagesSection(languages, languageCounts),
                   FilesSection(paths, pc, fileCounts, relativize));
  }

  /**
   * `YamlReport.generateReport`, which works from the counts map itself
   * through `CountUtils`. The timestamp, the project's name and version and
   * the relativization of paths against the root project are parameters.
   */
  method GenerateReport(pc: PathCounts, date: JString, projectName: JString, version: JString, relativize: Path -> JString)
    returns (lines: seq<JString>)
    requires AllRecognized(pc)
    requires InjectiveOn(Languages(pc), DisplayName)
    ensures lines == Report(pc, date, projectName, version, relativize)
  {
    var totalCounts := ComputeTotal(pc);
    var languages := Languages(pc);
    var dateLine := Writeln(Lit("date: "), Some(date));
    var nameLine := Writeln(Lit("projectName: "), Some(projectName));
    var versionLine := Writeln(Lit("projectVersion: "), Some(version));
    var header := [NumberLine(None, Lit("formatVersion: "), FORMAT_VERSION)] + dateLine + nameLine + versionLine
      + [ NumberLine(None, Lit("numFiles: "), |pc|), NumberLine(None, Lit("numUnrecognized: "), |Unrecognized(pc)|),
          NumberLine(None, Lit("numLanguages: "), |languages|) ];
    var languageLines := WriteLanguages(pc);
    var fileLines := WriteFiles(pc, relativize);
    lines := Document(header, CountsLines(None, totalCounts), languageLines, fileLines);
  }
}
